=== FILE: README.md ===
# bestiapop climate pipeline, modelled in Dafny

BestiaPop fetches daily climate series from SILO and NASA POWER for a grid of
coordinates and a span of years. It builds one long table of
(lon, lat, year, day, variable, value) rows from them. It then normalises that
table into MET, WHT or CSV files, one per coordinate pair.

This project models the deterministic logic around the network and file I/O:

- **Request resolution.** The year-spec parser and the coordinate-list generator
  of `MyUtilityBeast` (modules `Ranges` and `Grid`), and the earlier variants in
  the older scripts (`LegacyRanges`, `RootScript.Init`).
- **The connectors.**
  - The SILO and NASA POWER variable-code tables and their request strings.
  - The single-slot response caches, as explicit records with a fetch counter.
  - NASA's filtering of date keys by year.
  - The absence rule ("position 1 is missing, so the whole series is dropped").
  - The construction of rows by the leap rule (`Silo`, `NasaPower`, `Series`,
    `Calendar`).
- **The assembler.** `generate_climate_dataframe_from_disk` and the
  command-line front end of `CLIMATEBEAST`: argument splitting, the start-up
  guard, the parallel-axis choice and the merge of worker results (`Beast`). Its
  nested loops run on a sweep engine (`Sweep`) that the root `bestiapop.py` script
  shares, with pruning switched off.
- **Output normalisation.** `generate_output`: the axis choice, the empty guard,
  rename and group-sum, per-coordinate slicing, the DSSAT date, and the WHT, MET
  and CSV file names (`Table`, `Formats`, `Output`).
- **The older scripts.**
  - `bestiapop.py` at the repository root (`RootScript`).
  - `legacy/bestiapop.py` (`LegacyScript`).
  - `legacy/climatextractor.py` and the root `climatextractor.py` (`Extractor`).

Conventions of the model:

- Coordinates are integers in hundredths of a degree. The grid step is 5 for
  SILO and 100 for NASA POWER.
- Daily values are `Option<int>`, where `None` stands for NaN or a masked value.
- A Python exception is a `Fault` value. The assemblers catch only the faults that
  `IsValueError` marks.
- Server responses, opened NetCDF files and the presence of files on disk are
  inputs.
- The length of a floating-point `numpy.arange` is a choice. Each such `arange`
  takes a boolean `drift` parameter that decides whether rounding error added the
  end point.
- Text conversions (`str()`, `int()`, `float()`, `split`, `replace`, `zfill`) are
  modelled in `Text` on ASCII decimal text, together with their round trips.

Every operation returns a `Result`, so each error path of the source is an
explicit outcome rather than a precondition. That includes the exceptions the
scripts raise by accident, such as unbound names, TypeErrors and
AttributeErrors. Several of these are reproduced as the code is written; see
"Where the code and its comments differ" below.

## Model

| member | source | states |
|---|---|---|
| Calendar.DaysInYear | bestiapop/connectors/silo_connector.py:102-105 | A year has 366 days exactly when the leap rule holds, and 365 days otherwise. |
| Calendar.DayNumbers | bestiapop/connectors/nasapower_connector.py:106-109 | The day column has one entry per day of the year, numbered from 1. |
| Calendar.LeapYearExamples | bestiapop.py:352-355 | 2019 and 1900 have 365 days; 2020 and 2000 have 366. |
| Calendar.DaysRepeatEvery400Years | legacy/bestiapop.py:317-320 | The day count of a year repeats every 400 years. |
| Grid.GridStep | bestiapop/common/bestiapop_utils.py:189-192 | The grid step is 0.05 degrees for SILO and 1 degree for NASA POWER. |
| Grid.RoundHalfEven | bestiapop/common/bestiapop_utils.py:215 | The step count is the nearest integer to the quotient, and the even one on a tie. |
| Grid.RoundHalfEvenOfMultiple | bestiapop/common/bestiapop_utils.py:215 | A span of exactly k steps rounds to k. |
| Grid.Arange | bestiapop/common/bestiapop_utils.py:216 | `arange` starts at `start` and rises by `step`. Its length is the number of steps below `stop`, plus one when drift adds the end point. |
| Grid.ArangeIsHalfOpen | bestiapop/common/bestiapop_utils.py:216 | Without drift, every element lies below `stop`, and one more step would reach it. |
| Grid.ArangeDriftAddsEnd | bestiapop/common/bestiapop_utils.py:220 | On a whole number of steps, drift appends exactly the end point. |
| Ranges.IntRange | bestiapop/common/bestiapop_utils.py:175 | The range holds every integer from `first` up to `stop - 1`, ascending, and is empty when `stop <= first`. |
| Ranges.YearsFromSpec | bestiapop/common/bestiapop_utils.py:166-179 | Text with "-" gives the years from the first number to the second inclusive. Other text gives the one year it reads as. Text that `int()` rejects fails with a ValueError. |
| Ranges.YearsFromPrintedRange | bestiapop/common/bestiapop_utils.py:172-175 | The printed range "a-b" reads back as every year from a to b. |
| Ranges.YearsFromPrintedYear | bestiapop/common/bestiapop_utils.py:176-177 | A printed year reads back as that single year. |
| Ranges.CorrectedSpan | bestiapop/common/bestiapop_utils.py:215-223 | Whether drift adds an element or not, the corrected list starts at `first`, rises by the step, and has round(\|last-first\|/step)+1 elements. |
| Ranges.SpanLengths | bestiapop/common/bestiapop_utils.py:216-223 | Either the first `arange` already has round(\|last-first\|/step)+1 elements, or the inclusive regeneration has that many or one more, so deleting one element always reaches the count. |
| Ranges.LatitudeList | bestiapop/common/bestiapop_utils.py:194-225 | A file's latitude array comes back unchanged, and a missing one fails in `len()`. Two negative endpoints, in either order, give the corrected span rising from the lower one. A non-negative endpoint leaves `first_lat` unbound, and a shorter list leaves `lat_range` unbound. |
| Ranges.Truth | bestiapop/bestiapop.py:228-232 | A missing list is false, and a list is true when it has items. An array is false when empty, true or false by its one value, and raises ValueError with two or more values. |
| Ranges.LongitudeList | bestiapop/common/bestiapop_utils.py:227-250 | A false argument (None, an empty list, an empty or single-zero array) skips the branch, so the call returns None. A true argument with one value leaves `lon_range` unbound. Two endpoints are swapped whenever they descend. If the first `arange` already has the right length it is the result; otherwise the call reads the unbound latitude counter. A file's array of two or more values fails the truth test. |
| Ranges.CoordinateList | bestiapop/common/bestiapop_utils.py:181-250 | The outcome of `get_coordinate_numpy_list` for every axis and every kind of argument: a list, the None a false longitude argument returns, or the exception raised. |
| Ranges.CoordinateOrderIrrelevant | bestiapop/common/bestiapop_utils.py:202-211 | Longitude endpoints in either order give the same list, and so do two negative latitude endpoints. |
| Ranges.LongitudeOnGridFails | bestiapop/common/bestiapop_utils.py:245-249 | A longitude span of whole steps fails with the unbound `lat_value_count` unless drift adds the end point, in which case it succeeds. |
| LegacyRanges.ExpandPair | bestiapop.py:174-203 | A list of at most one element is kept. Two endpoints expand to an end-exclusive 0.05-degree `arange`, with the same swap rules and the same unbound `first_lat` for a non-negative latitude. |
| LegacyRanges.GuardedExpansion | legacy/bestiapop.py:143-172 | A missing or empty list leaves the attribute unset, so reading it later fails with AttributeError; anything else expands. |
| LegacyRanges.UnguardedExpansion | legacy/climatextractor.py:123-153 | Without the truth test a missing list fails in `len()`. |
| LegacyRanges.GuardedInit | legacy/bestiapop.py:134-172 | The set-up followed by the first read of the ranges succeeds exactly when the years and both coordinate lists resolve, and then holds what each resolves to. A missing or empty list passes the constructor and fails with AttributeError when first read. |
| LegacyRanges.UnguardedInit | legacy/climatextractor.py:117-153 | The same, for the script without the truth test. |
| LegacyRanges.OnGridCounts | bestiapop.py:189 | An on-grid span of k steps has k+1 grid points, of which `arange` without drift yields k. |
| LegacyRanges.OlderExpansionDropsEndPoint | bestiapop.py:189 | On an on-grid span without drift, the older expansion is the current resolver's list without its last point. |
| Series.LocalValues | bestiapop/connectors/silo_connector.py:183-192 | A cell's values are found exactly when the variable and the cell are in the dataset; otherwise the lookup fails with a KeyError. |
| Series.YearlyRows | bestiapop/connectors/silo_connector.py:201-228 | A frame is built exactly when position 1 holds a value and the series is as long as the year. Each row carries the requested lon, lat and year, day i+1 and the i-th value. Otherwise the call fails with ValueError, or with IndexError on a series shorter than two. |
| Series.LocalYearly | bestiapop/connectors/silo_connector.py:183-228 | A local read succeeds exactly when the lookup and the frame both succeed. A failed lookup is a KeyError. |
| Series.YearlyRowsKeepValues | bestiapop/connectors/silo_connector.py:211-222 | The frame keeps every value in day order, including missing values after position 1. |
| Series.YearlyRowsDays | bestiapop/connectors/silo_connector.py:216-222 | The frame's days are the year's day numbers, so no (lon, lat, year, day) key repeats. |
| Series.PresenceIgnoresOtherDays | bestiapop/connectors/silo_connector.py:201-202 | Whether a series is kept depends only on its length and on position 1. |
| Silo.CodesNotInjective | bestiapop/connectors/silo_connector.py:53-72 | `daily_rain` and `monthly_rain` share the code `R`, so the code string cannot be translated back. |
| Silo.RequestCodes | bestiapop/connectors/silo_connector.py:76-77 | The code string has one code per variable, in request order. The first unknown variable fails with a KeyError. |
| Silo.NewConnector | bestiapop/connectors/silo_connector.py:76-77 | Construction succeeds exactly when every variable has a code, and then starts with an empty cache and no requests. |
| Silo.MeasurementIndex | bestiapop/connectors/silo_connector.py:80 | The index found is the first measurement carrying the variable; no index means no measurement carries it. |
| Silo.ColumnAt | bestiapop/connectors/silo_connector.py:180 | The value at the fixed index is taken from every record, in record order. Any record too short makes the call fail with IndexError. |
| Silo.ResponseValues | bestiapop/connectors/silo_connector.py:179-180 | A response without records, or without the variable in its first record, fails with IndexError. Otherwise the values are read at the index the first record gives. |
| Silo.CloudYearly | bestiapop/connectors/silo_connector.py:108-180 | On a cache hit the connector is unchanged. On a miss the single-year response replaces the cache and the fetch count rises by one. In both cases the rows are read from the cached response. |
| Silo.Yearly | bestiapop/connectors/silo_connector.py:108-228 | SILO without an input path reads the server, and an open dataset is read locally. Any other combination leaves `data_values` unbound. |
| Silo.AnswerFits | bestiapop/connectors/silo_connector.py:114-120 | A response dated in the requested year at the requested location fits the cache test. |
| Silo.SecondVariableUsesCache | bestiapop/connectors/silo_connector.py:112-129 | After one fetch, another variable of the same cell and year makes no further request. |
| Silo.OtherYearRefetches | bestiapop/connectors/silo_connector.py:120-122 | A response for another year is never reused. |
| Silo.OtherCellRefetches | bestiapop/connectors/silo_connector.py:117-122 | A response for another location is never reused. |
| Silo.CloudValuesAtFixedIndex | bestiapop/connectors/silo_connector.py:179-180 | Every row's value comes from its own record at the first record's index, with days numbered from 1 and the requested lat, lon and year. |
| NasaPower.Parameters | bestiapop/connectors/nasapower_connector.py:56-65 | Only the four translatable variables succeed; the first other variable fails with a KeyError. |
| NasaPower.ParameterStringSplitsBack | bestiapop/connectors/nasapower_connector.py:66 | The comma-joined parameter string splits back into the parameters. |
| NasaPower.NewConnector | bestiapop/connectors/nasapower_connector.py:56-66 | Construction succeeds exactly when every variable translates, and then starts with an empty cache. |
| NasaPower.RoundCoordinate | bestiapop/connectors/nasapower_connector.py:119-122 | A coordinate in units of 0.00001 degrees rounds to the nearest hundredth, within half a hundredth. |
| NasaPower.QueryCoversSpan | bestiapop/connectors/nasapower_connector.py:131-149 | A refetch asks for 1 January of the first year to 31 December of the last. |
| NasaPower.FilterBy | bestiapop/connectors/nasapower_connector.py:198 | Filtering succeeds exactly when every key's year can be read, and keeps at most every value. A key whose year cannot be read raises ValueError. |
| NasaPower.FilterByIsKeptBy | bestiapop/connectors/nasapower_connector.py:198 | When every key reads, the filter keeps exactly the values whose key reads as the year, in key order, as an independent back-to-front definition states it. |
| NasaPower.FilterYear | bestiapop/connectors/nasapower_connector.py:197-198 | The year's series is exactly the values whose key's first four characters read as that year, in key order. A key whose first four characters are not a number raises ValueError. |
| NasaPower.FilterByAppend | bestiapop/connectors/nasapower_connector.py:198 | Filtering a concatenation filters each part and joins the results. |
| NasaPower.FilterYearOfBlock | bestiapop/connectors/nasapower_connector.py:198 | A run of keys that all start with year y yields all its values for y and nothing for any other year. |
| NasaPower.SpanSplitsByYear | bestiapop/connectors/nasapower_connector.py:198 | A response spanning two years gives each year exactly its own run of values. |
| NasaPower.CachedValues | bestiapop/connectors/nasapower_connector.py:197-198 | The variable is translated, and the year's values are filtered from its entries. A missing parameter fails with a KeyError. |
| NasaPower.CloudYearly | bestiapop/connectors/nasapower_connector.py:112-201 | On a hit the connector is unchanged. On a miss the whole span is fetched and cached. An empty year range fails with IndexError. |
| NasaPower.Yearly | bestiapop/connectors/nasapower_connector.py:112-211 | NASA POWER without an input path reads the server, and an open dataset is read locally. Any other combination leaves `data_values` unbound. |
| NasaPower.LaterYearUsesCache | bestiapop/connectors/nasapower_connector.py:116-125 | Once the server has answered for a point, later years at that point make no request. |
| NasaPower.OtherPointRefetches | bestiapop/connectors/nasapower_connector.py:116-125 | Another point always goes back to the server. |
| Table.InsertKey | bestiapop/producers/output.py:118 | Inserting a key keeps the key list sorted and adds exactly that key. |
| Table.SortedKeys | bestiapop/producers/output.py:118 | The grouped keys are the table's distinct keys, each once, in ascending order. |
| Table.GroupSum | bestiapop/producers/output.py:117-118 | An empty table, or one missing a value column, fails with a KeyError. Otherwise there is one row per distinct (lon, lat, year, day), in ascending key order, and each column holds the sum over the rows with that key. |
| Table.GroupSumConserves | bestiapop/producers/output.py:117-118 | Grouping neither loses nor double-counts a measurement: each column's total is unchanged. |
| Table.Select | bestiapop/producers/output.py:133 | A row is selected exactly when it is in the table at that coordinate. |
| Table.SelectSorted | bestiapop/producers/output.py:133 | Selecting from a sorted table keeps it sorted. |
| Table.Slice | bestiapop/producers/output.py:133-135 | A slice has one row per selected row, with the same date and values, and without lat and lon. |
| Table.SliceChronological | bestiapop/producers/output.py:133-135 | A slice of a grouped table runs strictly forward in time. |
| Formats.DssatDateReadsBack | bestiapop/producers/output.py:159-163 | A four-digit year and a day up to 999 give five digits: the year modulo 100, then the day. |
| Formats.DssatDateRepeatsEveryCentury | bestiapop/producers/output.py:159 | Years a century apart give the same DSSAT date. |
| Formats.WhtRows | bestiapop/producers/output.py:357-364 | Each WHT row keeps its slice row's date and values, in order. |
| Formats.Distinct | bestiapop/producers/output.py:427 | The distinct values appear once each, in order of first appearance. |
| Formats.LeadingYears | bestiapop/producers/output.py:426 | The leading two characters of each DSSAT date are read as a number. Text that `int()` rejects fails with a ValueError. |
| Formats.WhtName | bestiapop/producers/output.py:425-444 | The name is the dotless lat, the dotless lon, the first two-digit year, the count of distinct years, then ".WHT". An empty slice fails with IndexError. |
| Formats.WhtNameOfYears | bestiapop/producers/output.py:425-444 | On four-digit years the name carries the first year modulo 100 and the number of distinct two-digit years. |
| Formats.CsvNameReadsBack | bestiapop/producers/output.py:219 | The text before the first "-" of the CSV name of a non-negative latitude reads back as that latitude. |
| Output.PrimaryAxis | bestiapop/producers/output.py:66-81 | The longer list is the outer loop; a tie goes to the latitudes. |
| Output.NestAt | bestiapop/producers/output.py:122-131 | In a nest of two lists, position i·\|inner\|+j holds the pair of outer[i] and inner[j]: the outer list varies slowest. |
| Output.OffsetIsProduct | bestiapop/producers/output.py:122-131 | The offset of row i of the nest is i times the row width. |
| Output.Pairs | bestiapop/producers/output.py:122-131 | There are \|lats\| times \|lons\| pairs, and every (lat, lon) combination occurs among them. |
| Output.PairsByLongitude | bestiapop/producers/output.py:75-81 | With more longitudes than latitudes, the pairs run longitude by longitude. |
| Output.PrintedSlices | bestiapop/producers/output.py:90-106 | One printed slice per pair, in order. |
| Output.MetFiles | bestiapop/producers/output.py:122-137 | A source other than silo or nasapower ends output at the first pair with an unbound `data_source`. When nothing is raised there is one MET file per pair, in order, named `lat-lon.met` and holding its coordinate's slice. |
| Output.WhtFileFor | bestiapop/producers/output.py:167-182 | A WHT file carries its coordinate's slice as WHT rows, under the name that slice gives. |
| Output.WhtFiles | bestiapop/producers/output.py:167-182 | Files are emitted in pair order until one pair's name cannot be built. |
| Output.WhtStopsAtEmptySlice | bestiapop/producers/output.py:427-428 | A pair without data ends WHT output with IndexError, after the files of the pairs before it. |
| Output.CsvFiles | bestiapop/producers/output.py:205-228 | One `lat-lon.source.csv` file per pair, holding its rows with lat and lon kept, then the whole table. |
| Output.GenerateOutput | bestiapop/producers/output.py:51-231 | MET and WHT return on an empty table. A table that cannot be grouped writes no file, and on stdout its KeyError escapes. CSV into a missing folder writes nothing. Otherwise each output type emits exactly what its per-pair function gives on the grouped table. |
| Output.MissingColumnWritesNothing | bestiapop/producers/output.py:142-143 | A table missing one of the four value columns makes MET, WHT and CSV output write no file. |
| Output.MetFilesChronological | bestiapop/producers/output.py:133-137 | Every MET file's days run strictly forward in time. |
| Output.MetFilesKeepEveryDay | bestiapop/producers/output.py:118-137 | Every grouped day at a requested coordinate is in that coordinate's MET file. |
| Output.WhtNamesCollide | bestiapop/producers/output.py:425-426 | Different coordinates can share a WHT file name once the decimal points are dropped. |
| Sweep.Run | bestiapop/bestiapop.py:610-670 | An exception that escapes is not a ValueError and is the extraction fault of a present task. Otherwise the result accounts for every task. |
| Sweep.Step | bestiapop/bestiapop.py:630-667 | A missing file or a pruned longitude leaves the state alone. A ValueError records the longitude as empty. A success appends the rows. |
| Sweep.FirstTaskFatal | bestiapop/bestiapop.py:653-667 | An exception other than ValueError from the first task escapes the sweep. |
| Sweep.UnprunedFatalEscapes | bestiapop.py:480-489 | Without pruning every present task is tried, so a fatal exception of any of them escapes. |
| Sweep.AbsentTaskChangesNothing | bestiapop/bestiapop.py:630-632 | A missing source file leaves the sweep exactly as it was, and marks no longitude empty. |
| Sweep.PrunedNeverRetried | bestiapop/bestiapop.py:645-646 | With pruning, no longitude is tried again after a try of it has failed. |
| Sweep.EmptyMeansFailed | bestiapop/bestiapop.py:662-667 | A longitude ends up empty exactly when some present task at it has a failing extraction. |
| Sweep.RowsFromPresentTasks | bestiapop/bestiapop.py:669-670 | Every row of the result comes from a successful extraction of a present task. |
| Sweep.PrunedEmptyDistinct | bestiapop/bestiapop.py:665-667 | With pruning, each empty longitude is recorded once. |
| Sweep.YearMajor | bestiapop/bestiapop.py:610-641 | The loops visit exactly the (year, variable, lat, lon) combinations of the four lists. |
| Sweep.VariableMajor | bestiapop.py:432-471 | The loops visit exactly the (variable, year, lat, lon) combinations of the four lists. |
| Sweep.LoopOrdersVisitSameTasks | bestiapop.py:432-471 | Both loop orders visit the same tasks. |
| Sweep.YearMajorInYearOrder | bestiapop/bestiapop.py:610 | On ascending years, year-major order never returns to an earlier year. |
| SortedInts.Unique | bestiapop/bestiapop.py:348 | `numpy.unique` gives the distinct values, strictly ascending. |
| SortedInts.SetDiff | bestiapop/bestiapop.py:683-684 | `setdiff1d` gives the distinct values not dropped, strictly ascending. |
| SortedInts.IncreasingUnique | bestiapop/bestiapop.py:348 | Two ascending lists with the same values are equal. |
| SortedInts.UnionAll | bestiapop/bestiapop.py:344-348 | The fold of `unique(concatenate(...))` gives the values of all the lists, strictly ascending. |
| Beast.SpaceSeparatedList | bestiapop/bestiapop.py:192-198 | Text with a space is split on whitespace; other text is one item. Either way, only whitespace is lost. |
| Beast.SpaceSeparatedListOfJoin | bestiapop/bestiapop.py:192-198 | Words joined by single spaces split back into the same words. |
| Beast.SpaceSeparatedFloats | bestiapop/bestiapop.py:184-190 | Each item is read by `float()`, and the first unreadable item fails with a ValueError. |
| Beast.SpaceSeparatedFloatsOfPrinted | bestiapop/bestiapop.py:184-190 | Coordinates printed and separated by spaces read back exactly. |
| Beast.Proceeds | bestiapop/bestiapop.py:227-233 | The download action always proceeds. Any other action proceeds only when both ranges are true. |
| Beast.MissingRangeStops | bestiapop/bestiapop.py:227-233 | A missing or empty coordinate list stops every action except the download. |
| Beast.CoordinateFileRejected | bestiapop/bestiapop.py:228 | A coordinate file with two or more values cannot pass the check. |
| Beast.ParallelAxis | bestiapop/bestiapop.py:312-320 | The worker pool is spread over the same axis the output loops choose: latitudes, unless they are strictly fewer than the longitudes. |
| Beast.Merge | bestiapop/bestiapop.py:344-348 | The frames are concatenated in order, and the longitude lists are merged into their sorted, duplicate-free union. |
| Beast.MergeOrderIrrelevant | bestiapop/bestiapop.py:344-348 | The merged longitudes do not depend on the order the workers finish in. |
| Beast.DiskExtract | bestiapop/bestiapop.py:655-660 | In the loop as it would run with `tqdm` bound: SILO data is read from the file's dataset. NASA POWER data fails with a TypeError, since the call lacks its `year_range`. Any other source leaves the frame unbound. |
| Beast.DiskRunEmpty | bestiapop/bestiapop.py:662-667 | In the loop as it would run with `tqdm` bound: a longitude is reported empty exactly when some present extraction at it failed. |
| Beast.DiskRunRows | bestiapop/bestiapop.py:669-670 | In the loop as it would run with `tqdm` bound: every row comes from a present task whose extraction succeeded. |
| Beast.DiskFrame | bestiapop/bestiapop.py:683-687 | In the loop as it would run with `tqdm` bound: the returned longitudes are the requested ones that never failed, ascending and distinct. |
| Beast.FromDisk | bestiapop/bestiapop.py:603-610 | Both connectors are built first, so an untranslatable variable fails with its KeyError. Every call that gets past them raises NameError on `tqdm`, which the module never imports, so the method never returns a frame. |
| Beast.FromDiskFailsBeforeSweep | bestiapop/bestiapop.py:603-610 | The NameError on `tqdm` comes exactly when both connectors are built; any other failure is the connectors', the same as with `tqdm` bound. |
| Beast.FromDiskWithTqdm | bestiapop/bestiapop.py:576-687 | The same method with `tqdm` imported: the connectors, then the year-major sweep with pruning. The rows come from present successful extractions, and the longitudes are the requested ones that never failed, ascending. |
| Beast.SiloOnlyVariableFails | bestiapop/bestiapop.py:605-606 | A variable SILO knows but NASA POWER does not fails the disk extraction at the connectors, even for SILO data, with or without `tqdm` bound. |
| Beast.NasaPowerFromDiskFails | bestiapop/bestiapop.py:660 | With `tqdm` bound and NASA POWER data, the first extraction reached raises TypeError. |
| Beast.NoFilesKeepsAllLongitudes | bestiapop/bestiapop.py:630-632 | With `tqdm` bound, a directory without any of the needed files yields no rows and keeps every longitude. |
| RootScript.Attribute | bestiapop.py:177-203 | A missing or empty list leaves the attribute unset; anything else is expanded. |
| RootScript.Init | bestiapop.py:148-203 | Years, then latitudes, then longitudes resolve, and the first fault wins. |
| RootScript.InitAgreesWithGuardedInit | bestiapop.py:165-203 | Where both ranges are set, the set-up agrees with the combined range parsing of `LegacyRanges`. |
| RootScript.Opened | bestiapop.py:445-463 | A folder without the file skips the block. A single-file path is opened whatever its name. Without an input path the bucket object is read. A path that is neither leaves `sourcepath` unbound. |
| RootScript.CellRows | bestiapop.py:482-489 | The extraction builds the frame for the file's own year. A ValueError is caught unless the longitudes are a plain list, in which case the lookup in the except branch raises IndexError. |
| RootScript.Blocks | bestiapop.py:432-438 | The blocks are exactly the (variable, year) combinations of the two lists. |
| RootScript.DiskSweep | bestiapop.py:449-515 | The sweep over files on disk succeeds only when no block has a file, and then holds nothing. The first file found ends the run. |
| RootScript.Extraction | bestiapop.py:432-519 | Cloud mode sweeps every cell without pruning, and its longitudes are the set difference. A file found on disk ends the run. |
| RootScript.PairFiles | bestiapop.py:535-548 | The output loops write one MET or CSV file per pair, latitudes outermost, and nothing for other output types. |
| RootScript.Generate | bestiapop.py:405-548 | An empty table writes nothing. Otherwise the table is grouped and summed, and one file is written per remaining pair. |
| RootScript.ProcessRecords | bestiapop.py:219-254 | Downloads one file per year and variable, or runs the MET extraction. The csv action fails. Any other action does nothing. |
| RootScript.Downloads | bestiapop.py:221-226 | There is one download of `year.variable.nc` per (year, variable) pair, and nothing else. |
| RootScript.DiskRunWritesNothing | bestiapop.py:449-515 | Reading from disk never writes an output file. |
| RootScript.DiskFileEndsRun | bestiapop.py:513-515 | A yearly file found on disk always ends the run with an exception. |
| RootScript.EveryCellTried | bestiapop.py:466-489 | Without pruning, every cell of every block is tried, failed longitudes included. |
| RootScript.RemainingLongitudes | bestiapop.py:518-519 | The longitudes that get files are the requested ones at which no cell failed. |
| RootScript.PlainLongitudeFailureEscapes | bestiapop.py:484-489 | With a single longitude, a cell without data is not skipped; IndexError escapes. |
| RootScript.CsvActionAlwaysFails | bestiapop.py:231-241 | The csv action omits a required argument, so it never gets past its own call. |
| LegacyScript.Kept | legacy/bestiapop.py:330-339 | Nothing is dropped exactly when no value is NaN, and then the values are kept in order. Nothing is left exactly when every value is NaN. |
| LegacyScript.CellFrame | legacy/bestiapop.py:312-365 | NaN values are dropped, and none left raises ValueError. Fewer values than days raises ValueError for unequal columns. Otherwise the rows hold the year, day i+1 and the i-th kept value. |
| LegacyScript.CellFrameNeedsEveryDay | legacy/bestiapop.py:330-363 | On a series as long as the year, a cell is kept exactly when no day is missing. |
| LegacyScript.CellFrameStricterThanLocalYearly | legacy/bestiapop.py:330-339 | On a series as long as the year, whatever this version keeps, the later position-1 rule keeps too. |
| LegacyScript.OneMissingDayDropsCell | legacy/bestiapop.py:330-339 | A single missing day drops a cell here that the later rule keeps. |
| LegacyScript.NewColumns | legacy/bestiapop.py:468 | Exactly the columns of the new frame that the year's frame lacks; when the new frame's columns are distinct, so are these. |
| LegacyScript.MergeNew | legacy/bestiapop.py:469 | The outer join on row index keeps the old columns and adds the new ones, row by row. |
| LegacyScript.Accumulate | legacy/bestiapop.py:462-469 | The first variable's frame initialises the year; later ones add only the columns not yet present. |
| LegacyScript.YearFrame | legacy/bestiapop.py:403-469 | Per cell and year, the variables are merged in order into a frame whose columns are `year`, `days` and requested variables. A cell without data is skipped, and a fault that escapes is never a ValueError. |
| LegacyScript.YearFrameKeepsEachVariable | legacy/bestiapop.py:447-469 | Each variable that has data keeps its values in the year's frame, at the same rows. |
| LegacyScript.AppendYears | legacy/bestiapop.py:495-496 | The rows of each year's frame are appended in order, and the first year that raises ends the loop. |
| LegacyScript.CellRows | legacy/bestiapop.py:403-496 | A cell's rows are built exactly when every year's frame is, and a fault that escapes is never a ValueError. |
| LegacyScript.WriteCells | legacy/bestiapop.py:402-508 | One file per cell, in order, until a cell raises. |
| LegacyScript.MetRun | legacy/bestiapop.py:402-508 | The MET run writes `lat-lon.met` for each cell in order, until a cell raises. |
| LegacyScript.RequestMetRun | legacy/bestiapop.py:401-403 | Over a resolved request the cells run latitudes outermost: the file at position i·\|lons\|+j belongs to lats[i] and lons[j] and holds that cell's rows. The run completes exactly when every cell yields its rows, and then writes \|lats\|·\|lons\| files. |
| LegacyScript.CellFileIgnoresOtherCells | legacy/bestiapop.py:447-450 | Without pruning, a cell's MET file depends on that cell alone. |
| Extractor.GridAxis | legacy/climatextractor.py:229-243 | The rebuilt axis starts at the file's first coordinate, rises by 0.05 degrees, and covers every grid point up to its last. |
| Extractor.GridAxisOfRegularAxis | legacy/climatextractor.py:229-243 | On a file whose coordinates lie on a regular grid, the rebuilt axis is the file's own, plus one point when drift adds it. |
| Extractor.UnitsYear | legacy/climatextractor.py:216 | The year is the four characters after "days since ", read by `int()`. |
| Extractor.UnitsYearReadsBack | legacy/climatextractor.py:216 | A year printed in the units text reads back. |
| Extractor.Load | climatextractor.py:149-200 | The root script's loader succeeds exactly when the year can be read, the variable is present and both coordinate variables have values. It then holds the year, the variable's array and the two rebuilt axes. A missing variable fails with a KeyError. |
| Extractor.LegacyLoad | legacy/climatextractor.py:201-224 | The legacy loader never returns: an unreadable year raises ValueError, a missing variable KeyError, and every other call NameError on `TQDMDaskProgressBar`. |
| Extractor.LegacyLoadAgreesWithLoad | legacy/climatextractor.py:201-224 | Wherever the root loader returns a file the legacy one raises NameError; any other exception of the legacy loader is the root loader's too. |
| Extractor.Position | legacy/climatextractor.py:322-323 | A value that occurs exactly once is found at its position; otherwise the call fails with a ValueError. |
| Extractor.GridPosition | legacy/climatextractor.py:322-323 | On a rebuilt axis, a coordinate is found exactly when it lies on the grid within the axis. |
| Extractor.PositionOnIncreasing | climatextractor.py:239-240 | On a strictly increasing axis, every element is found at its own position. |
| Extractor.DayValues | legacy/climatextractor.py:325-327 | One value per day, in order. An index past the array fails with IndexError. |
| Extractor.CellDays | legacy/climatextractor.py:314-327 | The cell is read at its positions on both axes, for as many days as the year has. A coordinate not found exactly once raises ValueError. |
| Extractor.CellSeries | legacy/climatextractor.py:311-385 | Masked days are dropped, and none left raises ValueError. Fewer values than days raises ValueError for unequal columns. Otherwise the rows hold the year, day i+1 and the value. |
| Extractor.DriftPointEscapes | legacy/climatextractor.py:242-243 | A drift point past the file's last latitude reads past the array and escapes the sweep. |
| Extractor.CellsOf | legacy/climatextractor.py:435-453 | One event per (lat, lon) combination, each being the extraction of that cell in the file's year. |
| Extractor.Events | legacy/climatextractor.py:407-453 | A year whose file is missing is skipped. A file that fails to load, with either loader, ends the events with its exception. Only the last event can be a halt. |
| Extractor.FirstFile | legacy/climatextractor.py:407-427 | The position of the first year whose file is in the folder: every earlier year's file is missing. |
| Extractor.LegacyEventsHalt | legacy/climatextractor.py:407-429 | With the legacy loader the events are empty when no year has a file, and otherwise one halt with the first present file's load exception. |
| Extractor.Replay | legacy/climatextractor.py:448-481 | In the cell loop, reached once a file loads: a run never writes more files than it has events, and a MET run writes none. |
| Extractor.ReplayCompletes | legacy/climatextractor.py:448-481 | In the cell loop, reached once a file loads: the sweep completes exactly when no event is fatal, and then `temp_df` holds the last extracted frame. |
| Extractor.ReplayWrites | legacy/climatextractor.py:472-475 | In the cell loop, reached once a file loads: in a CSV run the i-th file belongs to the i-th cell and holds the latest frame up to it. |
| Extractor.Generate | legacy/climatextractor.py:387-429 | `generate_silo_dataframe` on a folder as written never writes a file. It completes exactly when no year has a file; otherwise it raises what the legacy loader raises on the first present year's file. |
| Extractor.GenerateWithRootLoad | legacy/climatextractor.py:387-481 | The same sweep with a loader that returns the file, as the root script's does: it completes exactly when no event is fatal, and in a CSV run the i-th file is the i-th cell's. |
| Extractor.StaleFrameReused | legacy/climatextractor.py:448-453 | In the cell loop, reached once a file loads: a cell whose extraction raises ValueError is written with the previous cell's frame. |
| Extractor.EachFileHoldsItsCell | legacy/climatextractor.py:448-475 | In the cell loop, reached once a file loads: when every cell is extracted, each file holds exactly its own cell's rows. |
| Extractor.FirstCellFailureUnbound | legacy/climatextractor.py:448-453 | In the cell loop, reached once a file loads: a first cell that raises ValueError leaves `temp_df` unbound, and the sweep fails. |
| Extractor.MetRunStops | legacy/climatextractor.py:458-462 | In the cell loop, reached once a file loads: a MET run stops at its first extracted cell with the NameError on `output_dir`. |
| Extractor.RootYears | climatextractor.py:327-330 | A first item holding "-" is expanded as a range; otherwise the items are kept, and an empty list fails with IndexError. |
| Text.ParseIntOfIntToString | bestiapop/common/bestiapop_utils.py:177 | `int()` reads back what `str()` prints. |
| Text.SplitOnJoinWith | bestiapop/common/bestiapop_utils.py:173-174 | Pieces without the separator, joined and split again, come back unchanged. |
| Text.JoinWithSplitOn | bestiapop/common/bestiapop_utils.py:173-174 | Joining the split pieces with the separator gives back the text. |
| Text.WordsKeepText | bestiapop/bestiapop.py:196 | Splitting on whitespace loses only the whitespace. |
| Text.WordsOfJoin | bestiapop/bestiapop.py:196 | Words joined by single spaces split back into the same words. |
| Text.ParseCoordOfCoordToString | bestiapop/bestiapop.py:188 | `float()` reads back a coordinate that `str()` prints. |
| Text.WithoutRemoves | bestiapop/producers/output.py:425 | After `replace(".", "")` no decimal point is left. |
| Text.DropDot | bestiapop/producers/output.py:425 | Dropping the point from "whole.frac" gives the two parts run together. |
| Text.ZFill | bestiapop/producers/output.py:160 | `zfill` makes the text as long as the width, or keeps longer text. Unsigned text gets zeros in front. |

## Left out

- Network and cloud I/O. The SILO DataDrill and NASA POWER HTTP calls, `s3fs`, dataset opening and closing, and the downloads appear only as input functions (`server`, `objects`, file maps) or as a list of downloads.
- The cloud assemblers `generate_climate_dataframe_from_silo_cloud_api` and `..._from_nasapower_cloud_api`. They are not defined in the repository's files. Only the connectors' cloud branches are modelled.
- Multiprocessing: the worker pool, `map_async` polling and interrupt handling. Only the sequential merge fold (`Beast.Merge`) is modelled.
- Floating-point behaviour. Values are rounded to one decimal before they enter the model. `numpy.arange` drift is a boolean parameter. The model does not say which inputs make it true.
- The tav/amp monthly statistics and the Jinja2 MET and WHT templates. The `tabulate` layout and the regex padding clean-up are left out too. MET and WHT files are modelled by their name and their rows.
- Program plumbing: argparse, logging, timing, `main`, output-directory validation and `sys.exit`. The start-up guard is modelled as its outcome (`Beast.Proceeds`).
- File modes. CSV files opened in append mode, and CSV files written to the working directory instead of the output folder, are modelled as one emission per write.
- The download and convert-to-CSV paths of `legacy/bestiapop.py`, and the download path of `legacy/climatextractor.py`. Only the MET path of `legacy/bestiapop.py` is modelled. For `legacy/climatextractor.py` the folder sweep behind both `convert-nc4-to-csv` (its per-cell CSV writes) and the MET branch is modelled, as written (`Extractor.Generate`) and with a loader that returns (`Extractor.GenerateWithRootLoad`).
- The `generate_silo_dataframe` loop of the root `climatextractor.py`. Every call path into it raises NameError, because it calls its helpers without `self.`. Only its file loading, grid axes, cell extraction and year parsing are modelled, shared with `legacy/climatextractor.py` in `Extractor`.
- A non-folder input to `legacy/climatextractor.py`. Its constructor exits, so `Extractor.Generate` covers folders only.
- `setup.py`, `bestiapop/__init__.py` and `bestiapop/__main__.py` are packaging only.
- NasaPower.RoundCoordinate: rounds the server's coordinates given as integers in units of 0.00001 degrees. It does not model the float those integers stand for.
- Beast.SpaceSeparatedFloats: reads only plain decimal text with at most two fractional digits and an optional sign. Text that Python's `float()` also accepts (more decimals, exponents such as "1e2", "nan", "inf", underscores such as "1_0", non-ASCII digits) is reported as a ValueError here, although the program reads it. Coordinates are hundredths of a degree, so such values have no counterpart in the model.
- Text.ParseInt: reads only ASCII decimal digits with an optional sign and surrounding whitespace. Python's `int()` also reads underscores between digits ("20_15") and non-ASCII decimal digits, which are reported as a ValueError here. This applies to every use of it, including `Ranges.YearsFromSpec`, `Extractor.UnitsYear` and `Formats.LeadingYears`.
- Text.IsSpace: covers the ASCII whitespace that `str.split()` and `str.strip()` use. The Unicode whitespace they also split on (such as U+00A0 or U+2003) is treated as an ordinary character, so `Beast.SpaceSeparatedList` keeps such text in one item.
- LegacyScript.NewColumns: keeps the new frame's column order, while `Index.difference` sorts the columns. Only the column order of the merged frame differs, and each new frame adds one variable column.
- Silo.ColumnAt: `numpy.round(x, decimals=1)` of each value is not modelled; values are already in tenths.

## Where the code and its comments differ

The model follows the code in each of these cases.

- A comment in the NASA POWER connector speaks of a half-degree grid. The step in `get_coordinate_numpy_list` is 1 degree (`Grid.GridStep`).
- `get_coordinate_numpy_list` has several unintended failure paths, each modelled as an outcome:
  - it swaps latitudes only when both are negative, and leaves them unbound otherwise;
  - it leaves its result unbound for a one-element list;
  - its longitude branch re-checks the latitude counters (`Ranges.LongitudeOnGridFails`).
- `generate_climate_dataframe_from_disk` wraps its loops in `tqdm`, which `bestiapop/bestiapop.py` never imports. Every call past the connectors raises NameError (`Beast.FromDisk`). With `tqdm` bound, it would still call the NASA POWER connector without its `year_range` argument, so disk input with NASA POWER data could not succeed (`Beast.NasaPowerFromDiskFails`).
- In the root `bestiapop.py`, reading from disk ends in AttributeError on `silo_file` (`RootScript.DiskFileEndsRun`). Its csv action omits `inputdir` (`RootScript.CsvActionAlwaysFails`).
- The `load_cdf_file` of `legacy/climatextractor.py` opens a `TQDMDaskProgressBar` that the script never defines, so the sweep stops at the first year whose file exists and never writes a file (`Extractor.Generate`). Had the loader returned, as the root script's does (`Extractor.GenerateWithRootLoad`), the sweep would write a stale frame for a cell without data (`Extractor.StaleFrameReused`), and its MET branch would name an undefined `output_dir` (`Extractor.MetRunStops`).
- The `CLIMATEBEAST` start-up guard applies Python truth to coordinate arrays read from a file. An array of two or more values raises ValueError (`Beast.CoordinateFileRejected`).

=== FILE: beast.dfy ===
/** The command-line front end of bestiapop/bestiapop.py: splitting the coordinate
    and variable arguments, the check `CLIMATEBEAST.__init__` makes before any
    work, the parallel-axis choice and the merge of worker results, and the
    extraction loop over local NetCDF files (`generate_climate_dataframe_from_disk`).
 */
module Beast {
  import opened Outcomes
  import opened Text
  import opened Table
  import opened Series
  import opened Sweep
  import opened SortedInts
  import opened Ranges
  import Output
  import Silo
  import NasaPower

  // ---------------------------------------------------------------------------
  // Arguments

  /** `space_separated_list`: text with a space is split on whitespace, other text is one item. */
  function SpaceSeparatedList(s: string): (r: seq<string>)
    ensures ' ' !in s ==> r == [s]
    ensures ' ' in s ==> (forall k :: 0 <= k < |r| ==> IsWord(r[k])) && Concat(r) == WithoutSpaces(s)
  {
    if ' ' !in s then [s]
    else
      WordsKeepText(s);
      Words(s)
  }

  /** Words joined by single spaces split back into the same words. */
  lemma SpaceSeparatedListOfJoin(ws: seq<string>)
    requires |ws| >= 2 && forall k :: 0 <= k < |ws| ==> IsWord(ws[k])
    ensures SpaceSeparatedList(JoinWith(ws, ' ')) == ws
  {
    assert JoinWith(ws, ' ') == ws[0] + [' '] + JoinWith(ws[1..], ' ');
    assert JoinWith(ws, ' ')[|ws[0]|] == ' ';
    WordsOfJoin(ws);
  }

  /** `float()` of every item, in order. */
  function ParseAll(items: seq<string>): (r: Result<seq<int>, Fault>)
    ensures r.Ok? <==> forall k :: 0 <= k < |items| ==> ParseCoord(items[k]).Some?
    ensures r.Ok? ==> |r.value| == |items| && forall k :: 0 <= k < |items| ==> r.value[k] == ParseCoord(items[k]).value
    ensures r.Err? ==> r.error.NotANumber?
  {
    ParseEach(items, ParseCoord)
  }

  /** Reads every item with `parse`; the first item it rejects raises. */
  function ParseEach(items: seq<string>, parse: string -> Option<int>): (r: Result<seq<int>, Fault>)
    ensures r.Ok? <==> forall k :: 0 <= k < |items| ==> parse(items[k]).Some?
    ensures r.Ok? ==> |r.value| == |items| && forall k :: 0 <= k < |items| ==> r.value[k] == parse(items[k]).value
    ensures r.Err? ==> r.error.NotANumber?
    decreases |items|
  {
    if |items| == 0 then Ok([])
    else
      match parse(items[0])
      case None => Err(NotANumber(items[0]))
      case Some(x) =>
        match ParseEach(items[1..], parse)
        case Err(e) => Err(e)
        case Ok(xs) =>
          assert forall k :: 1 <= k < |items| ==> items[1..][k - 1] == items[k];
          Ok([x] + xs)
  }

  /** `space_separated_list_float`: the coordinate arguments. */
  function SpaceSeparatedFloats(s: string): (r: Result<seq<int>, Fault>)
    ensures ' ' !in s ==> (r.Ok? <==> ParseCoord(s).Some?)
    ensures ' ' !in s && r.Ok? ==> r.value == [ParseCoord(s).value]
    ensures r.Ok? ==> |r.value| == |SpaceSeparatedList(s)|
    ensures r.Err? ==> IsValueError(r.error)
  {
    ParseAll(SpaceSeparatedList(s))
  }

  function CoordTexts(xs: seq<int>): (ts: seq<string>)
    ensures |ts| == |xs| && forall k :: 0 <= k < |xs| ==> ts[k] == CoordToString(xs[k])
  {
    seq(|xs|, k requires 0 <= k < |xs| => CoordToString(xs[k]))
  }

  lemma CoordTextIsWord(c: int)
    ensures IsWord(CoordToString(c))
  {
    var a: nat := if c < 0 then -c else c;
    var n := NatToString(a / 100);
    ParseFraction(a % 100);
    var f := FractionText(a % 100);
    var s := CoordToString(c);
    assert s == (if c < 0 then "-" else "") + n + "." + f;
    forall i | 0 <= i < |s| ensures !IsSpace(s[i]) {
      var sign := if c < 0 then "-" else "";
      if i < |sign| {
      } else if i < |sign| + |n| {
        assert s[i] == n[i - |sign|] && IsDigit(n[i - |sign|]);
      } else if i == |sign| + |n| {
      } else {
        assert s[i] == f[i - |sign| - |n| - 1] && IsDigit(f[i - |sign| - |n| - 1]);
      }
    }
  }

  /** Coordinates printed and separated by spaces are read back exactly. */
  lemma SpaceSeparatedFloatsOfPrinted(xs: seq<int>)
    requires |xs| >= 2
    ensures SpaceSeparatedFloats(JoinWith(CoordTexts(xs), ' ')) == Ok(xs)
  {
    var ts := CoordTexts(xs);
    var s := JoinWith(ts, ' ');
    PrintedCoordsRead(xs);
    SpaceSeparatedListOfJoin(ts);
    assert SpaceSeparatedFloats(s) == ParseAll(ts);
    var r := ParseAll(ts);
    assert r.Ok?;
    assert forall k :: 0 <= k < |xs| ==> r.value[k] == xs[k];
    assert r.value == xs;
  }

  /** Each printed coordinate is one word that reads back as the coordinate. */
  lemma PrintedCoordsRead(xs: seq<int>)
    ensures var ts := CoordTexts(xs);
      forall k :: 0 <= k < |ts| ==> IsWord(ts[k]) && ParseCoord(ts[k]) == Some(xs[k])
  {
    var ts := CoordTexts(xs);
    forall k | 0 <= k < |ts| ensures IsWord(ts[k]) && ParseCoord(ts[k]) == Some(xs[k]) {
      CoordTextIsWord(xs[k]);
      ParseCoordOfCoordToString(xs[k]);
    }
  }

  // ---------------------------------------------------------------------------
  // The check before any work

  /** `CLIMATEBEAST.__init__` before initialisation: `Ok(true)` when construction goes on,
      `Ok(false)` when it calls `sys.exit()`. Only the download action skips the check. */
  function Proceeds(action: string, lat: CoordSpec, lon: CoordSpec): (r: Result<bool, Fault>)
    ensures action == "download-nc4-file" ==> r == Ok(true)
    ensures action != "download-nc4-file" && r == Ok(true) ==> Truth(lat) == Ok(true) && Truth(lon) == Ok(true)
    ensures action != "download-nc4-file" && Truth(lat).Ok? && Truth(lon).Ok? ==>
      r == Ok(Truth(lat).value && Truth(lon).value)
    ensures r.Err? ==> r.error == AmbiguousTruth
  {
    if action == "download-nc4-file" then Ok(true)
    else
      var latTrue :- Truth(lat);
      var lonTrue :- Truth(lon);
      Ok(latTrue && lonTrue)
  }

  /** A missing or empty coordinate list stops every action except the download. */
  lemma MissingRangeStops(action: string, lat: CoordSpec, lon: CoordSpec)
    requires action != "download-nc4-file"
    requires lat.Absent? || lon.Absent? || lat == Listed([]) || lon == Listed([])
    ensures Proceeds(action, lat, lon) != Ok(true)
  {
  }

  /** A coordinate file with two or more values cannot pass the check. */
  lemma CoordinateFileRejected(action: string, lat: CoordSpec, lon: CoordSpec)
    requires action != "download-nc4-file"
    requires (lat.FromFile? && |lat.values| >= 2) || (lon.FromFile? && |lon.values| >= 2)
    ensures Proceeds(action, lat, lon).Err?
  {
  }

  // ---------------------------------------------------------------------------
  // Parallel processing

  /** The list the worker pool is spread over: the longer one, latitudes on a tie. */
  function ParallelAxis(lats: seq<int>, lons: seq<int>): (a: Output.Axis)
    ensures a == Output.PrimaryAxis(lats, lons)
  {
    if |lats| > |lons| then Output.ByLatitude
    else if |lats| < |lons| then Output.ByLongitude
    else Output.ByLatitude
  }

  /** What an extraction returns: the combined frame and the longitudes that had data. */
  datatype Frame = Frame(rows: seq<Row>, lons: seq<int>)

  function AllRows(results: seq<Frame>): seq<Row>
    decreases |results|
  {
    if |results| == 0 then [] else AllRows(results[..|results| - 1]) + results[|results| - 1].rows
  }

  function LonLists(results: seq<Frame>): (ls: seq<seq<int>>)
    ensures |ls| == |results| && forall k :: 0 <= k < |results| ==> ls[k] == results[k].lons
  {
    seq(|results|, k requires 0 <= k < |results| => results[k].lons)
  }

  /** The fold over the workers' results: frames appended in order, longitude lists merged
      by `numpy.unique(numpy.concatenate(...))`. */
  function Merge(results: seq<Frame>): (r: Frame)
    ensures Increasing(r.lons)
    ensures forall x :: x in r.lons <==> exists k :: 0 <= k < |results| && x in results[k].lons
    ensures r.rows == AllRows(results)
  {
    var ls := LonLists(results);
    var lons := UnionAll(ls);
    assert forall x :: x in lons <==> exists k :: 0 <= k < |results| && x in results[k].lons by {
      forall x ensures x in lons <==> exists k :: 0 <= k < |results| && x in results[k].lons {
        if x in lons {
          var k :| 0 <= k < |ls| && x in ls[k];
          assert x in results[k].lons;
        }
      }
    }
    Frame(AllRows(results), lons)
  }

  /** The merged longitude list does not depend on the order the workers finish in. */
  lemma MergeOrderIrrelevant(a: seq<Frame>, b: seq<Frame>)
    requires forall k :: 0 <= k < |a| ==> a[k] in b
    requires forall k :: 0 <= k < |b| ==> b[k] in a
    ensures Merge(a).lons == Merge(b).lons
  {
    var ma := Merge(a).lons;
    var mb := Merge(b).lons;
    forall x | x in ma ensures x in mb {
      var k :| 0 <= k < |a| && x in a[k].lons;
      var j :| 0 <= j < |b| && b[j] == a[k];
    }
    forall x | x in mb ensures x in ma {
      var k :| 0 <= k < |b| && x in b[k].lons;
      var j :| 0 <= j < |a| && a[j] == b[k];
    }
    assert Elems(ma) == Elems(mb);
    IncreasingUnique(ma, mb);
  }

  // ---------------------------------------------------------------------------
  // Extraction from local files

  /** The input path: a directory of `year.variable.nc` files, one file, or neither. */
  datatype InputPath = Directory(files: map<string, Dataset>) | SingleFile(data: Dataset) | Neither

  predicate FileExists(input: InputPath, year: int, variable: string) {
    match input
    case Directory(files) => SourceFile(year, variable) in files
    case SingleFile(_) => true
    case Neither => false
  }

  function DatasetFor(input: InputPath, year: int, variable: string): Dataset {
    match input
    case Directory(files) => if SourceFile(year, variable) in files then files[SourceFile(year, variable)] else map[]
    case SingleFile(data) => data
    case Neither => map[]
  }

  /** The loop body's extraction. The NASA POWER connector takes a `year_range` argument
      this call does not pass (TypeError), and any other source leaves the frame unbound. */
  function DiskExtract(source: string, input: InputPath, t: Task): (r: Result<seq<Row>, Fault>)
    ensures source == "silo" ==> r == LocalYearly(DatasetFor(input, t.year, t.variable), t.lat, t.lon, t.year, t.variable)
    ensures source == "nasapower" ==> r == Err(MissingArgument("climate_variable"))
    ensures source != "silo" && source != "nasapower" ==> r == Err(Unbound("var_year_lat_lon_df"))
  {
    if source == "silo" then
      Silo.Yearly(Silo.Connector("", None, 0), source, Some(DatasetFor(input, t.year, t.variable)),
                  q => Silo.Response(0, 0, []), t.lat, t.lon, t.year, t.variable).rows
    else if source == "nasapower" then Err(MissingArgument("climate_variable"))
    else Err(Unbound("var_year_lat_lon_df"))
  }

  function DiskTasks(years: seq<int>, variables: seq<string>, lats: seq<int>, lons: seq<int>): seq<Task> {
    YearMajor(years, variables, lats, lons)
  }

  /** Some present task at longitude `x` has an extraction that fails. */
  predicate LonFails(source: string, input: InputPath, tasks: seq<Task>, x: int) {
    exists k :: 0 <= k < |tasks| && tasks[k].lon == x && FileExists(input, tasks[k].year, tasks[k].variable)
                && DiskExtract(source, input, tasks[k]).Err?
  }

  /** The sweep over the tasks, with pruning, skipping the files that are not there. */
  function DiskRun(source: string, input: InputPath, tasks: seq<Task>): Result<State, Fault> {
    Run(tasks, true, (t: Task) => FileExists(input, t.year, t.variable), (t: Task) => DiskExtract(source, input, t))
  }

  /** A longitude is reported empty exactly when some present extraction at it failed. */
  lemma DiskRunEmpty(source: string, input: InputPath, tasks: seq<Task>, x: int)
    requires DiskRun(source, input, tasks).Ok?
    ensures x in DiskRun(source, input, tasks).value.empty <==> LonFails(source, input, tasks, x)
  {
    var present := (t: Task) => FileExists(input, t.year, t.variable);
    var extract := (t: Task) => DiskExtract(source, input, t);
    EmptyMeansFailed(tasks, true, present, extract, x);
  }

  /** Every row of the sweep comes from a present task whose extraction succeeded. */
  lemma DiskRunRows(source: string, input: InputPath, tasks: seq<Task>, row: Row)
    requires DiskRun(source, input, tasks).Ok? && row in DiskRun(source, input, tasks).value.rows
    ensures exists t :: t in tasks && FileExists(input, t.year, t.variable)
                        && DiskExtract(source, input, t).Ok? && row in DiskExtract(source, input, t).value
  {
    var present := (t: Task) => FileExists(input, t.year, t.variable);
    var extract := (t: Task) => DiskExtract(source, input, t);
    RowsFromPresentTasks(tasks, true, present, extract, row);
    var k :| 0 <= k < |tasks| && present(tasks[k]) && extract(tasks[k]).Ok? && row in extract(tasks[k]).value;
    assert tasks[k] in tasks;
  }

  /** The frame the sweep returns: its rows, and the longitudes that never failed. */
  function DiskFrame(source: string, input: InputPath, tasks: seq<Task>, lons: seq<int>): (r: Result<Frame, Fault>)
    ensures r.Ok? ==> Increasing(r.value.lons)
    ensures r.Ok? ==> forall x :: x in r.value.lons <==> x in lons && !LonFails(source, input, tasks, x)
    ensures r.Ok? ==> forall row :: row in r.value.rows ==>
      exists t :: t in tasks && FileExists(input, t.year, t.variable)
                  && DiskExtract(source, input, t).Ok? && row in DiskExtract(source, input, t).value
    ensures r.Err? ==> !IsValueError(r.error)
  {
    match DiskRun(source, input, tasks)
    case Err(e) => Err(e)
    case Ok(s) =>
      assert forall x :: x in s.empty <==> LonFails(source, input, tasks, x) by {
        forall x ensures x in s.empty <==> LonFails(source, input, tasks, x) {
          DiskRunEmpty(source, input, tasks, x);
        }
      }
      assert forall row :: row in s.rows ==>
        exists t :: t in tasks && FileExists(input, t.year, t.variable)
                    && DiskExtract(source, input, t).Ok? && row in DiskExtract(source, input, t).value by {
        forall row | row in s.rows
          ensures exists t :: t in tasks && FileExists(input, t.year, t.variable)
                              && DiskExtract(source, input, t).Ok? && row in DiskExtract(source, input, t).value
        {
          DiskRunRows(source, input, tasks, row);
        }
      }
      Ok(Frame(s.rows, SetDiff(lons, s.empty)))
  }

  /** `generate_climate_dataframe_from_disk` as written. Both connectors are built
      first, so every variable must be known to both code tables. The year loop then
      wraps the years in `tqdm`, a name the module never imports, so every call that
      gets past the connectors raises NameError before any file is opened. */
  function FromDisk(source: string, input: InputPath, years: seq<int>, variables: seq<string>, lats: seq<int>, lons: seq<int>)
    : (r: Result<Frame, Fault>)
    ensures r.Err?
    ensures Silo.NewConnector(variables).Err? ==> r == Err(Silo.NewConnector(variables).error)
    ensures Silo.NewConnector(variables).Ok? && NasaPower.NewConnector(variables).Err? ==>
      r == Err(NasaPower.NewConnector(variables).error)
    ensures Silo.NewConnector(variables).Ok? && NasaPower.NewConnector(variables).Ok? ==> r == Err(Unbound("tqdm"))
  {
    var _ :- Silo.NewConnector(variables);
    var _ :- NasaPower.NewConnector(variables);
    Err(Unbound("tqdm"))
  }

  /** The method as written fails where the connectors fail, exactly as the loop
      with `tqdm` bound would, and everywhere else with the NameError on `tqdm`. */
  lemma FromDiskFailsBeforeSweep(source: string, input: InputPath, years: seq<int>, variables: seq<string>,
                                 lats: seq<int>, lons: seq<int>)
    ensures FromDisk(source, input, years, variables, lats, lons) == Err(Unbound("tqdm"))
        <==> Silo.NewConnector(variables).Ok? && NasaPower.NewConnector(variables).Ok?
    ensures FromDisk(source, input, years, variables, lats, lons) != Err(Unbound("tqdm")) ==>
      FromDisk(source, input, years, variables, lats, lons) == FromDiskWithTqdm(source, input, years, variables, lats, lons)
  {
  }

  /** The same method as it would run with `tqdm` imported. Longitudes whose
      extraction raises ValueError are never tried again and are left out of the
      returned list. */
  function FromDiskWithTqdm(source: string, input: InputPath, years: seq<int>, variables: seq<string>, lats: seq<int>, lons: seq<int>)
    : (r: Result<Frame, Fault>)
    ensures Silo.NewConnector(variables).Err? ==> r == Err(Silo.NewConnector(variables).error)
    ensures r.Ok? ==> forall v :: v in variables ==> v in Silo.Codes && v in NasaPower.Codes
    ensures r.Ok? ==> Increasing(r.value.lons)
    ensures r.Ok? ==> forall x :: x in r.value.lons <==>
      x in lons && !LonFails(source, input, DiskTasks(years, variables, lats, lons), x)
    ensures r.Ok? ==> forall row :: row in r.value.rows ==>
      exists t :: t in DiskTasks(years, variables, lats, lons) && FileExists(input, t.year, t.variable)
                  && DiskExtract(source, input, t).Ok? && row in DiskExtract(source, input, t).value
    ensures r.Err? && Silo.NewConnector(variables).Ok? && NasaPower.NewConnector(variables).Ok? && !input.Neither? ==>
      !IsValueError(r.error)
  {
    var _ :- Silo.NewConnector(variables);
    var _ :- NasaPower.NewConnector(variables);
    if input.Neither? && |years| > 0 && |variables| > 0 then Err(Unbound("sourcepath"))
    else DiskFrame(source, input, DiskTasks(years, variables, lats, lons), lons)
  }

  /** A variable SILO knows but NASA POWER does not fails the disk extraction for SILO data too. */
  lemma SiloOnlyVariableFails(source: string, input: InputPath, years: seq<int>, variables: seq<string>, lats: seq<int>, lons: seq<int>, v: string)
    requires v in variables && v !in NasaPower.Codes
    ensures FromDisk(source, input, years, variables, lats, lons) != Err(Unbound("tqdm"))
    ensures FromDiskWithTqdm(source, input, years, variables, lats, lons).Err?
  {
  }

  /** With `tqdm` bound and NASA POWER data, the first extraction that is reached
      raises TypeError. */
  lemma NasaPowerFromDiskFails(input: InputPath, years: seq<int>, variables: seq<string>, lats: seq<int>, lons: seq<int>)
    requires Silo.NewConnector(variables).Ok? && NasaPower.NewConnector(variables).Ok?
    requires input.SingleFile? && |years| > 0 && |variables| > 0 && |lats| > 0 && |lons| > 0
    ensures FromDiskWithTqdm("nasapower", input, years, variables, lats, lons) == Err(MissingArgument("climate_variable"))
  {
    var tasks := DiskTasks(years, variables, lats, lons);
    var t := Task(years[0], variables[0], lats[0], lons[0]);
    assert t in tasks;
    FirstTaskFatal(tasks, true, (t: Task) => FileExists(input, t.year, t.variable),
                   (t: Task) => DiskExtract("nasapower", input, t), MissingArgument("climate_variable"));
  }

  /** With `tqdm` bound, a directory without any of the needed files yields no rows
      and keeps every longitude. */
  lemma NoFilesKeepsAllLongitudes(source: string, files: map<string, Dataset>, years: seq<int>, variables: seq<string>, lats: seq<int>, lons: seq<int>)
    requires Silo.NewConnector(variables).Ok? && NasaPower.NewConnector(variables).Ok?
    requires forall y, v :: y in years && v in variables ==> SourceFile(y, v) !in files
    ensures FromDiskWithTqdm(source, Directory(files), years, variables, lats, lons).Ok?
    ensures FromDiskWithTqdm(source, Directory(files), years, variables, lats, lons).value == Frame([], SetDiff(lons, []))
  {
    var input := Directory(files);
    var tasks := DiskTasks(years, variables, lats, lons);
    var present := (t: Task) => FileExists(input, t.year, t.variable);
    var extract := (t: Task) => DiskExtract(source, input, t);
    assert forall k :: 0 <= k < |tasks| ==> !present(tasks[k]) by {
      forall k | 0 <= k < |tasks| ensures !present(tasks[k]) {
        assert tasks[k] in tasks;
      }
    }
    NothingPresentRunsEmpty(tasks, present, extract);
  }

  lemma {:induction false} NothingPresentRunsEmpty(tasks: seq<Task>, present: Task -> bool, extract: Task -> Result<seq<Row>, Fault>)
    requires forall k :: 0 <= k < |tasks| ==> !present(tasks[k])
    ensures Run(tasks, true, present, extract) == Ok(State([], [], []))
    decreases |tasks|
  {
    if |tasks| > 0 {
      NothingPresentRunsEmpty(tasks[..|tasks| - 1], present, extract);
    }
  }
}

=== FILE: calendar.dfy ===
/** The Gregorian leap rule that sizes every yearly series. */
module Calendar {

  /** The rule `y%400 == 0 or (y%4 == 0 and y%100 != 0)`. Whether a remainder is zero
      does not depend on the rounding of the division, so Python's floor modulo
      and Dafny's Euclidean modulo agree here even for negative years. */
  predicate IsLeap(y: int) {
    y % 400 == 0 || (y % 4 == 0 && y % 100 != 0)
  }

  /** The number of daily values a year holds: 366 in a leap year, 365 otherwise. */
  function DaysInYear(y: int): (n: nat)
    ensures n == 365 || n == 366
    ensures n == 366 <==> IsLeap(y)
  {
    if IsLeap(y) then 366 else 365
  }

  /** The day column the extractors build: `numpy.arange(0, N) + 1`. */
  function DayNumbers(y: int): (days: seq<int>)
    ensures |days| == DaysInYear(y)
    ensures forall i :: 0 <= i < |days| ==> days[i] == i + 1
  {
    seq(DaysInYear(y), i => i + 1)
  }

  /** Century years are leap years only every fourth century. */
  lemma LeapYearExamples()
    ensures DaysInYear(2019) == 365 && DaysInYear(2020) == 366
    ensures DaysInYear(1900) == 365 && DaysInYear(2000) == 366
  {
  }

  lemma Shift400(y: int)
    ensures (y + 400) % 400 == y % 400
  {
  }

  lemma Shift4(y: int)
    ensures (y + 400) % 4 == y % 4
  {
  }

  lemma Shift100(y: int)
    ensures (y + 400) % 100 == y % 100
  {
  }

  /** The leap rule repeats every 400 years. */
  lemma DaysRepeatEvery400Years(y: int)
    ensures DaysInYear(y + 400) == DaysInYear(y)
  {
    Shift400(y);
    Shift4(y);
    Shift100(y);
  }
}

=== FILE: extractor.dfy ===
/** The older extraction scripts, legacy/climatextractor.py and the root
    climatextractor.py. They read SILO's yearly NetCDF files directly: the
    file's lat and lon axes are rebuilt with `numpy.arange` at 0.05 degrees, and a
    requested cell must occur exactly once on each rebuilt axis. Its days are read
    from the (day, lat, lon) value array, and masked days are dropped. A cell with
    no value left, or with fewer values than days, raises ValueError.

    The legacy loader opens a progress bar the script never defines, so the
    legacy sweep stops at the first year whose file exists. With a loader that
    returns, the sweep would write one CSV file per (year, lat, lon), and a cell
    whose extraction raises ValueError would be written with the frame of the last
    cell that succeeded.
 */
module Extractor {
  import opened Outcomes
  import opened Text
  import opened Calendar
  import opened Grid
  import opened Ranges
  import SortedInts
  import Series
  import LegacyScript

  /** The spacing of SILO's grid, 0.05 degrees. */
  const AxisStep: nat := 5

  /** The (day, lat, lon) value array of one variable; None is a masked value. */
  type Cube = seq<seq<seq<Option<int>>>>

  /** An opened NetCDF file: the units text of its time axis, one value array per
      variable, and its lat and lon coordinate variables. */
  datatype NcData = NcData(units: string, variables: map<string, Cube>, lats: seq<int>, lons: seq<int>)

  /** The dictionary load_cdf_file returns. */
  datatype Loaded = Loaded(year: int, values: Cube, latAxis: seq<int>, lonAxis: seq<int>)

  // ---------------------------------------------------------------------------
  // Loading a file

  /** `numpy.arange(first, last + 0.05, 0.05).round(2)`. The axis starts at the
      file's first coordinate, rises by one grid step, and covers every grid point
      up to the file's last. */
  function GridAxis(first: int, last: int, drift: bool): (axis: seq<int>)
    ensures Stepped(axis, first, AxisStep)
    ensures forall k: nat :: first + k * AxisStep <= last ==> k < |axis|
    ensures forall i :: 0 <= i < |axis| ==> axis[i] <= last + AxisStep
    ensures !drift ==> forall i :: 0 <= i < |axis| ==> axis[i] < last + AxisStep
  {
    Arange(first, last + AxisStep, AxisStep, drift)
  }

  /** The year of a file: `int(units[11:15])`, the four characters after "days since ". */
  function UnitsYear(units: string): (r: Result<int, Fault>)
    ensures r.Ok? <==> ParseInt(TakePrefix(DropPrefix(units, 11), 4)).Some?
    ensures r.Ok? ==> r.value == ParseInt(TakePrefix(DropPrefix(units, 11), 4)).value
    ensures r.Err? ==> IsValueError(r.error)
  {
    var text := TakePrefix(DropPrefix(units, 11), 4);
    match ParseInt(text)
    case None => Err(NotANumber(text))
    case Some(y) => Ok(y)
  }

  /** load_cdf_file of the root climatextractor.py: the year from the time axis,
      the variable's array (KeyError when the file lacks it), and the two rebuilt
      axes (IndexError when a coordinate variable is empty). `drift` says, per pair
      of endpoints, whether the floating-point `arange` yields one element more. */
  function Load(nc: NcData, variable: string, drift: (int, int) -> bool): (r: Result<Loaded, Fault>)
    ensures r.Ok? <==> UnitsYear(nc.units).Ok? && variable in nc.variables && |nc.lats| > 0 && |nc.lons| > 0
    ensures r.Ok? ==>
      var firstLat, lastLat := nc.lats[0], nc.lats[|nc.lats| - 1];
      var firstLon, lastLon := nc.lons[0], nc.lons[|nc.lons| - 1];
      r.value == Loaded(UnitsYear(nc.units).value, nc.variables[variable],
                        GridAxis(firstLat, lastLat, drift(firstLat, lastLat)),
                        GridAxis(firstLon, lastLon, drift(firstLon, lastLon)))
    ensures UnitsYear(nc.units).Ok? && variable !in nc.variables ==> r == Err(MissingKey(variable))
  {
    var year :- UnitsYear(nc.units);
    if variable !in nc.variables then Err(MissingKey(variable))
    else if |nc.lats| == 0 || |nc.lons| == 0 then Err(OutOfRange)
    else
      var firstLat, lastLat := nc.lats[0], nc.lats[|nc.lats| - 1];
      var firstLon, lastLon := nc.lons[0], nc.lons[|nc.lons| - 1];
      Ok(Loaded(year, nc.variables[variable],
                GridAxis(firstLat, lastLat, drift(firstLat, lastLat)),
                GridAxis(firstLon, lastLon, drift(firstLon, lastLon))))
  }

  /** load_cdf_file of legacy/climatextractor.py: the year, then the variable's
      array (KeyError when the file lacks it), then a `with TQDMDaskProgressBar():`
      block. That name is never bound in the script, so every call that gets past
      the variable raises NameError, and the function never returns. */
  function LegacyLoad(nc: NcData, variable: string): (r: Result<Loaded, Fault>)
    ensures r.Err?
    ensures UnitsYear(nc.units).Err? ==> r == Err(UnitsYear(nc.units).error)
    ensures UnitsYear(nc.units).Ok? && variable !in nc.variables ==> r == Err(MissingKey(variable))
    ensures UnitsYear(nc.units).Ok? && variable in nc.variables ==> r == Err(Unbound("TQDMDaskProgressBar"))
  {
    var _ :- UnitsYear(nc.units);
    if variable !in nc.variables then Err(MissingKey(variable))
    else Err(Unbound("TQDMDaskProgressBar"))
  }

  /** The two loaders part only at the progress bar: wherever the root loader
      returns a file, the legacy one raises NameError, and every other exception
      of the legacy loader is the root loader's too. */
  lemma LegacyLoadAgreesWithLoad(nc: NcData, variable: string, drift: (int, int) -> bool)
    ensures Load(nc, variable, drift).Ok? ==> LegacyLoad(nc, variable) == Err(Unbound("TQDMDaskProgressBar"))
    ensures LegacyLoad(nc, variable) != Err(Unbound("TQDMDaskProgressBar")) ==>
      LegacyLoad(nc, variable) == Load(nc, variable, drift)
  {
  }

  /** Which load_cdf_file the sweep calls: the root script's, which returns the
      file, or the legacy script's as written. */
  datatype Loader = RootLoader(drift: (int, int) -> bool) | LegacyLoader

  function LoadWith(loader: Loader, nc: NcData, variable: string): Result<Loaded, Fault> {
    match loader
    case RootLoader(drift) => Load(nc, variable, drift)
    case LegacyLoader => LegacyLoad(nc, variable)
  }

  /** On a file whose coordinates lie on a regular 0.05-degree grid, the rebuilt
      axis is the file's own axis, with one point past its end when `arange` drifts. */
  lemma GridAxisOfRegularAxis(coords: seq<int>, drift: bool)
    requires |coords| > 0 && Stepped(coords, coords[0], AxisStep)
    ensures GridAxis(coords[0], coords[|coords| - 1], drift)
         == coords + (if drift then [coords[|coords| - 1] + AxisStep] else [])
  {
    var first, last := coords[0], coords[|coords| - 1];
    var axis := GridAxis(first, last, drift);
    var n := |coords|;
    assert last + AxisStep - first == n * AxisStep;
    DivOfMultiplePlus(n, 0, AxisStep);
    assert |axis| == n + (if drift then 1 else 0);
  }

  /** The year printed in the units text of a SILO file reads back. */
  lemma UnitsYearReadsBack(y: nat, rest: string)
    requires 1000 <= y <= 9999
    ensures UnitsYear("days since " + NatToString(y) + rest) == Ok(y)
  {
    var units := "days since " + NatToString(y) + rest;
    Pow10Values();
    NatToStringLength(y, 4);
    assert DropPrefix(units, 11) == NatToString(y) + rest;
    assert TakePrefix(DropPrefix(units, 11), 4) == NatToString(y);
    assert IntToString(y) == NatToString(y);
    ParseIntOfIntToString(y);
  }

  // ---------------------------------------------------------------------------
  // Finding a cell

  /** How often `v` occurs in `xs`. */
  function Count(xs: seq<int>, v: int): nat
    decreases |xs|
  {
    if |xs| == 0 then 0 else (if xs[0] == v then 1 else 0) + Count(xs[1..], v)
  }

  lemma {:induction false} CountPositive(xs: seq<int>, v: int)
    ensures Count(xs, v) > 0 <==> v in xs
    decreases |xs|
  {
    if |xs| > 0 {
      CountPositive(xs[1..], v);
      assert xs == [xs[0]] + xs[1..];
    }
  }

  /** On a strictly increasing axis no value occurs twice. */
  lemma {:induction false} CountOnIncreasing(xs: seq<int>, v: int)
    requires SortedInts.Increasing(xs)
    ensures Count(xs, v) <= 1
    decreases |xs|
  {
    if |xs| > 0 {
      var rest := xs[1..];
      CountOnIncreasing(rest, v);
      if xs[0] == v {
        assert v !in rest by {
          forall k | 0 <= k < |rest| ensures rest[k] != v { assert xs[0] < xs[k + 1]; }
        }
        CountPositive(rest, v);
      }
    }
  }

  /** The first position of a value known to occur. */
  function FirstAt(xs: seq<int>, v: int): (i: nat)
    requires v in xs
    ensures i < |xs| && xs[i] == v && v !in xs[..i]
    decreases |xs|
  {
    if xs[0] == v then 0
    else
      var i := 1 + FirstAt(xs[1..], v);
      assert xs[..i] == [xs[0]] + xs[1..][..i - 1];
      i
  }

  /** `numpy.argwhere(axis == v).item()`: the position of `v`, or ValueError
      unless `v` occurs exactly once. */
  function Position(axis: seq<int>, v: int): (r: Result<nat, Fault>)
    ensures r.Ok? <==> Count(axis, v) == 1
    ensures r.Ok? ==> r.value < |axis| && axis[r.value] == v
    ensures r.Err? ==> r.error == NotExactlyOne
  {
    if Count(axis, v) == 1 then
      CountPositive(axis, v);
      Ok(FirstAt(axis, v))
    else Err(NotExactlyOne)
  }

  /** On a rebuilt axis a coordinate is found iff it lies on the grid from the
      file's first coordinate up to the axis's end, at its number of steps. */
  lemma GridPosition(first: int, last: int, drift: bool, v: int)
    ensures var axis := GridAxis(first, last, drift);
      (Position(axis, v).Ok? <==> v in axis)
      && (v in axis ==> first <= v && (v - first) % AxisStep == 0 && Position(axis, v) == Ok((v - first) / AxisStep))
      && (first <= v <= last && (v - first) % AxisStep == 0 ==> v in axis)
  {
    var axis := GridAxis(first, last, drift);
    assert SortedInts.Increasing(axis);
    CountOnIncreasing(axis, v);
    CountPositive(axis, v);
    if v in axis {
      var i := Position(axis, v).value;
      assert axis[i] == first + i * AxisStep;
      DivOfMultiplePlus(i, 0, AxisStep);
    }
    if first <= v <= last && (v - first) % AxisStep == 0 {
      var k: nat := (v - first) / AxisStep;
      DivMod(v - first, AxisStep);
      assert first + k * AxisStep == v;
      assert axis[k] == v;
    }
  }

  // ---------------------------------------------------------------------------
  // Extracting a cell

  /** One frame row: the year column, the day column (`arange(0, N) + 1`), and
      the variable's column. */
  datatype DayValue = DayValue(year: int, day: int, value: int)

  /** Whether `value_array[day][i][j]` exists for every day 0 .. days - 1. */
  predicate Reaches(values: Cube, days: nat, i: nat, j: nat) {
    days <= |values| && forall d :: 0 <= d < days ==> i < |values[d]| && j < |values[d][i]|
  }

  /** `value_array[day][i][j]` for days 0 .. days - 1; an index past the array raises IndexError. */
  function DayValues(values: Cube, days: nat, i: nat, j: nat): (r: Result<seq<Option<int>>, Fault>)
    ensures r.Ok? <==> Reaches(values, days, i, j)
    ensures r.Ok? ==> |r.value| == days && forall d :: 0 <= d < days ==> r.value[d] == values[d][i][j]
    ensures r.Err? ==> r.error == OutOfRange
  {
    if Reaches(values, days, i, j) then
      Ok(seq(days, d requires 0 <= d < days => values[d][i][j]))
    else Err(OutOfRange)
  }

  /** The cell's daily values: its position on both axes (ValueError unless found
      exactly once), then the year's days read from the array. */
  function CellDays(l: Loaded, lat: int, lon: int): (r: Result<seq<Option<int>>, Fault>)
    ensures Position(l.latAxis, lat).Err? || Position(l.lonAxis, lon).Err? ==> r == Err(NotExactlyOne)
    ensures Position(l.latAxis, lat).Ok? && Position(l.lonAxis, lon).Ok? ==>
      r == DayValues(l.values, DaysInYear(l.year), Position(l.latAxis, lat).value, Position(l.lonAxis, lon).value)
    ensures r.Ok? ==> |r.value| == DaysInYear(l.year)
  {
    var i :- Position(l.latAxis, lat);
    var j :- Position(l.lonAxis, lon);
    DayValues(l.values, DaysInYear(l.year), i, j)
  }

  /** get_values_from_array: drop masked values, raise ValueError when none is
      left ('No data') and when fewer are left than days (the frame's columns
      differ in length). A cell is extracted iff none of its days is masked. */
  function CellSeries(l: Loaded, lat: int, lon: int): (r: Result<seq<DayValue>, Fault>)
    ensures CellDays(l, lat, lon).Err? ==> r == Err(CellDays(l, lat, lon).error)
    ensures r.Ok? <==> (CellDays(l, lat, lon).Ok?
      && forall d :: 0 <= d < |CellDays(l, lat, lon).value| ==> CellDays(l, lat, lon).value[d].Some?)
    ensures r.Ok? ==>
      var vs := CellDays(l, lat, lon).value;
      |r.value| == |vs| == DaysInYear(l.year)
      && forall d :: 0 <= d < |vs| ==> r.value[d] == DayValue(l.year, d + 1, vs[d].value)
    ensures CellDays(l, lat, lon).Ok? ==>
      var vs := CellDays(l, lat, lon).value;
      ((forall d :: 0 <= d < |vs| ==> vs[d].None?) ==> r == Err(NoData))
      && ((exists d :: 0 <= d < |vs| && vs[d].None?) && (exists d :: 0 <= d < |vs| && vs[d].Some?) ==> r == Err(UnequalColumns))
    ensures r.Err? ==> r.error == OutOfRange || IsValueError(r.error)
  {
    var series :- CellDays(l, lat, lon);
    var kept := LegacyScript.Kept(series);
    if |kept| == 0 then Err(NoData)
    else if |kept| != |series| then Err(UnequalColumns)
    else Ok(seq(|series|, d requires 0 <= d < |series| => DayValue(l.year, d + 1, kept[d])))
  }

  /** On a strictly increasing axis every element is found at its own position. */
  lemma PositionOnIncreasing(axis: seq<int>, k: nat)
    requires SortedInts.Increasing(axis) && k < |axis|
    ensures Position(axis, axis[k]) == Ok(k)
  {
    CountOnIncreasing(axis, axis[k]);
    CountPositive(axis, axis[k]);
  }

  /** With a drifting `arange`, the point one step past the file's last latitude
      is found on the rebuilt axis but lies outside the array: the lookup raises
      an IndexError, which no caller catches. */
  lemma DriftPointEscapes(l: Loaded, lats: seq<int>, lon: int)
    requires |lats| > 0 && Stepped(lats, lats[0], AxisStep)
    requires l.latAxis == GridAxis(lats[0], lats[|lats| - 1], true)
    requires forall d :: 0 <= d < |l.values| ==> |l.values[d]| == |lats|
    requires Position(l.lonAxis, lon).Ok?
    ensures CellSeries(l, lats[|lats| - 1] + AxisStep, lon) == Err(OutOfRange)
  {
    var lat := lats[|lats| - 1] + AxisStep;
    GridAxisOfRegularAxis(lats, true);
    assert l.latAxis[|lats|] == lat;
    PositionOnIncreasing(l.latAxis, |lats|);
    var j := Position(l.lonAxis, lon).value;
    if |l.values| > 0 {
      assert |l.values[0]| == |lats|;
    }
    assert !Reaches(l.values, DaysInYear(l.year), |lats|, j);
  }

  // ---------------------------------------------------------------------------
  // The legacy sweep (legacy/climatextractor.py generate_silo_dataframe)

  datatype Format = Csv | Met

  /** One step of the sweep: a cell of an opened year, or an exception raised
      while opening a year's file. */
  datatype Event = Cell(year: int, lat: int, lon: int, got: Result<seq<DayValue>, Fault>) | Halt(fault: Fault)

  /** The event of one cell of an opened file. */
  function At(l: Loaded, lat: int, lon: int): Event {
    Cell(l.year, lat, lon, CellSeries(l, lat, lon))
  }

  /** The cells of one opened file, latitude-major. */
  function CellsOf(l: Loaded, lats: seq<int>, lons: seq<int>): (es: seq<Event>)
    ensures |es| == |lats| * |lons|
    ensures forall k :: 0 <= k < |es| ==>
      es[k].Cell? && es[k].year == l.year && es[k].lat in lats && es[k].lon in lons
      && es[k].got == CellSeries(l, es[k].lat, es[k].lon)
    decreases |lats|
  {
    if |lats| == 0 then []
    else
      var row := seq(|lons|, j requires 0 <= j < |lons| => At(l, lats[0], lons[j]));
      var rest := CellsOf(l, lats[1..], lons);
      assert |lats| * |lons| == |lons| + |lats[1..]| * |lons|;
      assert forall k :: 0 <= k < |rest| ==> rest[k].lat in lats by {
        forall k | 0 <= k < |rest| ensures rest[k].lat in lats {
          var a := rest[k].lat;
          var m :| 0 <= m < |lats[1..]| && lats[1..][m] == a;
          assert lats[m + 1] == a;
        }
      }
      row + rest
  }

  /** Every requested pair occurs among a file's cells. */
  lemma {:induction false} CellsOfCovers(l: Loaded, lats: seq<int>, lons: seq<int>, a: int, b: int)
    requires a in lats && b in lons
    ensures At(l, a, b) in CellsOf(l, lats, lons)
    decreases |lats|
  {
    var row := seq(|lons|, j requires 0 <= j < |lons| => At(l, lats[0], lons[j]));
    var rest := CellsOf(l, lats[1..], lons);
    assert CellsOf(l, lats, lons) == row + rest;
    if lats[0] == a {
      var j :| 0 <= j < |lons| && lons[j] == b;
      assert row[j] == At(l, a, b);
    } else {
      var m :| 0 <= m < |lats| && lats[m] == a;
      assert lats[1..][m - 1] == a;
      CellsOfCovers(l, lats[1..], lons, a, b);
    }
  }

  /** The year loop: a year whose file `year.variable.nc` is missing from the
      folder is skipped; a file that fails to load raises and ends the sweep. */
  function Events(files: map<string, NcData>, variable: string, years: seq<int>, lats: seq<int>, lons: seq<int>,
                  loader: Loader): (es: seq<Event>)
    ensures forall i :: 0 <= i < |es| - 1 ==> es[i].Cell?
    ensures |years| > 0 && Series.SourceFile(years[0], variable) !in files ==>
      es == Events(files, variable, years[1..], lats, lons, loader)
    ensures (|years| > 0 && Series.SourceFile(years[0], variable) in files
      && LoadWith(loader, files[Series.SourceFile(years[0], variable)], variable).Err?) ==>
      es == [Halt(LoadWith(loader, files[Series.SourceFile(years[0], variable)], variable).error)]
    decreases |years|
  {
    if |years| == 0 then []
    else
      var name := Series.SourceFile(years[0], variable);
      var rest := Events(files, variable, years[1..], lats, lons, loader);
      if name !in files then rest
      else match LoadWith(loader, files[name], variable)
        case Err(e) => [Halt(e)]
        case Ok(l) =>
          var cells := CellsOf(l, lats, lons);
          assert forall i :: 0 <= i < |cells| ==> (cells + rest)[i] == cells[i];
          cells + rest
  }

  /** The position of the first year whose file `year.variable.nc` is in the
      folder, or the number of years when there is none. */
  function FirstFile(files: map<string, NcData>, variable: string, years: seq<int>): (i: nat)
    ensures i <= |years|
    ensures forall k :: 0 <= k < i ==> Series.SourceFile(years[k], variable) !in files
    ensures i < |years| ==> Series.SourceFile(years[i], variable) in files
    decreases |years|
  {
    if |years| == 0 || Series.SourceFile(years[0], variable) in files then 0
    else 1 + FirstFile(files, variable, years[1..])
  }

  /** With the legacy loader the first year whose file exists halts the sweep with
      that file's load exception, before any cell; years without a file are skipped. */
  lemma {:induction false} LegacyEventsHalt(files: map<string, NcData>, variable: string, years: seq<int>,
                                            lats: seq<int>, lons: seq<int>)
    ensures var i := FirstFile(files, variable, years);
      Events(files, variable, years, lats, lons, LegacyLoader)
      == if i < |years| then [Halt(LegacyLoad(files[Series.SourceFile(years[i], variable)], variable).error)] else []
    decreases |years|
  {
    if |years| > 0 && Series.SourceFile(years[0], variable) !in files {
      LegacyEventsHalt(files, variable, years[1..], lats, lons);
      var i := FirstFile(files, variable, years[1..]);
      if i < |years[1..]| {
        assert years[1..][i] == years[i + 1];
      }
    }
  }

  /** The extraction at an event; an event that halts carries its exception. */
  function Extracted(e: Event): Result<seq<DayValue>, Fault> {
    match e
    case Cell(_, _, _, got) => got
    case Halt(f) => Err(f)
  }

  /** What `temp_df` holds after event `i`: the frame of the latest event up to
      `i` that was extracted, if any. */
  function FrameAt(es: seq<Event>, i: nat): Option<seq<DayValue>>
    requires i < |es|
    decreases i
  {
    if Extracted(es[i]).Ok? then Some(Extracted(es[i]).value)
    else if i == 0 then None
    else FrameAt(es, i - 1)
  }

  /** The frame after event `i` is the one of the last extracted event up to
      `i`; there is none iff no event up to `i` was extracted. */
  lemma {:induction false} FrameAtIsLatest(es: seq<Event>, i: nat)
    requires i < |es|
    ensures FrameAt(es, i).None? <==> forall k :: 0 <= k <= i ==> Extracted(es[k]).Err?
    ensures FrameAt(es, i).Some? ==>
      exists k :: 0 <= k <= i && Extracted(es[k]).Ok? && FrameAt(es, i).value == Extracted(es[k]).value
                  && forall j :: k < j <= i ==> Extracted(es[j]).Err?
    decreases i
  {
    if Extracted(es[i]).Ok? {
    } else if i > 0 {
      FrameAtIsLatest(es, i - 1);
      if FrameAt(es, i - 1).Some? {
        var k :| 0 <= k <= i - 1 && Extracted(es[k]).Ok?
          && FrameAt(es, i - 1).value == Extracted(es[k]).value
          && forall j :: k < j <= i - 1 ==> Extracted(es[j]).Err?;
        assert forall j :: k < j <= i ==> Extracted(es[j]).Err?;
      }
    }
  }

  /** A prefix of the events keeps the frames of its events. */
  lemma {:induction false} FrameAtOfPrefix(es: seq<Event>, n: nat, i: nat)
    requires i < n <= |es|
    ensures FrameAt(es[..n], i) == FrameAt(es, i)
    decreases i
  {
    assert es[..n][i] == es[i];
    if i > 0 { FrameAtOfPrefix(es, n, i - 1); }
  }

  /** What `temp_df` holds after the events. */
  function LastFrame(es: seq<Event>): Option<seq<DayValue>> {
    if |es| == 0 then None else FrameAt(es, |es| - 1)
  }

  /** Event `i` ends the sweep: a file that failed to open, an exception other
      than ValueError, no frame extracted so far (`temp_df` unbound), or a MET
      run, whose log line names the undefined `output_dir`. */
  predicate Fatal(es: seq<Event>, i: nat, format: Format)
    requires i < |es|
  {
    es[i].Halt?
    || (Extracted(es[i]).Err? && !IsValueError(Extracted(es[i]).error))
    || FrameAt(es, i).None?
    || format == Met
  }

  /** The file name `'{variable}-{file_year}.{lat}-{lon}.csv'`. */
  function CsvName(variable: string, year: int, lat: int, lon: int): string {
    variable + "-" + IntToString(year) + "." + CoordToString(lat) + "-" + CoordToString(lon) + ".csv"
  }

  /** A written file: the variable and cell its name is made of, and its rows. */
  datatype CsvFile = CsvFile(variable: string, year: int, lat: int, lon: int, rows: seq<DayValue>) {
    function Name(): string { CsvName(variable, year, lat, lon) }
  }

  /** The file written at a cell that does not end the sweep: named after the
      cell, holding the last frame extracted up to it. */
  function FileAt(es: seq<Event>, i: nat, variable: string): CsvFile
    requires i < |es| && !Fatal(es, i, Csv)
  {
    CsvFile(variable, es[i].year, es[i].lat, es[i].lon, FrameAt(es, i).value)
  }

  /** The state of the sweep: the files written, `temp_df`, and the exception
      that ended it, if any. */
  datatype Progress = Progress(files: seq<CsvFile>, frame: Option<seq<DayValue>>, raised: Option<Fault>)

  /** The cell loop body: keep the old `temp_df` when the extraction raises
      ValueError, append it to the emptied `yearly_df`, and write it. */
  function Step(p: Progress, e: Event, format: Format, variable: string): Progress
    requires p.raised.None?
  {
    match e
    case Halt(f) => p.(raised := Some(f))
    case Cell(year, lat, lon, r) =>
      if r.Err? && !IsValueError(r.error) then p.(raised := Some(r.error))
      else
        var frame := if r.Ok? then Some(r.value) else p.frame;
        if frame.None? then p.(raised := Some(Unbound("temp_df")))
        else if format == Met then Progress(p.files, frame, Some(Unbound("output_dir")))
        else Progress(p.files + [CsvFile(variable, year, lat, lon, frame.value)], frame, None)
  }

  /** The sweep over a run of events, stopping at the first exception. A MET run
      never writes a file. */
  function Replay(es: seq<Event>, format: Format, variable: string): (p: Progress)
    ensures |p.files| <= |es|
    ensures format == Met ==> p.files == []
    decreases |es|
  {
    if |es| == 0 then Progress([], None, None)
    else
      var p := Replay(es[..|es| - 1], format, variable);
      if p.raised.Some? then p
      else Step(p, es[|es| - 1], format, variable)
  }

  /** A prefix of the events sees the same fatal events, and writes the same
      files, as the whole run. */
  lemma FatalOfPrefix(es: seq<Event>, n: nat, format: Format, variable: string)
    requires n <= |es|
    ensures forall i :: 0 <= i < n ==>
      Fatal(es[..n], i, format) == Fatal(es, i, format)
      && (format == Csv && !Fatal(es, i, Csv) ==> FileAt(es[..n], i, variable) == FileAt(es, i, variable))
  {
    forall i | 0 <= i < n
      ensures Fatal(es[..n], i, format) == Fatal(es, i, format)
      && (format == Csv && !Fatal(es, i, Csv) ==> FileAt(es[..n], i, variable) == FileAt(es, i, variable))
    {
      assert es[..n][i] == es[i];
      FrameAtOfPrefix(es, n, i);
    }
  }

  /** A prefix of the events has a fatal event iff the whole run has one before its end. */
  lemma PrefixFatal(es: seq<Event>, n: nat, format: Format)
    requires n <= |es|
    ensures (forall i :: 0 <= i < n ==> !Fatal(es[..n], i, format)) <==> (forall i :: 0 <= i < n ==> !Fatal(es, i, format))
  {
    FatalOfPrefix(es, n, format, []);
  }

  /** Files a prefix of the events wrote are the whole run's files. */
  lemma PrefixFiles(es: seq<Event>, n: nat, variable: string, files: seq<CsvFile>)
    requires n <= |es| && |files| <= n
    requires forall i :: 0 <= i < |files| ==> !Fatal(es[..n], i, Csv) && files[i] == FileAt(es[..n], i, variable)
    ensures forall i :: 0 <= i < |files| ==> !Fatal(es, i, Csv) && files[i] == FileAt(es, i, variable)
  {
    FatalOfPrefix(es, n, Csv, variable);
  }

  /** One more event: the step completes iff that event is not fatal; in a CSV
      run it writes that event's file. */
  lemma StepCompletes(es: seq<Event>, format: Format, variable: string, p: Progress)
    requires |es| > 0 && p.raised.None? && p.frame == LastFrame(es[..|es| - 1])
    ensures var n, q := |es| - 1, Step(p, es[|es| - 1], format, variable);
      (q.raised.None? <==> !Fatal(es, n, format))
      && (q.raised.None? ==> q.frame == LastFrame(es))
      && (format == Csv && q.raised.None? ==> q.files == p.files + [FileAt(es, n, variable)])
      && (q.raised.Some? ==> q.files == p.files)
  {
    var n := |es| - 1;
    if n > 0 { FrameAtOfPrefix(es, n, n - 1); }
  }

  /** The sweep completes iff no event is fatal, and then `temp_df` holds the
      frame extracted last. */
  lemma {:induction false} ReplayCompletes(es: seq<Event>, format: Format, variable: string)
    ensures var p := Replay(es, format, variable);
      (p.raised.None? <==> forall i :: 0 <= i < |es| ==> !Fatal(es, i, format))
      && (p.raised.None? ==> p.frame == LastFrame(es))
    decreases |es|
  {
    if |es| > 0 {
      var n := |es| - 1;
      var init := es[..n];
      ReplayCompletes(init, format, variable);
      var p := Replay(init, format, variable);
      assert Replay(es, format, variable) == if p.raised.Some? then p else Step(p, es[n], format, variable);
      PrefixFatal(es, n, format);
      if p.raised.None? {
        StepCompletes(es, format, variable, p);
      }
    }
  }

  /** In a CSV run the i-th file belongs to the i-th cell and holds the last frame
      extracted up to it; the sweep writes one file per event, or stops at the
      first fatal one. */
  lemma {:induction false} ReplayWrites(es: seq<Event>, variable: string)
    ensures var p := Replay(es, Csv, variable);
      (forall i :: 0 <= i < |p.files| ==> !Fatal(es, i, Csv) && p.files[i] == FileAt(es, i, variable))
      && (p.raised.None? ==> |p.files| == |es|)
      && (p.raised.Some? ==> |p.files| < |es| && Fatal(es, |p.files|, Csv))
    decreases |es|
  {
    if |es| > 0 {
      var n := |es| - 1;
      var init := es[..n];
      ReplayWrites(init, variable);
      var p := Replay(init, Csv, variable);
      assert Replay(es, Csv, variable) == if p.raised.Some? then p else Step(p, es[n], Csv, variable);
      PrefixFiles(es, n, variable, p.files);
      if p.raised.None? {
        ReplayCompletes(init, Csv, variable);
        StepCompletes(es, Csv, variable, p);
      } else {
        FatalOfPrefix(es, n, Csv, variable);
      }
    }
  }

  /** generate_silo_dataframe of legacy/climatextractor.py on a folder (the
      constructor rejects anything else), as written: years whose file is missing
      are skipped, and the first year whose file exists raises from the load, so
      no file is ever written. */
  function Generate(files: map<string, NcData>, variable: string, years: seq<int>, lats: seq<int>, lons: seq<int>,
                    format: Format): (p: Progress)
    ensures p.files == []
    ensures p.raised.None? <==> forall k :: 0 <= k < |years| ==> Series.SourceFile(years[k], variable) !in files
    ensures var i := FirstFile(files, variable, years);
      i < |years| ==> p.raised == Some(LegacyLoad(files[Series.SourceFile(years[i], variable)], variable).error)
  {
    LegacyEventsHalt(files, variable, years, lats, lons);
    var i := FirstFile(files, variable, years);
    if i < |years| then
      ReplayOfHalt(LegacyLoad(files[Series.SourceFile(years[i], variable)], variable).error, format, variable);
      Replay(Events(files, variable, years, lats, lons, LegacyLoader), format, variable)
    else
      Replay(Events(files, variable, years, lats, lons, LegacyLoader), format, variable)
  }

  /** A sweep whose only event halts raises that exception and writes nothing. */
  lemma ReplayOfHalt(f: Fault, format: Format, variable: string)
    ensures Replay([Halt(f)], format, variable) == Progress([], None, Some(f))
  {
    assert [Halt(f)][..0] == [];
  }

  /** The same sweep with a loader that returns the file, as the root
      climatextractor.py's load_cdf_file does: it completes exactly when no event
      is fatal, and in a CSV run the i-th file is the i-th cell's. */
  function GenerateWithRootLoad(files: map<string, NcData>, variable: string, years: seq<int>, lats: seq<int>,
                                lons: seq<int>, format: Format, drift: (int, int) -> bool): (p: Progress)
    ensures |p.files| <= |Events(files, variable, years, lats, lons, RootLoader(drift))|
    ensures var es := Events(files, variable, years, lats, lons, RootLoader(drift));
      (p.raised.None? <==> forall i :: 0 <= i < |es| ==> !Fatal(es, i, format))
      && (format == Csv ==> forall i :: 0 <= i < |p.files| ==> !Fatal(es, i, Csv) && p.files[i] == FileAt(es, i, variable))
      && (format == Met ==> p.files == [])
  {
    var es := Events(files, variable, years, lats, lons, RootLoader(drift));
    ReplayCompletes(es, format, variable);
    ReplayWrites(es, variable);
    Replay(es, format, variable)
  }

  /** A cell whose extraction raises ValueError is written with the previous
      cell's rows: `temp_df` keeps the last frame that was extracted. */
  lemma StaleFrameReused(es: seq<Event>, variable: string, i: nat)
    requires 0 < i < |Replay(es, Csv, variable).files|
    requires Extracted(es[i]).Err?
    ensures Replay(es, Csv, variable).files[i].rows == Replay(es, Csv, variable).files[i - 1].rows
  {
    ReplayWrites(es, variable);
  }

  /** When every cell is extracted, each file holds exactly its own cell's rows:
      `yearly_df` is emptied after every cell, so nothing accumulates. */
  lemma EachFileHoldsItsCell(es: seq<Event>, variable: string)
    requires forall i :: 0 <= i < |es| ==> es[i].Cell? && Extracted(es[i]).Ok?
    ensures var p := Replay(es, Csv, variable);
      p.raised.None? && |p.files| == |es|
      && forall i :: 0 <= i < |es| ==> p.files[i].rows == Extracted(es[i]).value
  {
    ReplayCompletes(es, Csv, variable);
    ReplayWrites(es, variable);
  }

  /** A first cell that raises ValueError leaves `temp_df` unbound: the sweep
      stops with a NameError before writing anything. */
  lemma FirstCellFailureUnbound(es: seq<Event>, variable: string, format: Format)
    requires |es| > 0 && es[0].Cell? && Extracted(es[0]).Err? && IsValueError(Extracted(es[0]).error)
    ensures Replay(es, format, variable).raised.Some? && Replay(es, format, variable).files == []
  {
    assert Fatal(es, 0, format);
    ReplayCompletes(es, format, variable);
    ReplayWrites(es, variable);
  }

  /** A MET run stops at its first extracted cell with the NameError on `output_dir`. */
  lemma {:induction false} MetRunStops(es: seq<Event>, n: nat, variable: string)
    requires 1 <= n <= |es| && es[0].Cell? && Extracted(es[0]).Ok?
    ensures Replay(es[..n], Met, variable).raised == Some(Unbound("output_dir"))
    decreases n
  {
    if n > 1 {
      MetRunStops(es, n - 1, variable);
      assert es[..n][..n - 1] == es[..n - 1];
    } else {
      assert es[..1][..0] == [];
      assert es[..1][0] == es[0];
    }
  }

  // ---------------------------------------------------------------------------
  // Year arguments of the root climatextractor.py

  /** The year list after the root script's parsing: a range expanded from the
      first item, or the items kept as they were given. */
  datatype YearList = Expanded(years: seq<int>) | AsGiven(items: seq<string>)

  /** `if "-" in year_range[0]`: the first item is read as a range "a-b";
      otherwise the list is used unchanged (IndexError on an empty list). */
  function RootYears(items: seq<string>): (r: Result<YearList, Fault>)
    ensures |items| == 0 ==> r == Err(OutOfRange)
    ensures |items| > 0 && '-' !in items[0] ==> r == Ok(AsGiven(items))
    ensures |items| > 0 && '-' in items[0] ==>
      (r.Ok? <==> YearsFromSpec(items[0]).Ok?)
      && (r.Ok? ==> r.value == Expanded(YearsFromSpec(items[0]).value))
  {
    if |items| == 0 then Err(OutOfRange)
    else if '-' in items[0] then
      var years :- YearsFromSpec(items[0]);
      Ok(Expanded(years))
    else Ok(AsGiven(items))
  }
}

=== FILE: formats.dfy ===
/** File names and the DSSAT date of bestiapop/producers/output.py.

    A DSSAT date is the year's text without its first two characters followed
    by the day number zero-padded to three digits, so 2010 day 5 is "10005".
    A WHT file is named after the coordinates with their dots removed, the
    first two-digit year of the slice and the number of distinct two-digit
    years in it.
 */
module Formats {
  import opened Outcomes
  import opened Text
  import opened Table

  // ---------------------------------------------------------------------------
  // DSSAT dates

  /** `str(year)[2:]` followed by `numpy.char.zfill(str(day), 3)`. */
  function DssatDate(year: int, day: int): string {
    DropPrefix(IntToString(year), 2) + ZFill(IntToString(day), 3)
  }

  /** A four-digit year and a day up to 999 give five digits: the year modulo 100, then
      the day. The date is read back by the WHT file name and by DSSAT readers. */
  lemma DssatDateReadsBack(year: int, day: int)
    requires 1000 <= year <= 9999 && 1 <= day <= 999
    ensures var d := DssatDate(year, day);
      |d| == 5 && AllDigits(d)
      && DigitsValue(d[..2]) == year % 100 && DigitsValue(d[2..]) == day
  {
    var lo := DropPrefix(IntToString(year), 2);
    var z := ZFill(IntToString(day), 3);
    YearTail(year);
    DayPadded(day);
    var d := DssatDate(year, day);
    assert d == lo + z;
    assert d[..2] == lo && d[2..] == z;
    AllDigitsAppend(lo, z);
  }

  /** `str(year)[2:]` of a four-digit year is two digits worth the year modulo 100. */
  lemma YearTail(year: int)
    requires 1000 <= year <= 9999
    ensures var lo := DropPrefix(IntToString(year), 2);
      |lo| == 2 && AllDigits(lo) && DigitsValue(lo) == year % 100
  {
    YearDigits(year);
    TwoDigitsValue(year / 10 % 10, year % 10);
  }

  lemma TwoDigitsValue(a: nat, b: nat)
    requires a < 10 && b < 10
    ensures AllDigits([DigitChar(a), DigitChar(b)]) && DigitsValue([DigitChar(a), DigitChar(b)]) == 10 * a + b
  {
    var s := [DigitChar(a), DigitChar(b)];
    var h := [DigitChar(a)];
    assert s[..1] == h && h[..0] == [];
    assert DigitsValue(h) == 10 * DigitsValue([]) + DigitValue(DigitChar(a)) == a;
    assert DigitsValue(s) == 10 * DigitsValue(h) + DigitValue(DigitChar(b));
  }

  /** `str(year)[2:]` of a four-digit year is its tens digit and its units digit. */
  lemma YearDigits(year: int)
    requires 1000 <= year <= 9999
    ensures DropPrefix(IntToString(year), 2) == [DigitChar(year / 10 % 10), DigitChar(year % 10)]
  {
    Pow10Values();
    LastTwoDigits(year);
    NatToStringLength(year / 100, 2);
  }

  /** The zero-padded day is three digits worth the day. */
  lemma DayPadded(day: int)
    requires 1 <= day <= 999
    ensures var z := ZFill(IntToString(day), 3);
      |z| == 3 && AllDigits(z) && DigitsValue(z) == day
  {
    var ds := NatToString(day);
    Pow10Values();
    DigitsValueOfNatToString(day);
    var k: nat := if day < 10 then 1 else if day < 100 then 2 else 3;
    NatToStringLength(day, k);
    var z := ZFill(ds, 3);
    assert z == Zeros(3 - |ds|) + ds;
    DigitsValueOfZeros(3 - |ds|);
    DigitsValueAppend(Zeros(3 - |ds|), ds);
  }

  /** The last two characters of a number of at least three digits are its tens and units. */
  lemma LastTwoDigits(n: nat)
    requires n >= 100
    ensures NatToString(n) == NatToString(n / 100) + [DigitChar(n / 10 % 10), DigitChar(n % 10)]
  {
    assert NatToString(n) == NatToString(n / 10) + [DigitChar(n % 10)];
    assert NatToString(n / 10) == NatToString(n / 10 / 10) + [DigitChar(n / 10 % 10)];
    assert n / 10 / 10 == n / 100;
  }

  /** Two-digit years make the date ambiguous across centuries. */
  lemma DssatDateRepeatsEveryCentury(year: int, day: int)
    requires 1000 <= year <= 9899
    ensures DssatDate(year, day) == DssatDate(year + 100, day)
  {
    YearDigits(year);
    YearDigits(year + 100);
    assert (year + 100) / 10 % 10 == year / 10 % 10;
    assert (year + 100) % 10 == year % 10;
  }

  // ---------------------------------------------------------------------------
  // WHT rows and names

  /** A WHT data row: the columns `@DATE SRAD TMAX TMIN RAIN`, after year and day are deleted. */
  datatype WhtRow = WhtRow(date: string, srad: int, tmax: int, tmin: int, rain: int)

  function WhtRowOf(r: SliceRow): WhtRow {
    WhtRow(DssatDate(r.year, r.day), r.radn, r.maxt, r.mint, r.rain)
  }

  function WhtRows(slice: seq<SliceRow>): (rows: seq<WhtRow>)
    ensures |rows| == |slice|
    ensures forall i :: 0 <= i < |slice| ==> rows[i] == WhtRowOf(slice[i])
  {
    seq(|slice|, i requires 0 <= i < |slice| => WhtRowOf(slice[i]))
  }

  /** `Series.unique()`: distinct values in order of first appearance. */
  function Distinct(xs: seq<int>): (r: seq<int>)
    ensures forall x :: x in r <==> x in xs
    ensures forall i, j :: 0 <= i < j < |r| ==> r[i] != r[j]
    ensures |xs| > 0 ==> |r| > 0 && r[0] == xs[0]
    decreases |xs|
  {
    if |xs| == 0 then []
    else
      var d := Distinct(xs[..|xs| - 1]);
      assert forall x :: x in xs <==> x in xs[..|xs| - 1] || x == xs[|xs| - 1] by {
        assert xs == xs[..|xs| - 1] + [xs[|xs| - 1]];
      }
      if xs[|xs| - 1] in d then d else d + [xs[|xs| - 1]]
  }

  /** `int(str(x)[:2])` over the DSSAT dates of a slice; text `int()` cannot read raises ValueError. */
  function LeadingYears(slice: seq<SliceRow>): (r: Result<seq<int>, Fault>)
    ensures r.Ok? ==> |r.value| == |slice|
    ensures r.Ok? <==> forall i :: 0 <= i < |slice| ==> ParseInt(TakePrefix(DssatDate(slice[i].year, slice[i].day), 2)).Some?
    ensures r.Ok? ==> forall i :: 0 <= i < |slice| ==> r.value[i] == ParseInt(TakePrefix(DssatDate(slice[i].year, slice[i].day), 2)).value
    decreases |slice|
  {
    if |slice| == 0 then Ok([])
    else
      var text := TakePrefix(DssatDate(slice[0].year, slice[0].day), 2);
      match ParseInt(text)
      case None => Err(NotANumber(text))
      case Some(y) =>
        match LeadingYears(slice[1..])
        case Err(e) => Err(e)
        case Ok(ys) => Ok([y] + ys)
  }

  /** `str(lat).replace(".", "") + str(lon).replace(".", "")`, the start of a WHT file name. */
  function WhtStem(lat: int, lon: int): string {
    Without(CoordToString(lat), '.') + Without(CoordToString(lon), '.')
  }

  /** The WHT file name: `flat + flon + fyear + fyear_len + ".WHT"`. An empty slice has no
      first year, and indexing it raises IndexError. */
  function WhtName(lat: int, lon: int, slice: seq<SliceRow>): (r: Result<string, Fault>)
    ensures |slice| == 0 ==> r == Err(OutOfRange)
    ensures |slice| > 0 ==> (r.Ok? <==> LeadingYears(slice).Ok?)
    ensures |slice| > 0 && r.Err? ==> r.error == LeadingYears(slice).error
    ensures r.Ok? ==>
      var years := LeadingYears(slice).value;
      r.value == WhtStem(lat, lon) + IntToString(years[0]) + IntToString(|Distinct(years)|) + ".WHT"
  {
    if |slice| == 0 then Err(OutOfRange)
    else
      var years :- LeadingYears(slice);
      var unique := Distinct(years);
      Ok(WhtStem(lat, lon) + IntToString(unique[0]) + IntToString(|unique|) + ".WHT")
  }

  function TwoDigitYears(slice: seq<SliceRow>): (ys: seq<int>)
    ensures |ys| == |slice| && forall i :: 0 <= i < |slice| ==> ys[i] == slice[i].year % 100
  {
    seq(|slice|, i requires 0 <= i < |slice| => slice[i].year % 100)
  }

  lemma LeadingYearOfDate(year: int, day: int)
    requires 1000 <= year <= 9999 && 1 <= day <= 999
    ensures ParseInt(TakePrefix(DssatDate(year, day), 2)) == Some(year % 100)
  {
    DssatDateReadsBack(year, day);
    var d := DssatDate(year, day);
    assert TakePrefix(d, 2) == d[..2];
    ParseIntOfDigits(d[..2]);
  }

  /** On a slice of four-digit years the WHT name carries the first year modulo 100 and the
      number of distinct years modulo 100. */
  lemma WhtNameOfYears(lat: int, lon: int, slice: seq<SliceRow>)
    requires |slice| > 0
    requires forall i :: 0 <= i < |slice| ==> 1000 <= slice[i].year <= 9999 && 1 <= slice[i].day <= 999
    ensures WhtName(lat, lon, slice) == Ok(WhtStem(lat, lon) + IntToString(slice[0].year % 100)
                                           + IntToString(|Distinct(TwoDigitYears(slice))|) + ".WHT")
  {
    forall i | 0 <= i < |slice| ensures ParseInt(TakePrefix(DssatDate(slice[i].year, slice[i].day), 2)) == Some(slice[i].year % 100) {
      LeadingYearOfDate(slice[i].year, slice[i].day);
    }
    assert LeadingYears(slice).Ok?;
    assert LeadingYears(slice).value == TwoDigitYears(slice);
  }

  // ---------------------------------------------------------------------------
  // Other file names

  /** `'{}-{}.met'.format(lat, lon)`. */
  function MetName(lat: int, lon: int): string {
    CoordToString(lat) + "-" + CoordToString(lon) + ".met"
  }

  /** `'{}-{}.{}.csv'.format(lat, lon, data_source)`. */
  function CsvName(lat: int, lon: int, source: string): string {
    CoordToString(lat) + "-" + CoordToString(lon) + "." + source + ".csv"
  }

  /** The text before the first "-" of a name that starts with a non-negative latitude. */
  lemma CsvNameReadsBack(lat: int, lon: int, source: string)
    requires lat >= 0
    ensures var parts := SplitOn(CsvName(lat, lon, source), '-');
      ParseCoord(parts[0]) == Some(lat)
  {
    var a := CoordToString(lat);
    assert '-' !in a by {
      var n := NatToString(lat / 100);
      assert forall k :: 0 <= k < |n| ==> n[k] != '-' by {
        forall k | 0 <= k < |n| ensures n[k] != '-' { assert IsDigit(n[k]); }
      }
      ParseFraction(lat % 100);
      var f := FractionText(lat % 100);
      assert forall k :: 0 <= k < |f| ==> f[k] != '-' by {
        forall k | 0 <= k < |f| ensures f[k] != '-' { assert IsDigit(f[k]); }
      }
      assert a == n + "." + f;
    }
    var rest := CoordToString(lon) + "." + source + ".csv";
    assert CsvName(lat, lon, source) == a + ['-'] + rest;
    SplitOnAt(a, '-', rest);
    ParseCoordOfCoordToString(lat);
  }
}

=== FILE: grid.dfy ===
/** Fixed-point grid arithmetic.

    Coordinates are integers in hundredths of a degree. The data providers
    publish grids of different spacing, and coordinate sequences are produced
    with `numpy.arange`, whose floating-point step sometimes lets the excluded
    end point in. That drift is an explicit choice here: it can only add the end
    point itself, which exists only when the span is a whole number of steps.
 */
module Grid {

  /** The two climate data services. */
  datatype Provider = Silo | NasaPower

  /** The grid spacing in hundredths of a degree: 0.05 degrees for SILO, 1 degree for NASA POWER. */
  function GridStep(p: Provider): (step: nat)
    ensures step > 0
    ensures p.Silo? ==> step == 5
    ensures p.NasaPower? ==> step == 100
  {
    match p
    case Silo => 5
    case NasaPower => 100
  }

  function CeilDiv(n: nat, d: nat): nat
    requires d > 0
  {
    (n + d - 1) / d
  }

  lemma MulAtLeast(d: int, a: int)
    requires d > 0 && a >= 1
    ensures d * a >= d
  {
    var k := a - 1;
    assert d * a == d * k + d;
    assert d * k >= 0;
  }

  lemma DivMod(n: int, d: int)
    requires d > 0
    ensures n == d * (n / d) + n % d && 0 <= n % d < d
  {
  }

  /** Division is determined by a quotient and a remainder below the divisor. */
  lemma DivOfMultiplePlus(q: int, b: int, d: int)
    requires d > 0 && 0 <= b < d
    ensures (d * q + b) / d == q && (d * q + b) % d == b
  {
    var n := d * q + b;
    var q' := n / d;
    var b' := n % d;
    DivMod(n, d);
    assert d * (q - q') == b' - b;
    if q > q' {
      MulAtLeast(d, q - q');
    } else if q < q' {
      MulAtLeast(d, q' - q);
    }
  }

  /** `numpy.round(n / d)`: the nearest integer, and the even one on a tie. */
  function RoundHalfEven(n: nat, d: nat): (r: nat)
    requires d > 0
    ensures -(d as int) <= 2 * n - 2 * d * r <= d
    ensures 2 * n - 2 * d * r == d || 2 * n - 2 * d * r == -(d as int) ==> r % 2 == 0
  {
    var q := n / d;
    var rem := n % d;
    DivMod(n, d);
    assert 2 * d * (q + 1) == 2 * d * q + 2 * d;
    if 2 * rem < d then q
    else if 2 * rem > d then q + 1
    else if q % 2 == 0 then q
    else q + 1
  }

  /** A whole number of steps rounds to that number of steps. */
  lemma RoundHalfEvenOfMultiple(k: nat, d: nat)
    requires d > 0
    ensures RoundHalfEven(k * d, d) == k
  {
    DivOfMultiplePlus(k, 0, d);
    assert d * k + 0 == k * d;
  }

  /** The length of `numpy.arange(start, stop, step)`: the exact count of steps below `stop`,
      plus one when drift lets `stop` itself in. */
  function ArangeLength(start: int, stop: int, step: nat, drift: bool): nat
    requires step > 0
  {
    if stop <= start then 0
    else CeilDiv(stop - start, step) + (if drift && (stop - start) % step == 0 then 1 else 0)
  }

  /** `numpy.arange(start, stop, step).round(2)` on the hundredths grid. */
  function Arange(start: int, stop: int, step: nat, drift: bool): (r: seq<int>)
    requires step > 0
    ensures |r| == ArangeLength(start, stop, step, drift)
    ensures forall i :: 0 <= i < |r| ==> r[i] == start + i * step
  {
    seq(ArangeLength(start, stop, step, drift), i => start + i * step)
  }

  lemma CeilDivSplit(n: nat, d: nat)
    requires d > 0
    ensures n % d == 0 ==> CeilDiv(n, d) == n / d
    ensures n % d != 0 ==> CeilDiv(n, d) == n / d + 1
  {
    var q := n / d;
    var rem := n % d;
    assert n + d - 1 == d * q + rem + d - 1;
    if rem == 0 {
      DivOfMultiplePlus(q, d - 1, d);
    } else {
      assert n + d - 1 == d * (q + 1) + (rem - 1);
      DivOfMultiplePlus(q + 1, rem - 1, d);
    }
  }

  /** Without drift, arange is half-open: every element lies below `stop` and one more step would reach it. */
  lemma ArangeIsHalfOpen(start: int, stop: int, step: nat)
    requires step > 0
    ensures forall i :: 0 <= i < |Arange(start, stop, step, false)| ==> Arange(start, stop, step, false)[i] < stop
    ensures start < stop ==> start + |Arange(start, stop, step, false)| * step >= stop
  {
    var r := Arange(start, stop, step, false);
    if start < stop {
      var n := stop - start;
      CeilDivSplit(n, step);
      var q := n / step;
      assert n == step * q + n % step;
      forall i | 0 <= i < |r| ensures r[i] < stop {
        assert i <= |r| - 1;
        assert i * step <= (|r| - 1) * step;
      }
      assert |r| * step >= n;
    }
  }

  /** Drift adds exactly the end point and only when the span is a whole number of steps. */
  lemma ArangeDriftAddsEnd(start: int, stop: int, step: nat)
    requires step > 0 && start < stop && (stop - start) % step == 0
    ensures Arange(start, stop, step, true) == Arange(start, stop, step, false) + [stop]
  {
    var n := stop - start;
    var q := n / step;
    CeilDivSplit(n, step);
    assert n == step * q;
    var a := Arange(start, stop, step, true);
    var b := Arange(start, stop, step, false);
    assert |a| == |b| + 1;
    assert a[|b|] == start + q * step == stop;
  }
}

=== FILE: legacy_ranges.dfy ===
/** The range parsing of the older scripts (bestiapop.py, legacy/bestiapop.py
    and legacy/climatextractor.py). They parse years like get_years_list. Their
    coordinate expansion differs from the current resolver: the step is always
    0.05 degrees, the end point is excluded and never corrected, and a
    one-element list is kept as given.
 */
module LegacyRanges {
  import opened Outcomes
  import opened Grid
  import opened Ranges

  /** The years, latitudes and longitudes a run iterates over. */
  datatype Request = Request(years: seq<int>, lats: seq<int>, lons: seq<int>)

  /** The SILO grid step the older scripts hard-code. */
  const LegacyStep: nat := 5

  /** Two or more endpoints expand to an exclusive `numpy.arange` at 0.05 degrees;
      latitudes are reordered only when both are negative and otherwise leave the
      endpoints unbound. Shorter lists are kept as given. */
  function ExpandPair(xs: seq<int>, axis: Axis, drift: bool): (r: Result<seq<int>, Fault>)
    ensures |xs| <= 1 ==> r == Ok(xs)
    ensures |xs| >= 2 && axis.Latitude? && !(xs[0] < 0 && xs[1] < 0) ==> r == Err(Unbound("first_lat"))
    ensures |xs| >= 2 && (axis.Longitude? || (xs[0] < 0 && xs[1] < 0)) ==>
      r.Ok? && Stepped(r.value, Min(xs[0], xs[1]), LegacyStep)
      && |r.value| == ArangeLength(Min(xs[0], xs[1]), Max(xs[0], xs[1]), LegacyStep, drift)
      && (!drift ==> forall i :: 0 <= i < |r.value| ==> r.value[i] < Max(xs[0], xs[1]))
  {
    if |xs| <= 1 then Ok(xs)
    else if axis.Latitude? && !(xs[0] < 0 && xs[1] < 0) then Err(Unbound("first_lat"))
    else
      var first := Min(xs[0], xs[1]);
      var last := Max(xs[0], xs[1]);
      ArangeIsHalfOpen(first, last, LegacyStep);
      Ok(Arange(first, last, LegacyStep, drift))
  }

  /** bestiapop.py and legacy/bestiapop.py: `if lat_range:` skips a missing or empty
      list, which leaves the attribute unset. */
  function GuardedExpansion(xs: Option<seq<int>>, axis: Axis, drift: bool): (r: Result<seq<int>, Fault>)
    ensures (xs.None? || |xs.value| == 0) ==>
      r == Err(MissingAttribute(if axis.Latitude? then "lat_range" else "lon_range"))
    ensures xs.Some? && |xs.value| > 0 ==> r == ExpandPair(xs.value, axis, drift)
  {
    match xs
    case None => Err(MissingAttribute(if axis.Latitude? then "lat_range" else "lon_range"))
    case Some(v) =>
      if |v| == 0 then Err(MissingAttribute(if axis.Latitude? then "lat_range" else "lon_range"))
      else ExpandPair(v, axis, drift)
  }

  /** legacy/climatextractor.py: no truth test, so a missing list fails in `len()`
      and an empty one is kept. */
  function UnguardedExpansion(xs: Option<seq<int>>, axis: Axis, drift: bool): (r: Result<seq<int>, Fault>)
    ensures xs.None? ==> r == Err(NoLength)
    ensures xs.Some? ==> r == ExpandPair(xs.value, axis, drift)
  {
    match xs
    case None => Err(NoLength)
    case Some(v) => ExpandPair(v, axis, drift)
  }

  /** SILO.__init__ of bestiapop.py (legacy/bestiapop.py holds the same code), followed
      by the first read of the ranges: years first, then latitudes, then longitudes.
      The first fault wins. A missing or empty list does not stop the constructor; its
      AttributeError appears when the unset range is first read. */
  function GuardedInit(yearSpec: string, lat: Option<seq<int>>, lon: Option<seq<int>>, latDrift: bool, lonDrift: bool)
    : (r: Result<Request, Fault>)
    ensures r.Ok? <==> YearsFromSpec(yearSpec).Ok? && GuardedExpansion(lat, Latitude, latDrift).Ok?
                       && GuardedExpansion(lon, Longitude, lonDrift).Ok?
    ensures r.Ok? ==> r.value == Request(YearsFromSpec(yearSpec).value, GuardedExpansion(lat, Latitude, latDrift).value,
                                         GuardedExpansion(lon, Longitude, lonDrift).value)
  {
    var years :- YearsFromSpec(yearSpec);
    var lats :- GuardedExpansion(lat, Latitude, latDrift);
    var lons :- GuardedExpansion(lon, Longitude, lonDrift);
    Ok(Request(years, lats, lons))
  }

  /** SILO.__init__ of legacy/climatextractor.py. */
  function UnguardedInit(yearSpec: string, lat: Option<seq<int>>, lon: Option<seq<int>>, latDrift: bool, lonDrift: bool)
    : (r: Result<Request, Fault>)
    ensures r.Ok? <==> YearsFromSpec(yearSpec).Ok? && UnguardedExpansion(lat, Latitude, latDrift).Ok?
                       && UnguardedExpansion(lon, Longitude, lonDrift).Ok?
    ensures r.Ok? ==> r.value == Request(YearsFromSpec(yearSpec).value, UnguardedExpansion(lat, Latitude, latDrift).value,
                                         UnguardedExpansion(lon, Longitude, lonDrift).value)
  {
    var years :- YearsFromSpec(yearSpec);
    var lats :- UnguardedExpansion(lat, Latitude, latDrift);
    var lons :- UnguardedExpansion(lon, Longitude, lonDrift);
    Ok(Request(years, lats, lons))
  }

  /** An on-grid span of k steps: k + 1 points, of which `arange` without drift yields k. */
  lemma OnGridCounts(a: int, b: int)
    requires a != b && (Max(a, b) - Min(a, b)) % LegacyStep == 0
    ensures StepCount(a, b, LegacyStep) == (Max(a, b) - Min(a, b)) / LegacyStep
    ensures ArangeLength(Min(a, b), Max(a, b), LegacyStep, false) == (Max(a, b) - Min(a, b)) / LegacyStep
  {
    var d := Max(a, b) - Min(a, b);
    var k := d / LegacyStep;
    DivMod(d, LegacyStep);
    assert d == k * LegacyStep;
    assert (if a <= b then b - a else a - b) == d;
    RoundHalfEvenOfMultiple(k, LegacyStep);
    CeilDivSplit(d, LegacyStep);
  }

  /** On an on-grid span without drift the older expansion is the current resolver's
      latitude list without its end point. */
  lemma OlderExpansionDropsEndPoint(a: int, b: int, drift: Drift)
    requires a < 0 && b < 0 && a != b && (Max(a, b) - Min(a, b)) % LegacyStep == 0
    ensures var current := CoordinateList(Listed([a, b]), Latitude, Silo, drift);
      current.Ok? && current.value.Some?
      && ExpandPair([a, b], Latitude, false) == Ok(current.value.value[..|current.value.value| - 1])
  {
    OnGridCounts(a, b);
    assert CoordinateList(Listed([a, b]), Latitude, Silo, drift) == Ok(Some(LatitudeList(Listed([a, b]), Silo, drift).value));
    var current := LatitudeList(Listed([a, b]), Silo, drift).value;
    var older := ExpandPair([a, b], Latitude, false).value;
    assert |older| == |current| - 1;
    assert forall i :: 0 <= i < |older| ==> older[i] == current[i];
    assert older == current[..|current| - 1];
  }
}

=== FILE: legacy_script.dfy ===
/** The MET run of legacy/bestiapop.py (`generate_silo_dataframe` called by the
    generate-met-file action): latitudes, then longitudes, then years, then variables,
    reading every yearly file from the public bucket and never pruning.

    Per cell and year the variables' frames are merged column-wise: the first frame
    that arrives initialises the year, and each later one contributes only the
    columns the year does not have yet, aligned on row position. After the variable
    loop the year's rows are appended to the cell's rows, and after the year loop
    the cell's rows become its MET file.
 */
module LegacyScript {
  import opened Outcomes
  import opened Calendar
  import opened Series
  import Output
  import Formats
  import LegacyRanges

  /** A pandas frame: its columns in order, and its rows as column-to-value maps.
      A column missing from a row holds NaN. */
  datatype Frame = Frame(columns: seq<string>, rows: seq<map<string, int>>)

  /** Every key of every row is one of the frame's columns. */
  predicate WellFormed(f: Frame) {
    forall i, k :: 0 <= i < |f.rows| && k in f.rows[i] ==> k in f.columns
  }

  // ---------------------------------------------------------------------------
  // One cell

  /** `[x for x in data_values if np.isnan(x) != True]`. */
  function Kept(values: seq<Option<int>>): (kept: seq<int>)
    ensures |kept| <= |values|
    ensures |kept| == |values| <==> forall i :: 0 <= i < |values| ==> values[i].Some?
    ensures |kept| == |values| ==> forall i :: 0 <= i < |values| ==> kept[i] == values[i].value
    ensures |kept| == 0 <==> forall i :: 0 <= i < |values| ==> values[i].None?
    decreases |values|
  {
    if |values| == 0 then []
    else
      var init := values[..|values| - 1];
      var rest := Kept(init);
      assert forall i :: 0 <= i < |init| ==> init[i] == values[i];
      match values[|values| - 1]
      case None => rest
      case Some(x) => rest + [x]
  }

  /** The row for day `i + 1` of a year's frame. */
  function DayEntry(year: int, day: int, variable: string, x: int): map<string, int> {
    map["year" := year, "days" := day, variable := x]
  }

  /** `get_values_from_array`: the cell's values without NaN; none left raises ValueError,
      and so does pandas when the values that remain do not fill the year's days. */
  function CellFrame(data: Dataset, lat: int, lon: int, year: int, variable: string): (r: Result<Frame, Fault>)
    ensures r.Ok? <==> (LocalValues(data, variable, lat, lon).Ok?
                        && |Kept(LocalValues(data, variable, lat, lon).value)| == DaysInYear(year))
    ensures r.Err? && LocalValues(data, variable, lat, lon).Ok? ==> IsValueError(r.error)
    ensures r.Err? && LocalValues(data, variable, lat, lon).Err? ==> r.error.MissingKey?
    ensures r.Ok? ==> (r.value.columns == ["year", "days", variable] && |r.value.rows| == DaysInYear(year)
      && forall i :: 0 <= i < DaysInYear(year) ==>
           r.value.rows[i] == DayEntry(year, i + 1, variable, Kept(data[variable][Cell(lat, lon)])[i]))
    ensures r.Ok? ==> WellFormed(r.value)
  {
    var values :- LocalValues(data, variable, lat, lon);
    var kept := Kept(values);
    if |kept| == 0 then Err(NoData)
    else if |kept| != DaysInYear(year) then Err(UnequalColumns)
    else Ok(Frame(["year", "days", variable], seq(|kept|, i requires 0 <= i < |kept| => DayEntry(year, i + 1, variable, kept[i]))))
  }

  /** On a series as long as the year, a cell is kept exactly when no day is missing, and
      then its rows carry the values in day order. */
  lemma CellFrameNeedsEveryDay(data: Dataset, lat: int, lon: int, year: int, variable: string)
    requires variable in data && Cell(lat, lon) in data[variable] && |data[variable][Cell(lat, lon)]| == DaysInYear(year)
    ensures var values := data[variable][Cell(lat, lon)];
      CellFrame(data, lat, lon, year, variable).Ok? <==> forall i :: 0 <= i < |values| ==> values[i].Some?
    ensures CellFrame(data, lat, lon, year, variable).Ok? ==>
      forall i :: 0 <= i < DaysInYear(year) ==>
        CellFrame(data, lat, lon, year, variable).value.rows[i][variable] == data[variable][Cell(lat, lon)][i].value
  {
  }

  /** On a series as long as the year, whatever this version keeps the later position-1 rule keeps too. */
  lemma CellFrameStricterThanLocalYearly(data: Dataset, lat: int, lon: int, year: int, variable: string)
    requires CellFrame(data, lat, lon, year, variable).Ok?
    requires |data[variable][Cell(lat, lon)]| == DaysInYear(year)
    ensures LocalYearly(data, lat, lon, year, variable).Ok?
  {
    CellFrameNeedsEveryDay(data, lat, lon, year, variable);
  }

  /** A single missing day drops a cell here that the later rule keeps. */
  lemma OneMissingDayDropsCell(lat: int, lon: int, variable: string)
    ensures var values := seq(365, i requires 0 <= i < 365 => if i == 3 then None else Some(0));
      var data := map[variable := map[Cell(lat, lon) := values]];
      CellFrame(data, lat, lon, 2019, variable) == Err(UnequalColumns)
      && LocalYearly(data, lat, lon, 2019, variable).Ok?
  {
    var values := seq(365, i requires 0 <= i < 365 => if i == 3 then None else Some(0));
    var data := map[variable := map[Cell(lat, lon) := values]];
    assert !IsLeap(2019);
    assert values[3].None?;
    var kept := Kept(values);
    assert |kept| != |values|;
  }

  // ---------------------------------------------------------------------------
  // The year's merge

  /** The columns of `b` that `a` lacks (`columns.difference`). */
  function NewColumns(a: seq<string>, b: seq<string>): (r: seq<string>)
    ensures forall k :: k in r <==> k in b && k !in a
    ensures (forall i, j :: 0 <= i < j < |b| ==> b[i] != b[j]) ==> forall i, j :: 0 <= i < j < |r| ==> r[i] != r[j]
  {
    if |b| == 0 then []
    else
      assert forall k :: k in b <==> k == b[0] || k in b[1..] by {
        assert b == [b[0]] + b[1..];
      }
      var rest := NewColumns(a, b[1..]);
      assert (forall i, j :: 0 <= i < j < |b| ==> b[i] != b[j]) ==> b[0] !in b[1..] && forall i, j :: 0 <= i < j < |b[1..]| ==> b[1..][i] != b[1..][j] by {
        if forall i, j :: 0 <= i < j < |b| ==> b[i] != b[j] {
          forall i, j | 0 <= i < j < |b[1..]| ensures b[1..][i] != b[1..][j] { assert b[1..][i] == b[i + 1] && b[1..][j] == b[j + 1]; }
        }
      }
      (if b[0] in a then [] else [b[0]]) + rest
  }

  function RowAt(f: Frame, i: nat): map<string, int> {
    if i < |f.rows| then f.rows[i] else map[]
  }

  /** `pd.merge(a, b[new], left_index=True, right_index=True, how='outer')`: rows are paired
      by position, and a row only one side has gets NaN in the other side's columns. */
  function MergeNew(a: Frame, b: Frame): (r: Frame)
    ensures |r.rows| == if |a.rows| >= |b.rows| then |a.rows| else |b.rows|
    ensures forall k :: k in r.columns <==> k in a.columns || k in b.columns
    ensures WellFormed(a) ==> forall i, k :: 0 <= i < |a.rows| && k in a.rows[i] ==> k in r.rows[i] && r.rows[i][k] == a.rows[i][k]
    ensures WellFormed(b) ==> forall i, k :: 0 <= i < |b.rows| && k in b.rows[i] && k !in a.columns ==> k in r.rows[i] && r.rows[i][k] == b.rows[i][k]
    ensures WellFormed(a) && WellFormed(b) ==> WellFormed(r)
  {
    var added := NewColumns(a.columns, b.columns);
    var n := if |a.rows| >= |b.rows| then |a.rows| else |b.rows|;
    var rows := seq(n, i requires 0 <= i < n =>
      var left := RowAt(a, i);
      var right := RowAt(b, i);
      left + map k | k in right && k in added :: right[k]);
    Frame(a.columns + added, rows)
  }

  /** One variable's frame joins the year: the first one initialises it. */
  function Accumulate(year: Frame, cell: Frame): (r: Frame)
    ensures |year.rows| == 0 ==> r == cell
    ensures |year.rows| > 0 ==> r == MergeNew(year, cell)
  {
    if |year.rows| == 0 then cell else MergeNew(year, cell)
  }

  /** The variable loop for one cell and year. A cell without data is skipped; any other
      exception ends the run. */
  function YearFrame(objects: string -> NcFile, lat: int, lon: int, year: int, variables: seq<string>): (r: Result<Frame, Fault>)
    ensures r.Ok? ==> WellFormed(r.value)
    ensures r.Ok? ==> forall k :: k in r.value.columns ==> k == "year" || k == "days" || k in variables
    ensures r.Err? ==> !IsValueError(r.error)
    decreases |variables|
  {
    if |variables| == 0 then Ok(Frame([], []))
    else
      var init := variables[..|variables| - 1];
      var v := variables[|variables| - 1];
      assert forall x :: x in init ==> x in variables;
      var prev :- YearFrame(objects, lat, lon, year, init);
      var file := objects(S3Key(v, year));
      match CellFrame(file.data, lat, lon, file.dataYear, v)
      case Ok(f) => Ok(Accumulate(prev, f))
      case Err(e) => if IsValueError(e) then Ok(prev) else Err(e)
  }

  /** The frame of variable `v` for one cell and year. */
  function VariableFrame(objects: string -> NcFile, lat: int, lon: int, year: int, v: string): Result<Frame, Fault> {
    var file := objects(S3Key(v, year));
    CellFrame(file.data, lat, lon, file.dataYear, v)
  }

  /** Each variable that has data keeps its values in the year's frame, at the same rows,
      unless its name repeats an earlier variable or a key column. */
  lemma {:induction false} YearFrameKeepsEachVariable(objects: string -> NcFile, lat: int, lon: int, year: int, variables: seq<string>, j: nat)
    requires YearFrame(objects, lat, lon, year, variables).Ok?
    requires j < |variables| && variables[j] !in variables[..j] && variables[j] != "year" && variables[j] != "days"
    requires VariableFrame(objects, lat, lon, year, variables[j]).Ok?
    ensures var f := VariableFrame(objects, lat, lon, year, variables[j]).value;
      var y := YearFrame(objects, lat, lon, year, variables).value;
      |f.rows| <= |y.rows| && forall i :: 0 <= i < |f.rows| ==> variables[j] in y.rows[i] && y.rows[i][variables[j]] == f.rows[i][variables[j]]
    decreases |variables|
  {
    var v := variables[j];
    var f := VariableFrame(objects, lat, lon, year, v).value;
    var init := variables[..|variables| - 1];
    var last := variables[|variables| - 1];
    var prev := YearFrame(objects, lat, lon, year, init).value;
    var y := YearFrame(objects, lat, lon, year, variables).value;
    assert |f.rows| > 0 && forall i :: 0 <= i < |f.rows| ==> v in f.rows[i];
    if j == |variables| - 1 {
      assert v !in init;
      assert v !in prev.columns;
      assert y == Accumulate(prev, f);
    } else {
      assert init[..j] == variables[..j];
      YearFrameKeepsEachVariable(objects, lat, lon, year, init, j);
      assert |prev.rows| > 0;
      match VariableFrame(objects, lat, lon, year, last)
      case Ok(g) =>
        assert y == MergeNew(prev, g);
      case Err(e) =>
        assert y == prev;
    }
  }

  // ---------------------------------------------------------------------------
  // The cell's MET file

  /** The year loop for one cell: each year's rows appended in order. */
  function CellRows(objects: string -> NcFile, lat: int, lon: int, years: seq<int>, variables: seq<string>): (r: Result<seq<map<string, int>>, Fault>)
    ensures r.Ok? <==> forall k :: 0 <= k < |years| ==> YearFrame(objects, lat, lon, years[k], variables).Ok?
    ensures r.Err? ==> !IsValueError(r.error)
  {
    AppendYears(years, y => YearFrame(objects, lat, lon, y, variables))
  }

  /** Appends the rows of each year's frame in order; the first year that raises ends the loop. */
  function AppendYears(years: seq<int>, frameOf: int -> Result<Frame, Fault>): (r: Result<seq<map<string, int>>, Fault>)
    ensures r.Ok? <==> forall k :: 0 <= k < |years| ==> frameOf(years[k]).Ok?
    ensures r.Err? ==> exists k :: 0 <= k < |years| && frameOf(years[k]) == Err(r.error)
    decreases |years|
  {
    if |years| == 0 then Ok([])
    else
      var init := years[..|years| - 1];
      var last := years[|years| - 1];
      assert forall k :: 0 <= k < |init| ==> init[k] == years[k];
      match AppendYears(init, frameOf)
      case Err(e) => Err(e)
      case Ok(prev) =>
        match frameOf(last)
        case Err(e) => Err(e)
        case Ok(y) => Ok(prev + y.rows)
  }

  /** The MET file of one cell, `'{lat}-{lon}.met'`, with the rows of every year. */
  datatype MetFile = MetFile(lat: int, lon: int, rows: seq<map<string, int>>) {
    function Name(): string { Formats.MetName(lat, lon) }
  }

  /** The files written and the exception that ended the run, if one escaped. */
  datatype Written = Written(files: seq<MetFile>, raised: Option<Fault>)

  /** The rows of the cell at `p`. */
  function PairRows(objects: string -> NcFile, p: (int, int), years: seq<int>, variables: seq<string>): Result<seq<map<string, int>>, Fault> {
    CellRows(objects, p.0, p.1, years, variables)
  }

  /** The outer loops over the (lat, lon) pairs, latitudes outermost: each cell's file is
      written in turn until one cell raises. */
  function WriteCells(ps: seq<(int, int)>, rowsOf: ((int, int)) -> Result<seq<map<string, int>>, Fault>): (w: Written)
    ensures w.raised.None? <==> forall i :: 0 <= i < |ps| ==> rowsOf(ps[i]).Ok?
    ensures |w.files| <= |ps|
    ensures w.raised.None? ==> |w.files| == |ps|
    ensures forall i :: 0 <= i < |w.files| ==>
      rowsOf(ps[i]).Ok? && w.files[i] == MetFile(ps[i].0, ps[i].1, rowsOf(ps[i]).value)
    ensures w.raised.Some? ==> |w.files| < |ps| && rowsOf(ps[|w.files|]) == Err(w.raised.value)
    decreases |ps|
  {
    if |ps| == 0 then Written([], None)
    else
      var p := ps[0];
      match rowsOf(p)
      case Err(e) => Written([], Some(e))
      case Ok(rows) =>
        var rest := WriteCells(ps[1..], rowsOf);
        var files := [MetFile(p.0, p.1, rows)] + rest.files;
        assert forall i :: 1 <= i < |ps| ==> ps[1..][i - 1] == ps[i];
        assert forall i :: 1 <= i < |files| ==> files[i] == rest.files[i - 1];
        Written(files, rest.raised)
  }

  /** The MET run over the cells `ps`: a file per cell, in order, until a cell raises. */
  function MetRun(objects: string -> NcFile, ps: seq<(int, int)>, years: seq<int>, variables: seq<string>): (w: Written)
    ensures w.raised.None? <==> forall i :: 0 <= i < |ps| ==> PairRows(objects, ps[i], years, variables).Ok?
    ensures |w.files| <= |ps|
    ensures w.raised.None? ==> |w.files| == |ps|
    ensures forall i :: 0 <= i < |w.files| ==> PairRows(objects, ps[i], years, variables).Ok?
    ensures forall i :: 0 <= i < |w.files| ==>
      w.files[i] == MetFile(ps[i].0, ps[i].1, PairRows(objects, ps[i], years, variables).value)
    ensures w.raised.Some? ==> |w.files| < |ps|
    ensures w.raised.Some? ==> PairRows(objects, ps[|w.files|], years, variables) == Err(w.raised.value)
  {
    WriteCells(ps, p => PairRows(objects, p, years, variables))
  }

  /** The MET run over a resolved request, with the loops of `generate_silo_dataframe`:
      latitudes outermost, longitudes inside them. The file at position
      `i * |lons| + j` belongs to `lats[i]` and `lons[j]` and holds that cell's rows. */
  function RequestMetRun(objects: string -> NcFile, req: LegacyRanges.Request, variables: seq<string>): (w: Written)
    ensures w.raised.None? <==> forall i, j :: 0 <= i < |req.lats| && 0 <= j < |req.lons| ==>
      PairRows(objects, (req.lats[i], req.lons[j]), req.years, variables).Ok?
    ensures w.raised.None? ==> |w.files| == |req.lats| * |req.lons|
    ensures forall i, j :: 0 <= i < |req.lats| && 0 <= j < |req.lons| && Output.Position(i, j, |req.lons|) < |w.files| ==>
      CellFileAt(w, objects, req, variables, i, j)
  {
    RequestMetRunCompletes(objects, req, variables);
    RequestMetRunFiles(objects, req, variables);
    MetRun(objects, Output.Nest(req.lats, req.lons, true), req.years, variables)
  }

  /** The file at position `i * |lons| + j` of the run is the cell (lats[i], lons[j]), with its rows. */
  predicate CellFileAt(w: Written, objects: string -> NcFile, req: LegacyRanges.Request, variables: seq<string>, i: nat, j: nat)
    requires i < |req.lats| && j < |req.lons| && Output.Position(i, j, |req.lons|) < |w.files|
  {
    var f := w.files[Output.Position(i, j, |req.lons|)];
    f.lat == req.lats[i] && f.lon == req.lons[j]
    && PairRows(objects, (req.lats[i], req.lons[j]), req.years, variables) == Ok(f.rows)
  }

  /** Each written file sits at its cell's latitude-major position. */
  lemma RequestMetRunFiles(objects: string -> NcFile, req: LegacyRanges.Request, variables: seq<string>)
    ensures var w := MetRun(objects, Output.Nest(req.lats, req.lons, true), req.years, variables);
      forall i, j :: 0 <= i < |req.lats| && 0 <= j < |req.lons| && Output.Position(i, j, |req.lons|) < |w.files| ==>
        CellFileAt(w, objects, req, variables, i, j)
  {
    var w := MetRun(objects, Output.Nest(req.lats, req.lons, true), req.years, variables);
    forall i, j | 0 <= i < |req.lats| && 0 <= j < |req.lons| && Output.Position(i, j, |req.lons|) < |w.files|
      ensures CellFileAt(w, objects, req, variables, i, j)
    {
      Output.NestAt(req.lats, req.lons, true, i, j);
    }
  }

  /** The run completes exactly when every requested cell yields its rows. */
  lemma RequestMetRunCompletes(objects: string -> NcFile, req: LegacyRanges.Request, variables: seq<string>)
    ensures var w := MetRun(objects, Output.Nest(req.lats, req.lons, true), req.years, variables);
      w.raised.None? <==> forall i, j :: 0 <= i < |req.lats| && 0 <= j < |req.lons| ==>
        PairRows(objects, (req.lats[i], req.lons[j]), req.years, variables).Ok?
  {
    var ps := Output.Nest(req.lats, req.lons, true);
    var w := MetRun(objects, ps, req.years, variables);
    if w.raised.None? {
      forall i, j | 0 <= i < |req.lats| && 0 <= j < |req.lons|
        ensures PairRows(objects, (req.lats[i], req.lons[j]), req.years, variables).Ok?
      {
        Output.NestAt(req.lats, req.lons, true, i, j);
        assert ps[Output.Position(i, j, |req.lons|)] == (req.lats[i], req.lons[j]);
      }
    } else {
      var k := |w.files|;
      assert PairRows(objects, ps[k], req.years, variables).Err?;
      assert ps[k] in ps;
      var i :| 0 <= i < |req.lats| && req.lats[i] == ps[k].0;
      var j :| 0 <= j < |req.lons| && req.lons[j] == ps[k].1;
      assert ps[k] == (req.lats[i], req.lons[j]);
    }
  }

  /** Without pruning, a cell's MET file depends on that cell alone: a longitude with no data
      at one latitude still gets its file at the next. */
  lemma CellFileIgnoresOtherCells(a: string -> NcFile, b: string -> NcFile, ps: seq<(int, int)>, years: seq<int>, variables: seq<string>, i: nat)
    requires i < |MetRun(a, ps, years, variables).files| && i < |MetRun(b, ps, years, variables).files|
    requires PairRows(a, ps[i], years, variables) == PairRows(b, ps[i], years, variables)
    ensures MetRun(a, ps, years, variables).files[i] == MetRun(b, ps, years, variables).files[i]
  {
  }
}

=== FILE: nasapower.dfy ===
/** The NASA POWER connector (bestiapop/connectors/nasapower_connector.py).

    Only four variables have a NASA POWER parameter. The cache holds the last
    response and is keyed by its coordinates alone: a response covers every year
    of the requested span, so a later year at the same point is read from the
    cache. Response coordinates are in units of 0.00001 degree
    and are rounded to hundredths before the comparison. The series of a year
    consists of the values whose date key starts with that year.
 */
module NasaPower {
  import opened Outcomes
  import opened Text
  import opened Grid
  import opened Table
  import opened Series

  /** The translation table of the constructor. */
  const Codes: map<string, string> := map[
    "daily_rain" := "PRECTOT", "max_temp" := "T2M_MAX", "min_temp" := "T2M_MIN", "radiation" := "ALLSKY_SFC_SW_DWN"]

  /** The translated parameters, in request order; the first untranslatable variable raises KeyError. */
  function Parameters(variables: seq<string>): (r: Result<seq<string>, Fault>)
    ensures r.Ok? <==> forall i :: 0 <= i < |variables| ==> variables[i] in Codes
    ensures r.Ok? ==> |r.value| == |variables| && forall i :: 0 <= i < |variables| ==> r.value[i] == Codes[variables[i]]
    ensures r.Err? ==> exists i :: 0 <= i < |variables| && variables[i] !in Codes && r.error == MissingKey(variables[i])
                                   && forall j :: 0 <= j < i ==> variables[j] in Codes
    decreases |variables|
  {
    if |variables| == 0 then Ok([])
    else if variables[0] !in Codes then Err(MissingKey(variables[0]))
    else
      match Parameters(variables[1..])
      case Err(e) =>
        var i :| 0 <= i < |variables[1..]| && variables[1..][i] !in Codes && e == MissingKey(variables[1..][i])
                 && forall j :: 0 <= j < i ==> variables[1..][j] in Codes;
        assert variables[i + 1] !in Codes && forall j :: 0 <= j < i + 1 ==> variables[j] in Codes;
        Err(e)
      case Ok(rest) => Ok([Codes[variables[0]]] + rest)
  }

  /** `",".join(...)` of the parameters. */
  function ParameterString(params: seq<string>): string {
    JoinWith(params, ',')
  }

  /** The parameter string splits back into the parameters. */
  lemma ParameterStringSplitsBack(variables: seq<string>)
    requires Parameters(variables).Ok? && |variables| > 0
    ensures SplitOn(ParameterString(Parameters(variables).value), ',') == Parameters(variables).value
  {
    var ps := Parameters(variables).value;
    forall k | 0 <= k < |ps| ensures ',' !in ps[k] {
      NoCommaInCodes(variables[k]);
    }
    SplitOnJoinWith(ps, ',');
  }

  lemma NoCommaInCodes(v: string)
    requires v in Codes
    ensures ',' !in Codes[v]
  {
    var code := Codes[v];
    assert code == "PRECTOT" || code == "T2M_MAX" || code == "T2M_MIN" || code == "ALLSKY_SFC_SW_DWN";
  }

  // ---------------------------------------------------------------------------
  // Responses and the cache

  /** One value of a parameter, under its `YYYYMMDD` date key. */
  datatype Entry = Entry(key: string, value: Option<int>)

  /** The first feature of a response: `[lon, lat, elevation]` in units of 0.00001 and the
      entries of each parameter in key order. */
  datatype Response = Response(coordinates: seq<int>, parameters: map<string, seq<Entry>>)

  datatype Query = Query(parameters: string, lat: int, lon: int, startDate: string, endDate: string)

  datatype Connector = Connector(parameters: string, cache: Option<Response>, fetches: nat)

  function NewConnector(variables: seq<string>): (r: Result<Connector, Fault>)
    ensures r.Ok? <==> Parameters(variables).Ok?
    ensures r.Ok? ==> r.value.cache.None? && r.value.fetches == 0
                      && r.value.parameters == ParameterString(Parameters(variables).value)
  {
    var ps :- Parameters(variables);
    Ok(Connector(ParameterString(ps), None, 0))
  }

  /** `numpy.round(x, decimals=2)` of a coordinate given in units of 0.00001, in hundredths. */
  function RoundCoordinate(x: int): (r: int)
    ensures -1000 <= 2 * x - 2000 * r <= 1000
  {
    if x < 0 then -(RoundHalfEven(-x, 1000) as int) else RoundHalfEven(x, 1000)
  }

  /** The cache test: it fails over to the server when nothing is cached, when the
      coordinates do not unpack into three values, or when they differ after rounding. */
  predicate CacheFits(cache: Option<Response>, lat: int, lon: int) {
    cache.Some? && |cache.value.coordinates| == 3
    && RoundCoordinate(cache.value.coordinates[1]) == lat && RoundCoordinate(cache.value.coordinates[0]) == lon
  }

  /** The request for the whole year range: 1 January of its first year to 31 December of its last. */
  function QueryFor(c: Connector, lat: int, lon: int, years: seq<int>): Query
    requires |years| > 0
  {
    Query(c.parameters, lat, lon, IntToString(years[0]) + "0101", IntToString(years[|years| - 1]) + "1231")
  }

  /** `int(key[:4])`. */
  function KeyYear(key: string): Option<int> {
    ParseInt(TakePrefix(key, 4))
  }

  /** The values under keys whose year, as `parse` reads it, is the requested one, in key
      order. A key `parse` cannot read raises ValueError. */
  function FilterBy(entries: seq<Entry>, year: int, parse: string -> Option<int>): (r: Result<seq<Option<int>>, Fault>)
    ensures r.Ok? <==> forall i :: 0 <= i < |entries| ==> parse(entries[i].key).Some?
    ensures r.Err? ==> r.error.NotANumber?
    ensures r.Ok? ==> |r.value| <= |entries|
    decreases |entries|
  {
    if |entries| == 0 then Ok([])
    else
      match parse(entries[0].key)
      case None => Err(NotANumber(TakePrefix(entries[0].key, 4)))
      case Some(y) =>
        match FilterBy(entries[1..], year, parse)
        case Err(e) => Err(e)
        case Ok(rest) => Ok((if y == year then [entries[0].value] else []) + rest)
  }

  /** The year's series: `[data[x] for x in data if int(x[:4]) == year]`. */
  function FilterYear(entries: seq<Entry>, year: int): (r: Result<seq<Option<int>>, Fault>)
    ensures r.Ok? <==> forall i :: 0 <= i < |entries| ==> KeyYear(entries[i].key).Some?
    ensures r.Err? ==> r.error.NotANumber?
    ensures r.Ok? ==> r.value == KeptBy(entries, year, KeyYear)
  {
    var r := FilterBy(entries, year, KeyYear);
    if r.Ok? then FilterByIsKeptBy(entries, year, KeyYear); r else r
  }

  /** The values of the entries whose key reads as `year`, in key order, built from the
      last entry backwards. */
  function KeptBy(entries: seq<Entry>, year: int, parse: string -> Option<int>): seq<Option<int>>
    decreases |entries|
  {
    if |entries| == 0 then []
    else
      var last := entries[|entries| - 1];
      KeptBy(entries[..|entries| - 1], year, parse) + (if parse(last.key) == Some(year) then [last.value] else [])
  }

  /** When every key reads, the filter keeps exactly the entries of the year, in key order. */
  lemma {:induction false} FilterByIsKeptBy(entries: seq<Entry>, year: int, parse: string -> Option<int>)
    requires FilterBy(entries, year, parse).Ok?
    ensures FilterBy(entries, year, parse).value == KeptBy(entries, year, parse)
    decreases |entries|
  {
    if |entries| > 0 {
      var n := |entries|;
      var init := entries[..n - 1];
      var last := [entries[n - 1]];
      assert entries == init + last;
      assert forall i :: 0 <= i < |init| ==> init[i] == entries[i];
      FilterByIsKeptBy(init, year, parse);
      assert last[1..] == [];
      assert FilterBy(last, year, parse)
        == Ok((if parse(entries[n - 1].key).value == year then [entries[n - 1].value] else []) + []);
      FilterByAppend(init, last, year, parse);
    }
  }

  /** Filtering a concatenation filters each part. */
  lemma {:induction false} FilterByAppend(a: seq<Entry>, b: seq<Entry>, year: int, parse: string -> Option<int>)
    requires FilterBy(a, year, parse).Ok? && FilterBy(b, year, parse).Ok?
    ensures FilterBy(a + b, year, parse) == Ok(FilterBy(a, year, parse).value + FilterBy(b, year, parse).value)
    decreases |a|
  {
    if |a| == 0 {
      assert a + b == b;
      assert FilterBy(a, year, parse).value == [];
      assert [] + FilterBy(b, year, parse).value == FilterBy(b, year, parse).value;
    } else {
      assert (a + b)[1..] == a[1..] + b;
      assert (a + b)[0] == a[0];
      FilterByAppend(a[1..], b, year, parse);
      var head: seq<Option<int>> := if parse(a[0].key).value == year then [a[0].value] else [];
      var ra := FilterBy(a[1..], year, parse).value;
      var rb := FilterBy(b, year, parse).value;
      assert FilterBy(a, year, parse) == Ok(head + ra);
      assert FilterBy(a + b, year, parse) == Ok(head + (ra + rb));
      assert head + (ra + rb) == (head + ra) + rb;
    }
  }

  function EntryValues(entries: seq<Entry>): (vs: seq<Option<int>>)
    ensures |vs| == |entries| && forall i :: 0 <= i < |entries| ==> vs[i] == entries[i].value
  {
    seq(|entries|, i requires 0 <= i < |entries| => entries[i].value)
  }

  /** A run whose keys all read as one year contributes all its values to that year and
      none to another. */
  lemma {:induction false} FilterByBlock(entries: seq<Entry>, y: int, year: int, parse: string -> Option<int>)
    requires forall i :: 0 <= i < |entries| ==> parse(entries[i].key) == Some(y)
    ensures FilterBy(entries, year, parse) == Ok(if y == year then EntryValues(entries) else [])
    decreases |entries|
  {
    if |entries| > 0 {
      FilterByBlock(entries[1..], y, year, parse);
      if y == year {
        assert EntryValues(entries) == [entries[0].value] + EntryValues(entries[1..]);
      }
    }
  }

  /** Every key of the run starts with the four digits of the year. */
  predicate KeyedIn(entries: seq<Entry>, y: nat) {
    forall i :: 0 <= i < |entries| ==> NatToString(y) <= entries[i].key
  }

  lemma KeyPrefixReadsBack(key: string, y: nat)
    requires 1000 <= y <= 9999 && NatToString(y) <= key
    ensures KeyYear(key) == Some(y)
  {
    Pow10Values();
    NatToStringLength(y, 4);
    assert TakePrefix(key, 4) == NatToString(y);
    assert IntToString(y) == NatToString(y);
    ParseIntOfIntToString(y);
  }

  lemma FilterYearOfBlock(entries: seq<Entry>, y: nat, year: int)
    requires 1000 <= y <= 9999 && KeyedIn(entries, y)
    ensures FilterYear(entries, year) == Ok(if y == year then EntryValues(entries) else [])
  {
    forall i | 0 <= i < |entries| ensures KeyYear(entries[i].key) == Some(y) {
      KeyPrefixReadsBack(entries[i].key, y);
    }
    FilterByBlock(entries, y, year, KeyYear);
  }

  /** A response spanning two consecutive years yields each year's own run of entries. */
  lemma SpanSplitsByYear(first: seq<Entry>, second: seq<Entry>, y: nat)
    requires 1000 <= y && y + 1 <= 9999 && KeyedIn(first, y) && KeyedIn(second, y + 1)
    ensures FilterYear(first + second, y) == Ok(EntryValues(first))
    ensures FilterYear(first + second, y + 1) == Ok(EntryValues(second))
  {
    SpanPart(first, second, y, y, y + 1);
    SpanPart(first, second, y + 1, y, y + 1);
    assert EntryValues(first) + [] == EntryValues(first);
    assert [] + EntryValues(second) == EntryValues(second);
  }

  lemma SpanPart(first: seq<Entry>, second: seq<Entry>, year: int, y1: nat, y2: nat)
    requires 1000 <= y1 <= 9999 && 1000 <= y2 <= 9999 && KeyedIn(first, y1) && KeyedIn(second, y2)
    ensures FilterYear(first + second, year)
            == Ok((if y1 == year then EntryValues(first) else []) + (if y2 == year then EntryValues(second) else []))
  {
    FilterYearOfBlock(first, y1, year);
    FilterYearOfBlock(second, y2, year);
    FilterByAppend(first, second, year, KeyYear);
  }

  /** A call's result and the connector state it leaves behind. */
  datatype Reply = Reply(connector: Connector, rows: Result<seq<Row>, Fault>)

  /** The values of one variable read from a cached response. The variable is translated
      only now, and a parameter the response lacks raises KeyError. */
  function CachedValues(resp: Response, variable: string, year: int): (r: Result<seq<Option<int>>, Fault>)
    ensures variable !in Codes ==> r == Err(MissingKey(variable))
    ensures variable in Codes && Codes[variable] !in resp.parameters ==> r == Err(MissingKey(Codes[variable]))
    ensures variable in Codes && Codes[variable] in resp.parameters ==> r == FilterYear(resp.parameters[Codes[variable]], year)
  {
    if variable !in Codes then Err(MissingKey(variable))
    else if Codes[variable] !in resp.parameters then Err(MissingKey(Codes[variable]))
    else FilterYear(resp.parameters[Codes[variable]], year)
  }

  /** `get_yearly_data` in cloud mode. Reading the first and last year of an empty range
      raises IndexError inside the exception handler, which escapes before any request. */
  function CloudYearly(c: Connector, server: Query -> Response, lat: int, lon: int, year: int, years: seq<int>, variable: string): (r: Reply)
    ensures CacheFits(c.cache, lat, lon) ==> r.connector == c
    ensures !CacheFits(c.cache, lat, lon) && |years| == 0 ==> r == Reply(c, Err(OutOfRange))
    ensures !CacheFits(c.cache, lat, lon) && |years| > 0 ==>
      r.connector == Connector(c.parameters, Some(server(QueryFor(c, lat, lon, years))), c.fetches + 1)
    ensures CacheFits(c.cache, lat, lon) || |years| > 0 ==>
      (r.rows.Ok? <==> (CachedValues(r.connector.cache.value, variable, year).Ok?
                        && YearlyRows(CachedValues(r.connector.cache.value, variable, year).value, lon, lat, year, variable).Ok?))
    ensures r.rows.Ok? ==>
      (r.connector.cache.Some?
       && r.rows == YearlyRows(CachedValues(r.connector.cache.value, variable, year).value, lon, lat, year, variable))
  {
    if !CacheFits(c.cache, lat, lon) && |years| == 0 then Reply(c, Err(OutOfRange))
    else
      var c' := if CacheFits(c.cache, lat, lon) then c
                else Connector(c.parameters, Some(server(QueryFor(c, lat, lon, years))), c.fetches + 1);
      var rows := match CachedValues(c'.cache.value, variable, year)
                  case Err(e) => Err(e)
                  case Ok(values) => YearlyRows(values, lon, lat, year, variable);
      Reply(c', rows)
  }

  /** `get_yearly_data`: the cloud branch when reading NASA POWER without an input path,
      the local dataset when one is open, and otherwise no values at all (a NameError). */
  function Yearly(c: Connector, source: string, local: Option<Dataset>, server: Query -> Response,
                  lat: int, lon: int, year: int, years: seq<int>, variable: string): (r: Reply)
    ensures source == "nasapower" && local.None? ==> r == CloudYearly(c, server, lat, lon, year, years, variable)
    ensures local.Some? ==> r == Reply(c, LocalYearly(local.value, lat, lon, year, variable))
    ensures source != "nasapower" && local.None? ==> r == Reply(c, Err(Unbound("data_values")))
  {
    if source == "nasapower" && local.None? then CloudYearly(c, server, lat, lon, year, years, variable)
    else if local.Some? then
      Reply(c, LocalYearly(local.value, lat, lon, year, variable))
    else Reply(c, Err(Unbound("data_values")))
  }

  /** Once the server has answered for a point, every later year at that point is read from
      the cache: the key holds the coordinates only. */
  lemma LaterYearUsesCache(c: Connector, server: Query -> Response, lat: int, lon: int, y1: int, y2: int, years: seq<int>, v1: string, v2: string)
    requires !CacheFits(c.cache, lat, lon) && |years| > 0
    requires CacheFits(Some(server(QueryFor(c, lat, lon, years))), lat, lon)
    ensures var first := CloudYearly(c, server, lat, lon, y1, years, v1);
      var second := CloudYearly(first.connector, server, lat, lon, y2, years, v2);
      first.connector.fetches == c.fetches + 1 && second.connector == first.connector
  {
  }

  /** Another point always goes back to the server, whatever the year. */
  lemma OtherPointRefetches(c: Connector, server: Query -> Response, lat: int, lon: int, year: int, years: seq<int>, variable: string)
    requires c.cache.Some? && |c.cache.value.coordinates| == 3 && |years| > 0
    requires RoundCoordinate(c.cache.value.coordinates[1]) != lat
    ensures CloudYearly(c, server, lat, lon, year, years, variable).connector.fetches == c.fetches + 1
  {
  }

  /** The request names the first year's 1 January and the last year's 31 December. */
  lemma QueryCoversSpan(c: Connector, lat: int, lon: int, years: seq<int>)
    requires |years| > 0 && 1000 <= years[0] <= 9999
    ensures var q := QueryFor(c, lat, lon, years);
      |q.startDate| == 8 && ParseInt(TakePrefix(q.startDate, 4)) == Some(years[0])
      && q.startDate[4..] == "0101" && q.endDate == IntToString(years[|years| - 1]) + "1231"
  {
    var q := QueryFor(c, lat, lon, years);
    Pow10Values();
    NatToStringLength(years[0], 4);
    KeyPrefixReadsBack(q.startDate, years[0]);
  }
}

=== FILE: outcomes.dfy ===
/** Failure-compatible wrappers and the Python exceptions the pipeline raises.

    The climate pipeline signals every abnormal outcome with a Python exception.
    The model names each exception kind it can reach in `Fault`. The assemblers
    catch `ValueError` and nothing else, and `IsValueError` records which kinds
    are ValueErrors.
 */
module Outcomes {

  /** A value that may be absent: a NaN or masked measurement, a missing cache. */
  datatype Option<+T> = None | Some(value: T) {
    predicate IsFailure() { None? }

    function PropagateFailure<U>(): Option<U>
      requires None?
    {
      None
    }

    function Extract(): T
      requires Some?
    {
      value
    }

    function GetOr(default: T): T {
      match this
      case Some(v) => v
      case None => default
    }
  }

  /** Either the value a Python call returns or the exception it raises. */
  datatype Result<+T, +E> = Ok(value: T) | Err(error: E) {
    predicate IsFailure() { Err? }

    function PropagateFailure<U>(): Result<U, E>
      requires Err?
    {
      Err(error)
    }

    function Extract(): T
      requires Ok?
    {
      value
    }
  }

  /** The exceptions the modelled code can raise. */
  datatype Fault =
    | NoData                          // ValueError: nothing usable at a grid cell
    | UnequalColumns                  // ValueError: a frame built from columns of different lengths
    | NotExactlyOne                   // ValueError: `.item()` on zero or several matches
    | NotANumber(text: string)        // ValueError: `int()` or `float()` of malformed text
    | AmbiguousTruth                  // ValueError: the truth value of a multi-element array
    | MissingKey(key: string)         // KeyError
    | OutOfRange                      // IndexError
    | Unbound(name: string)           // UnboundLocalError or NameError
    | MissingArgument(name: string)   // TypeError: a call without a required positional argument
    | NoLength                        // TypeError: `len(None)`
    | MissingAttribute(name: string)  // AttributeError

  /** The exceptions an `except ValueError` clause catches. */
  predicate IsValueError(f: Fault) {
    f.NoData? || f.UnequalColumns? || f.NotExactlyOne? || f.NotANumber? || f.AmbiguousTruth?
  }
}

=== FILE: output.dfy ===
/** `DATAOUTPUT.generate_output` of bestiapop/producers/output.py: what each output
    type emits for a combined climate table and the requested coordinates.

    The file contents are modelled by the rows they are rendered from. Template
    text, tabulate layout and the tav/amp statistics are not part of this model.
    A call ends with the files emitted so far and, when an exception escaped,
    that exception: a WHT file written before the failing coordinate stays
    written.
 */
module Output {
  import opened Outcomes
  import opened Text
  import opened Table
  import opened Formats

  // ---------------------------------------------------------------------------
  // Coordinate pairs

  /** Which coordinate list the outer loop runs over. */
  datatype Axis = ByLatitude | ByLongitude

  /** The longer list is the outer one; a tie goes to the latitudes. */
  function PrimaryAxis(lats: seq<int>, lons: seq<int>): (a: Axis)
    ensures |AxisValues(a, lats, lons)| == if |lats| >= |lons| then |lats| else |lons|
    ensures |lats| == |lons| ==> a == ByLatitude
  {
    if |lats| < |lons| then ByLongitude else ByLatitude
  }

  function AxisValues(a: Axis, lats: seq<int>, lons: seq<int>): seq<int> {
    if a == ByLatitude then lats else lons
  }

  /** The nested loop over `outer` then `inner`, giving (lat, lon) pairs. */
  function Nest(outer: seq<int>, inner: seq<int>, outerIsLat: bool): (ps: seq<(int, int)>)
    ensures |ps| == |outer| * |inner|
    ensures forall p :: p in ps <==>
      if outerIsLat then p.0 in outer && p.1 in inner else p.1 in outer && p.0 in inner
    decreases |outer|
  {
    if |outer| == 0 then []
    else
      var row := seq(|inner|, j requires 0 <= j < |inner| => if outerIsLat then (outer[0], inner[j]) else (inner[j], outer[0]));
      var rest := Nest(outer[1..], inner, outerIsLat);
      assert forall x :: x in outer <==> x == outer[0] || x in outer[1..] by {
        assert outer == [outer[0]] + outer[1..];
      }
      assert forall p :: p in row <==> if outerIsLat then p.0 == outer[0] && p.1 in inner else p.1 == outer[0] && p.0 in inner by {
        forall p | p in row ensures if outerIsLat then p.0 == outer[0] && p.1 in inner else p.1 == outer[0] && p.0 in inner {
          var j :| 0 <= j < |row| && row[j] == p;
        }
        forall p: (int, int) | if outerIsLat then p.0 == outer[0] && p.1 in inner else p.1 == outer[0] && p.0 in inner
          ensures p in row
        {
          var j :| 0 <= j < |inner| && inner[j] == (if outerIsLat then p.1 else p.0);
          assert row[j] == p;
        }
      }
      assert |row + rest| == |inner| + (|outer| - 1) * |inner| == |outer| * |inner|;
      row + rest
  }

  /** `i * width`, written as repeated addition so that positions in a nest stay linear. */
  function Offset(i: nat, width: nat): nat {
    if i == 0 then 0 else width + Offset(i - 1, width)
  }

  /** The position of column `j` of row `i` when rows are `width` long. */
  function Position(i: nat, j: nat, width: nat): nat {
    Offset(i, width) + j
  }

  /** The offset of row `i` is `i * width`. */
  lemma {:induction false} OffsetIsProduct(i: nat, width: nat)
    ensures Offset(i, width) == i * width
  {
    if i > 0 {
      OffsetIsProduct(i - 1, width);
    }
  }

  /** Position `i * |inner| + j` of the nest holds the pair of `outer[i]` and
      `inner[j]`: the outer list varies slowest. */
  lemma {:induction false} NestAt(outer: seq<int>, inner: seq<int>, outerIsLat: bool, i: nat, j: nat)
    requires i < |outer| && j < |inner|
    ensures Position(i, j, |inner|) < |Nest(outer, inner, outerIsLat)|
    ensures Nest(outer, inner, outerIsLat)[Position(i, j, |inner|)] ==
      if outerIsLat then (outer[i], inner[j]) else (inner[j], outer[i])
    decreases i
  {
    var row := seq(|inner|, k requires 0 <= k < |inner| => if outerIsLat then (outer[0], inner[k]) else (inner[k], outer[0]));
    var rest := Nest(outer[1..], inner, outerIsLat);
    assert Nest(outer, inner, outerIsLat) == row + rest;
    if i > 0 {
      NestAt(outer[1..], inner, outerIsLat, i - 1, j);
      assert Offset(i, |inner|) + j == |row| + (Offset(i - 1, |inner|) + j);
      assert outer[1..][i - 1] == outer[i];
    }
  }

  /** Every (lat, lon) combination, in the order the output loops visit them. */
  function Pairs(lats: seq<int>, lons: seq<int>): (ps: seq<(int, int)>)
    ensures |ps| == |lats| * |lons|
    ensures forall p :: p in ps <==> p.0 in lats && p.1 in lons
  {
    if PrimaryAxis(lats, lons) == ByLatitude then Nest(lats, lons, true)
    else Nest(lons, lats, false)
  }

  /** With more longitudes than latitudes the output runs longitude by longitude. */
  lemma PairsByLongitude(lats: seq<int>, lons: seq<int>)
    requires |lats| < |lons| && |lats| > 0
    ensures Pairs(lats, lons)[..|lats|] == seq(|lats|, i requires 0 <= i < |lats| => (lats[i], lons[0]))
  {
    var ps := Nest(lons, lats, false);
    assert ps == seq(|lats|, j requires 0 <= j < |lats| => (lats[j], lons[0])) + Nest(lons[1..], lats, false);
  }

  // ---------------------------------------------------------------------------
  // Emission

  datatype OutputType = Stdout | Met | Wht | Csv | OtherType(name: string)

  /** Something an output call produces: a table printed to stdout or a file written. */
  datatype Emission =
    | Printed(lat: int, lon: int, table: seq<DayRow>)
    | MetFile(name: string, rows: seq<SliceRow>)
    | WhtFile(name: string, records: seq<WhtRow>)
    | CsvFile(name: string, table: seq<DayRow>)

  /** The emissions of a call and the exception that ended it, if one escaped. */
  datatype Outcome = Outcome(emitted: seq<Emission>, raised: Option<Fault>)

  /** The name of the CSV file that holds the whole table. */
  const BeastlyName: string := "bestiapop-beastly-dataframe.csv"

  function PrintedSlices(table: seq<DayRow>, ps: seq<(int, int)>): (es: seq<Emission>)
    ensures |es| == |ps|
    ensures forall i :: 0 <= i < |ps| ==> es[i] == Printed(ps[i].0, ps[i].1, Select(table, ps[i].0, ps[i].1))
  {
    seq(|ps|, i requires 0 <= i < |ps| => Printed(ps[i].0, ps[i].1, Select(table, ps[i].0, ps[i].1)))
  }

  /** `generate_met` per pair. The header names the data source, and any source other than
      silo or nasapower leaves that name unbound when the first file is rendered. */
  function MetFiles(source: string, table: seq<DayRow>, ps: seq<(int, int)>): (o: Outcome)
    ensures source != "silo" && source != "nasapower" && |ps| > 0 ==> o == Outcome([], Some(Unbound("data_source")))
    ensures o.raised.None? ==> |o.emitted| == |ps|
    ensures o.raised.None? ==> forall i :: 0 <= i < |ps| ==>
      o.emitted[i] == MetFile(MetName(ps[i].0, ps[i].1), Slice(table, ps[i].0, ps[i].1))
  {
    if source != "silo" && source != "nasapower" && |ps| > 0 then Outcome([], Some(Unbound("data_source")))
    else Outcome(seq(|ps|, i requires 0 <= i < |ps| => MetFile(MetName(ps[i].0, ps[i].1), Slice(table, ps[i].0, ps[i].1))), None)
  }

  /** Emits `f` of each pair in order until one raises; what was emitted before stays. */
  function EmitUntilFault(ps: seq<(int, int)>, f: ((int, int)) -> Result<Emission, Fault>): (o: Outcome)
    ensures o.raised.None? <==> forall i :: 0 <= i < |ps| ==> f(ps[i]).Ok?
    ensures o.raised.None? ==> |o.emitted| == |ps|
    ensures o.raised.Some? ==> |o.emitted| < |ps| && f(ps[|o.emitted|]) == Err(o.raised.value)
    ensures |o.emitted| <= |ps| && forall i :: 0 <= i < |o.emitted| ==> f(ps[i]) == Ok(o.emitted[i])
    decreases |ps|
  {
    if |ps| == 0 then Outcome([], None)
    else
      match f(ps[0])
      case Err(e) => Outcome([], Some(e))
      case Ok(file) =>
        var rest := EmitUntilFault(ps[1..], f);
        assert forall i :: 1 <= i < |ps| ==> ps[1..][i - 1] == ps[i];
        Outcome([file] + rest.emitted, rest.raised)
  }

  /** `generate_wht` for one pair: the file is named after the coordinates and the slice's years. */
  function WhtFileFor(table: seq<DayRow>, p: (int, int)): (r: Result<Emission, Fault>)
    ensures var slice := Slice(table, p.0, p.1);
      match WhtName(p.0, p.1, slice)
      case Err(e) => r == Err(e)
      case Ok(name) => r == Ok(WhtFile(name, WhtRows(slice)))
  {
    var slice := Slice(table, p.0, p.1);
    var name :- WhtName(p.0, p.1, slice);
    Ok(WhtFile(name, WhtRows(slice)))
  }

  /** `generate_wht` per pair, in order. A pair whose slice has no rows, or whose dates do
      not read back as years, raises and ends the call; earlier files stay written. */
  function WhtFiles(table: seq<DayRow>, ps: seq<(int, int)>): (o: Outcome)
    ensures o.raised.None? <==> forall i :: 0 <= i < |ps| ==> WhtFileFor(table, ps[i]).Ok?
    ensures o.raised.None? ==> |o.emitted| == |ps|
    ensures o.raised.Some? ==> |o.emitted| < |ps| && WhtFileFor(table, ps[|o.emitted|]) == Err(o.raised.value)
    ensures forall i :: 0 <= i < |o.emitted| ==> WhtFileFor(table, ps[i]) == Ok(o.emitted[i])
  {
    EmitUntilFault(ps, p => WhtFileFor(table, p))
  }

  /** A pair without data ends WHT output with IndexError, after the files of the pairs before it. */
  lemma WhtStopsAtEmptySlice(table: seq<DayRow>, ps: seq<(int, int)>, k: nat)
    requires k < |ps| && |Slice(table, ps[k].0, ps[k].1)| == 0
    requires forall i :: 0 <= i < k ==> WhtFileFor(table, ps[i]).Ok?
    ensures WhtFiles(table, ps).raised == Some(OutOfRange)
    ensures |WhtFiles(table, ps).emitted| == k
  {
    var o := WhtFiles(table, ps);
    assert WhtFileFor(table, ps[k]) == Err(OutOfRange);
    assert o.raised.Some?;
  }

  /** One CSV per pair, holding its rows with lat and lon kept, then the whole table. */
  function CsvFiles(source: string, table: seq<DayRow>, ps: seq<(int, int)>): (es: seq<Emission>)
    ensures |es| == |ps| + 1
    ensures forall i :: 0 <= i < |ps| ==>
      es[i] == CsvFile(CsvName(ps[i].0, ps[i].1, source), Select(table, ps[i].0, ps[i].1))
    ensures es[|ps|] == CsvFile(BeastlyName, table)
  {
    seq(|ps|, i requires 0 <= i < |ps| => CsvFile(CsvName(ps[i].0, ps[i].1, source), Select(table, ps[i].0, ps[i].1)))
    + [CsvFile(BeastlyName, table)]
  }

  /** `generate_output`. Every output type except stdout first returns on an empty table (met, wht)
      or catches the KeyError of a missing value column (met, wht) or any exception (csv);
      stdout lets it escape. CSV files are written only into an existing directory. */
  function GenerateOutput(source: string, rows: seq<Row>, lats: seq<int>, lons: seq<int>, dirExists: bool, kind: OutputType)
    : (o: Outcome)
    ensures (kind.Met? || kind.Wht?) && |rows| == 0 ==> o == Outcome([], None)
    ensures (kind.Met? || kind.Wht? || kind.Csv?) && GroupSum(rows).Err? ==> o == Outcome([], None)
    ensures kind.Stdout? && GroupSum(rows).Err? ==> o == Outcome([], Some(GroupSum(rows).error))
    ensures kind.Csv? && !dirExists ==> o == Outcome([], None)
    ensures kind.OtherType? ==> o == Outcome([], None)
    ensures GroupSum(rows).Ok? ==>
      var table := GroupSum(rows).value;
      var ps := Pairs(lats, lons);
      match kind
      case Stdout => o == Outcome(PrintedSlices(table, ps), None)
      case Met => o == MetFiles(source, table, ps)
      case Wht => o == WhtFiles(table, ps)
      case Csv => o == Outcome(if dirExists then CsvFiles(source, table, ps) else [], None)
      case OtherType(_) => o == Outcome([], None)
  {
    var ps := Pairs(lats, lons);
    match kind
    case Stdout =>
      (match GroupSum(rows)
       case Err(e) => Outcome([], Some(e))
       case Ok(table) => Outcome(PrintedSlices(table, ps), None))
    case Met =>
      if |rows| == 0 then Outcome([], None)
      else
        (match GroupSum(rows)
         case Err(_) => Outcome([], None)
         case Ok(table) => MetFiles(source, table, ps))
    case Wht =>
      if |rows| == 0 then Outcome([], None)
      else
        (match GroupSum(rows)
         case Err(_) => Outcome([], None)
         case Ok(table) => WhtFiles(table, ps))
    case Csv =>
      if !dirExists then Outcome([], None)
      else
        (match GroupSum(rows)
         case Err(_) => Outcome([], None)
         case Ok(table) => Outcome(CsvFiles(source, table, ps), None))
    case OtherType(_) => Outcome([], None)
  }

  // ---------------------------------------------------------------------------
  // Properties of the emitted files

  /** A table missing one of the four value columns makes MET, WHT and CSV output write
      nothing and raise nothing, while stdout output raises KeyError. */
  lemma MissingColumnWritesNothing(source: string, rows: seq<Row>, lats: seq<int>, lons: seq<int>, dirExists: bool, column: string)
    requires column in ValueColumns && !HasColumn(rows, column)
    ensures GenerateOutput(source, rows, lats, lons, dirExists, Met) == Outcome([], None)
    ensures GenerateOutput(source, rows, lats, lons, dirExists, Wht) == Outcome([], None)
    ensures GenerateOutput(source, rows, lats, lons, dirExists, Csv) == Outcome([], None)
    ensures GenerateOutput(source, rows, lats, lons, dirExists, Stdout).raised.Some?
    ensures GenerateOutput(source, rows, lats, lons, dirExists, Stdout).raised.value.MissingKey?
  {
    assert GroupSum(rows).Err?;
  }

  /** Each MET file holds its coordinate's days in strictly increasing date order. */
  lemma MetFilesChronological(source: string, rows: seq<Row>, lats: seq<int>, lons: seq<int>, dirExists: bool)
    ensures var o := GenerateOutput(source, rows, lats, lons, dirExists, Met);
      forall i :: 0 <= i < |o.emitted| && o.emitted[i].MetFile? ==>
        var f := o.emitted[i].rows;
        forall a, b :: 0 <= a < b < |f| ==> DateLess(f[a], f[b])
  {
    if GroupSum(rows).Ok? && |rows| > 0 {
      MetFilesOrdered(source, GroupSum(rows).value, Pairs(lats, lons));
    }
  }

  lemma MetFilesOrdered(source: string, table: seq<DayRow>, ps: seq<(int, int)>)
    requires TableSorted(table)
    ensures var o := MetFiles(source, table, ps);
      forall i :: 0 <= i < |o.emitted| ==>
        var f := o.emitted[i].rows;
        forall a, b :: 0 <= a < b < |f| ==> DateLess(f[a], f[b])
  {
    var o := MetFiles(source, table, ps);
    if o.raised.None? {
      forall i | 0 <= i < |o.emitted|
        ensures var f := o.emitted[i].rows; forall a, b :: 0 <= a < b < |f| ==> DateLess(f[a], f[b])
      {
        SliceChronological(table, ps[i].0, ps[i].1);
      }
    }
  }

  /** No grouped day at a requested coordinate is lost: it is in that coordinate's MET file. */
  lemma MetFilesKeepEveryDay(source: string, rows: seq<Row>, lats: seq<int>, lons: seq<int>, dirExists: bool, d: DayRow)
    requires source == "silo" || source == "nasapower"
    requires GroupSum(rows).Ok? && d in GroupSum(rows).value
    requires d.key.lat in lats && d.key.lon in lons
    ensures var o := GenerateOutput(source, rows, lats, lons, dirExists, Met);
      exists i :: 0 <= i < |o.emitted| && o.emitted[i] == MetFile(MetName(d.key.lat, d.key.lon), o.emitted[i].rows)
                  && DropCoordinates(d) in o.emitted[i].rows
  {
    var table := GroupSum(rows).value;
    var ps := Pairs(lats, lons);
    var p := (d.key.lat, d.key.lon);
    assert p in ps;
    var i :| 0 <= i < |ps| && ps[i] == p;
    var o := GenerateOutput(source, rows, lats, lons, dirExists, Met);
    assert o == MetFiles(source, table, ps);
    var sel := Select(table, p.0, p.1);
    assert d in sel;
    var m :| 0 <= m < |sel| && sel[m] == d;
    assert Slice(table, p.0, p.1)[m] == DropCoordinates(d);
  }

  /** WHT file names drop the decimal points, so two different coordinates can share a file:
      (-41.15, 0.5) and (-41.1, 5.05) both start their names with "-411505". */
  lemma WhtNamesCollide(slice: seq<SliceRow>)
    ensures WhtName(-4115, 50, slice) == WhtName(-4110, 505, slice)
  {
    StemsCollide(-4115, 50, -4110, 505);
  }

  lemma StemsCollide(lat1: int, lon1: int, lat2: int, lon2: int)
    requires lat1 == -4115 && lon1 == 50 && lat2 == -4110 && lon2 == 505
    ensures WhtStem(lat1, lon1) == WhtStem(lat2, lon2) == "-411505"
  {
    DotlessCoord(lat1);
    DotlessCoord(lon1);
    DotlessCoord(lat2);
    DotlessCoord(lon2);
    SmallNumerals();
    assert FractionText(15) == "15" && FractionText(50) == "5" && FractionText(10) == "1" && FractionText(5) == "05";
    assert "-" + "41" + "15" + ("" + "0" + "5") == "-411505";
    assert "-" + "41" + "1" + ("" + "5" + "05") == "-411505";
  }

  /** A coordinate's text without its decimal point: sign, whole degrees, fraction digits. */
  lemma DotlessCoord(c: int)
    ensures var a: nat := if c < 0 then -c else c;
      Without(CoordToString(c), '.') == (if c < 0 then "-" else "") + NatToString(a / 100) + FractionText(a % 100)
  {
    var a: nat := if c < 0 then -c else c;
    var whole := (if c < 0 then "-" else "") + NatToString(a / 100);
    var frac := FractionText(a % 100);
    assert '.' !in NatToString(a / 100);
    assert '.' !in whole;
    assert '.' !in frac;
    assert CoordToString(c) == whole + ['.'] + frac;
    DropDot(whole, frac);
  }

  lemma SmallNumerals()
    ensures NatToString(41) == "41" && NatToString(0) == "0" && NatToString(5) == "5"
  {
    assert DigitChar(0) == '0' && DigitChar(1) == '1' && DigitChar(4) == '4' && DigitChar(5) == '5';
  }
}

=== FILE: ranges.dfy ===
/** Request resolution: turning the command line's year and coordinate
    arguments into the lists the pipeline iterates over
    (bestiapop/common/bestiapop_utils.py).

    Coordinates are hundredths of a degree. Each `numpy.arange` call carries a
    drift flag (see module Grid). `Drift.first` belongs to the first generation
    and `Drift.second` to the regeneration with an inclusive bound.
 */
module Ranges {
  import opened Outcomes
  import opened Text
  import opened Grid

  /** How a coordinate argument reaches the resolver: not given, typed on the
      command line (a Python list), or read from a file (a numpy array). */
  datatype CoordSpec = Absent | Listed(values: seq<int>) | FromFile(values: seq<int>)

  datatype Axis = Latitude | Longitude

  /** Floating-point drift of the first and the second `numpy.arange` call. */
  datatype Drift = Drift(first: bool, second: bool)

  // ---------------------------------------------------------------------------
  // Years

  /** `numpy.arange(first, stop, 1)` on integers: exact, empty when `stop <= first`. */
  function IntRange(first: int, stop: int): (r: seq<int>)
    ensures |r| == if stop <= first then 0 else stop - first
    ensures forall i :: 0 <= i < |r| ==> r[i] == first + i
  {
    seq(if stop <= first then 0 else stop - first, i => first + i)
  }

  /** get_years_list: text containing "-" names the first and the last year of an
      inclusive range (pieces after the second are ignored); any other text names
      one year. Text `int()` cannot read raises ValueError. */
  function YearsFromSpec(spec: string): (r: Result<seq<int>, Fault>)
    ensures '-' !in spec ==> (r.Ok? <==> ParseInt(spec).Some?)
    ensures '-' !in spec && r.Ok? ==> r.value == [ParseInt(spec).value]
    ensures '-' in spec ==>
      var parts := SplitOn(spec, '-');
      (r.Ok? <==> ParseInt(parts[0]).Some? && ParseInt(parts[1]).Some?)
    ensures '-' in spec && r.Ok? ==>
      var parts := SplitOn(spec, '-');
      var a := ParseInt(parts[0]).value;
      var b := ParseInt(parts[1]).value;
      |r.value| == (if b < a then 0 else b - a + 1)
      && forall i :: 0 <= i < |r.value| ==> r.value[i] == a + i
    ensures r.Err? ==> IsValueError(r.error)
  {
    if '-' in spec then
      var parts := SplitOn(spec, '-');
      match ParseInt(parts[0])
      case None => Err(NotANumber(parts[0]))
      case Some(a) =>
        match ParseInt(parts[1])
        case None => Err(NotANumber(parts[1]))
        case Some(b) => Ok(IntRange(a, b + 1))
    else
      match ParseInt(spec)
      case None => Err(NotANumber(spec))
      case Some(y) => Ok([y])
  }

  /** Printed numbers hold no dash. */
  lemma NoDashInPrinted(n: nat)
    ensures '-' !in NatToString(n)
  {
    var s := NatToString(n);
    forall k | 0 <= k < |s| ensures s[k] != '-' { assert IsDigit(s[k]); }
  }

  /** A printed range "a-b" splits at its dash into the two printed numbers. */
  lemma SplitPrintedRange(a: nat, b: nat)
    ensures '-' in NatToString(a) + "-" + NatToString(b)
    ensures SplitOn(NatToString(a) + "-" + NatToString(b), '-') == [NatToString(a), NatToString(b)]
  {
    var sa, sb := NatToString(a), NatToString(b);
    NoDashInPrinted(a);
    NoDashInPrinted(b);
    var spec := sa + "-" + sb;
    assert spec == sa + ['-'] + sb;
    assert spec[|sa|] == '-';
    SplitOnAt(sa, '-', sb);
  }

  /** A printed range "a-b" reads back as every year from a to b, ascending. */
  lemma YearsFromPrintedRange(a: nat, b: nat)
    ensures var r := YearsFromSpec(NatToString(a) + "-" + NatToString(b));
      r.Ok? && |r.value| == (if b < a then 0 else b - a + 1)
      && (forall i :: 0 <= i < |r.value| ==> r.value[i] == a + i)
      && (a <= b ==> r.value[0] == a && r.value[|r.value| - 1] == b)
  {
    SplitPrintedRange(a, b);
    assert IntToString(a) == NatToString(a) && IntToString(b) == NatToString(b);
    ParseIntOfIntToString(a);
    ParseIntOfIntToString(b);
    YearsFromTwoParts(NatToString(a) + "-" + NatToString(b), a, b);
  }

  /** Text whose two dash-separated pieces read as a and b names the years a to b. */
  lemma YearsFromTwoParts(spec: string, a: int, b: int)
    requires '-' in spec
    requires var parts := SplitOn(spec, '-'); |parts| >= 2 && ParseInt(parts[0]) == Some(a) && ParseInt(parts[1]) == Some(b)
    ensures var r := YearsFromSpec(spec);
      r.Ok? && |r.value| == (if b < a then 0 else b - a + 1)
      && (forall i :: 0 <= i < |r.value| ==> r.value[i] == a + i)
      && (a <= b ==> r.value[0] == a && r.value[|r.value| - 1] == b)
  {
  }

  /** A printed year without a dash reads back as that single year. */
  lemma YearsFromPrintedYear(y: nat)
    ensures YearsFromSpec(NatToString(y)) == Ok([y])
  {
    NoDashInPrinted(y);
    assert IntToString(y) == NatToString(y);
    ParseIntOfIntToString(y);
  }

  // ---------------------------------------------------------------------------
  // Coordinates

  function Min(a: int, b: int): int { if a <= b then a else b }
  function Max(a: int, b: int): int { if a <= b then b else a }

  /** The number of grid steps between two endpoints: `numpy.round(abs(first - last) / step)`. */
  function StepCount(first: int, last: int, step: nat): nat
    requires step > 0
  {
    RoundHalfEven(if first <= last then last - first else first - last, step)
  }

  /** A sequence that starts at `first` and rises by `step`. */
  predicate Stepped(r: seq<int>, first: int, step: nat) {
    forall i :: 0 <= i < |r| ==> r[i] == first + i * step
  }

  /** The latitude length correction: generate up to `last`; if the count is off,
      regenerate up to `last + step`; if it is still off, drop the last element.
      Whatever the drift, the result has one element per step plus one. */
  function CorrectedSpan(first: int, last: int, step: nat, drift: Drift): (r: seq<int>)
    requires step > 0 && first <= last
    ensures |r| == StepCount(first, last, step) + 1
    ensures Stepped(r, first, step)
  {
    var count := StepCount(first, last, step);
    var r1 := Arange(first, last, step, drift.first);
    if count + 1 == |r1| then r1
    else
      var r2 := Arange(first, last + step, step, drift.second);
      SpanLengths(first, last, step, drift);
      if count + 1 == |r2| then r2 else r2[..|r2| - 1]
  }

  /** The case analysis behind the length correction. */
  lemma SpanLengths(first: int, last: int, step: nat, drift: Drift)
    requires step > 0 && first <= last
    ensures var count := StepCount(first, last, step);
      var n1 := ArangeLength(first, last, step, drift.first);
      var n2 := ArangeLength(first, last + step, step, drift.second);
      n1 == count + 1 || n2 == count + 1 || n2 == count + 2
  {
    var d := last - first;
    var q := d / step;
    var rem := d % step;
    DivMod(d, step);
    CeilDivSplit(d, step);
    assert d + step == step * (q + 1) + rem;
    DivOfMultiplePlus(q + 1, rem, step);
    CeilDivSplit(d + step, step);
  }

  /** The latitude branch of get_coordinate_numpy_list. */
  function LatitudeList(spec: CoordSpec, provider: Provider, drift: Drift): (r: Result<seq<int>, Fault>)
    ensures spec.FromFile? ==> r == Ok(spec.values)
    ensures spec.Absent? ==> r == Err(NoLength)
    ensures spec.Listed? && |spec.values| <= 1 ==> r == Err(Unbound("lat_range"))
    ensures spec.Listed? && |spec.values| >= 2 ==>
      var a := spec.values[0];
      var b := spec.values[1];
      if a < 0 && b < 0 then
        r.Ok? && |r.value| == StepCount(a, b, GridStep(provider)) + 1
        && Stepped(r.value, Min(a, b), GridStep(provider))
      else r == Err(Unbound("first_lat"))
  {
    match spec
    case FromFile(xs) => Ok(xs)
    case Absent => Err(NoLength)
    case Listed(xs) =>
      if |xs| <= 1 then Err(Unbound("lat_range"))
      else if xs[0] < 0 && xs[1] < 0 then
        var step := GridStep(provider);
        assert StepCount(Min(xs[0], xs[1]), Max(xs[0], xs[1]), step) == StepCount(xs[0], xs[1], step);
        Ok(CorrectedSpan(Min(xs[0], xs[1]), Max(xs[0], xs[1]), step, drift))
      else Err(Unbound("first_lat"))
  }

  /** Python truth of a coordinate argument: None is false, a list is true when it has items,
      and a numpy array of two or more values has no truth value (ValueError). */
  function Truth(spec: CoordSpec): (r: Result<bool, Fault>)
    ensures spec.Absent? ==> r == Ok(false)
    ensures spec.Listed? ==> r == Ok(|spec.values| > 0)
    ensures spec.FromFile? ==> (r.Err? <==> |spec.values| >= 2)
    ensures r.Err? ==> r.error == AmbiguousTruth
  {
    match spec
    case Absent => Ok(false)
    case Listed(xs) => Ok(|xs| > 0)
    case FromFile(xs) =>
      if |xs| == 0 then Ok(false)
      else if |xs| == 1 then Ok(xs[0] != 0)
      else Err(AmbiguousTruth)
  }

  /** The longitude branch of get_coordinate_numpy_list. A false argument skips the
      whole branch and the call returns None (`Ok(None)`); a true one with a single
      value reaches `return lon_range` with nothing bound. */
  function LongitudeList(spec: CoordSpec, provider: Provider, drift: Drift): (r: Result<Option<seq<int>>, Fault>)
    ensures Truth(spec) == Ok(false) ==> r == Ok(None)
    ensures Truth(spec).Err? ==> r == Err(AmbiguousTruth)
    ensures Truth(spec) == Ok(true) && |spec.values| == 1 ==> r == Err(Unbound("lon_range"))
    ensures spec.Listed? && |spec.values| >= 2 ==>
      var a := spec.values[0];
      var b := spec.values[1];
      var step := GridStep(provider);
      (r.Ok? <==> ArangeLength(Min(a, b), Max(a, b), step, drift.first) == StepCount(a, b, step) + 1)
      && (r.Ok? ==> r.value.Some? && |r.value.value| == StepCount(a, b, step) + 1
                    && Stepped(r.value.value, Min(a, b), step))
      && (r.Err? ==> r.error == Unbound("lat_value_count"))
  {
    var truth :- Truth(spec);
    if !truth then Ok(None)
    else if |spec.values| <= 1 then Err(Unbound("lon_range"))
    else
      var xs := spec.values;
      var step := GridStep(provider);
      var first := Min(xs[0], xs[1]);
      var last := Max(xs[0], xs[1]);
      var r1 := Arange(first, last, step, drift.first);
      assert StepCount(first, last, step) == StepCount(xs[0], xs[1], step);
      if StepCount(first, last, step) + 1 == |r1| then Ok(Some(r1))
      else Err(Unbound("lat_value_count"))
  }

  /** get_coordinate_numpy_list, with the outcome Python reaches on every input:
      `Ok(Some(list))` for a list, `Ok(None)` for the `None` a false longitude
      argument returns, `Err` for the exception raised. */
  function CoordinateList(spec: CoordSpec, axis: Axis, provider: Provider, drift: Drift): (r: Result<Option<seq<int>>, Fault>)
    // latitude
    ensures axis.Latitude? && spec.FromFile? ==> r == Ok(Some(spec.values))
    ensures axis.Latitude? && spec.Absent? ==> r == Err(NoLength)
    ensures axis.Latitude? && spec.Listed? && |spec.values| <= 1 ==> r == Err(Unbound("lat_range"))
    ensures axis.Latitude? && spec.Listed? && |spec.values| >= 2 ==>
      var a := spec.values[0];
      var b := spec.values[1];
      if a < 0 && b < 0 then
        r.Ok? && r.value.Some? && |r.value.value| == StepCount(a, b, GridStep(provider)) + 1
        && Stepped(r.value.value, Min(a, b), GridStep(provider))
      else r == Err(Unbound("first_lat"))
    // longitude
    ensures axis.Longitude? && Truth(spec) == Ok(false) ==> r == Ok(None)
    ensures axis.Longitude? && Truth(spec).Err? ==> r == Err(AmbiguousTruth)
    ensures axis.Longitude? && Truth(spec) == Ok(true) && |spec.values| == 1 ==> r == Err(Unbound("lon_range"))
    ensures axis.Longitude? && spec.Listed? && |spec.values| >= 2 ==>
      var a := spec.values[0];
      var b := spec.values[1];
      var step := GridStep(provider);
      (r.Ok? <==> ArangeLength(Min(a, b), Max(a, b), step, drift.first) == StepCount(a, b, step) + 1)
      && (r.Ok? ==> r.value.Some? && |r.value.value| == StepCount(a, b, step) + 1
                    && Stepped(r.value.value, Min(a, b), step))
      && (r.Err? ==> r.error == Unbound("lat_value_count"))
  {
    match axis
    case Latitude =>
      var lats :- LatitudeList(spec, provider, drift);
      Ok(Some(lats))
    case Longitude => LongitudeList(spec, provider, drift)
  }

  /** Endpoints in either order give the same longitudes, and the same latitudes when both are negative. */
  lemma CoordinateOrderIrrelevant(a: int, b: int, axis: Axis, provider: Provider, drift: Drift)
    requires axis.Latitude? ==> a < 0 && b < 0
    ensures CoordinateList(Listed([a, b]), axis, provider, drift) == CoordinateList(Listed([b, a]), axis, provider, drift)
  {
    assert Min(a, b) == Min(b, a) && Max(a, b) == Max(b, a);
  }

  /** A longitude range whose span is a whole number of grid steps fails unless drift
      supplies the end point: the count check then reads the latitude counters. */
  lemma LongitudeOnGridFails(a: int, b: int, provider: Provider)
    requires a < b && (b - a) % GridStep(provider) == 0
    ensures CoordinateList(Listed([a, b]), Longitude, provider, Drift(false, false)) == Err(Unbound("lat_value_count"))
    ensures CoordinateList(Listed([a, b]), Longitude, provider, Drift(true, false)).Ok?
  {
    var step := GridStep(provider);
    var d := b - a;
    var k := d / step;
    DivMod(d, step);
    assert d == k * step;
    RoundHalfEvenOfMultiple(k, step);
    CeilDivSplit(d, step);
  }
}

=== FILE: root_script.dfy ===
/** The standalone bestiapop.py script: the SILO class's set-up, its action dispatch and
    `generate_climate_dataframe`, which sweeps variables, then years, then cells, without
    pruning, and writes one file per remaining coordinate pair.

    Two behaviours of the script shape every run. A yearly file read from disk is
    followed by a close of the cloud handle, whose name is only set by a cloud load, so
    the first file found on disk ends the run with AttributeError. And a longitude given
    as one value stays a plain list, on which the except branch's position lookup finds
    nothing and raises IndexError, so an empty cell escapes instead of being skipped.
 */
module RootScript {
  import opened Outcomes
  import opened Text
  import opened Table
  import opened Series
  import opened Sweep
  import opened SortedInts
  import opened Ranges
  import opened LegacyRanges
  import Output
  import Formats

  // ---------------------------------------------------------------------------
  // Set-up

  /** The SILO object's ranges. An attribute the guard skipped is `None`. `plainLons`
      records that the longitudes are the argument list itself rather than a numpy array. */
  datatype Settings = Settings(years: seq<int>, lats: Option<seq<int>>, lons: Option<seq<int>>, plainLons: bool)

  /** One coordinate attribute: a missing or empty argument leaves it unset, anything else
      is expanded (a one-element list is kept). */
  function Attribute(xs: Option<seq<int>>, axis: Axis, drift: bool): (r: Result<Option<seq<int>>, Fault>)
    ensures (xs.None? || |xs.value| == 0) <==> r == Ok(None)
    ensures r.Ok? && r.value.Some? ==> xs.Some? && ExpandPair(xs.value, axis, drift) == Ok(r.value.value)
    ensures r.Err? ==> xs.Some? && ExpandPair(xs.value, axis, drift) == Err(r.error)
  {
    match xs
    case None => Ok(None)
    case Some(v) =>
      if |v| == 0 then Ok(None)
      else
        match ExpandPair(v, axis, drift)
        case Err(e) => Err(e)
        case Ok(w) => Ok(Some(w))
  }

  /** `SILO.__init__`: years, then latitudes, then longitudes; the first fault wins. */
  function Init(yearSpec: string, lat: Option<seq<int>>, lon: Option<seq<int>>, latDrift: bool, lonDrift: bool)
    : (r: Result<Settings, Fault>)
    ensures YearsFromSpec(yearSpec).Err? ==> r == Err(YearsFromSpec(yearSpec).error)
    ensures r.Ok? ==> r.value.years == YearsFromSpec(yearSpec).value
    ensures r.Ok? ==> (r.value.plainLons <==> lon.Some? && |lon.value| == 1)
    ensures r.Ok? ==> (r.value.lats.None? <==> lat.None? || |lat.value| == 0)
    ensures r.Ok? ==> (r.value.lons.None? <==> lon.None? || |lon.value| == 0)
  {
    var years :- YearsFromSpec(yearSpec);
    var lats :- Attribute(lat, Latitude, latDrift);
    var lons :- Attribute(lon, Longitude, lonDrift);
    Ok(Settings(years, lats, lons, lon.Some? && |lon.value| == 1))
  }

  /** The set-up agrees with the combined range parsing wherever both ranges get set. */
  lemma InitAgreesWithGuardedInit(yearSpec: string, lat: Option<seq<int>>, lon: Option<seq<int>>, latDrift: bool, lonDrift: bool)
    ensures GuardedInit(yearSpec, lat, lon, latDrift, lonDrift).Ok? <==>
      Init(yearSpec, lat, lon, latDrift, lonDrift).Ok? && Init(yearSpec, lat, lon, latDrift, lonDrift).value.lats.Some?
      && Init(yearSpec, lat, lon, latDrift, lonDrift).value.lons.Some?
    ensures GuardedInit(yearSpec, lat, lon, latDrift, lonDrift).Ok? ==>
      var s := Init(yearSpec, lat, lon, latDrift, lonDrift).value;
      GuardedInit(yearSpec, lat, lon, latDrift, lonDrift).value == Request(s.years, s.lats.value, s.lons.value)
  {
  }

  // ---------------------------------------------------------------------------
  // The sweep

  /** Where the yearly files come from: the public bucket when no input path is given,
      otherwise a folder of `year.variable.nc` files, one file, or a path that is neither. */
  datatype Input =
    | Bucket(objects: string -> NcFile)
    | Folder(files: map<string, NcFile>)
    | OneFile(file: NcFile)
    | NoSuchPath

  /** The file for one (variable, year) block: `Ok(None)` when a folder lacks it. A path that
      is neither a folder nor a file leaves the source path unbound. */
  function Opened(input: Input, variable: string, year: int): (r: Result<Option<NcFile>, Fault>)
    ensures input.Bucket? ==> r == Ok(Some(input.objects(S3Key(variable, year))))
    ensures input.Folder? ==> r == Ok(if SourceFile(year, variable) in input.files then Some(input.files[SourceFile(year, variable)]) else None)
    ensures input.OneFile? ==> r == Ok(Some(input.file))
    ensures input.NoSuchPath? ==> r == Err(Unbound("sourcepath"))
  {
    match input
    case Bucket(objects) => Ok(Some(objects(S3Key(variable, year))))
    case Folder(files) => Ok(if SourceFile(year, variable) in files then Some(files[SourceFile(year, variable)]) else None)
    case OneFile(file) => Ok(Some(file))
    case NoSuchPath => Err(Unbound("sourcepath"))
  }

  /** `get_values_from_array` inside the loop's try block, for the file's own year. When it
      raises ValueError the except branch runs `np.where(lon_range == lon)[0][0]`, which
      raises IndexError when the longitudes are a plain list. */
  function CellRows(file: NcFile, t: Task, plainLons: bool): (r: Result<seq<Row>, Fault>)
    ensures var direct := LocalYearly(file.data, t.lat, t.lon, file.dataYear, t.variable);
      if direct.Err? && IsValueError(direct.error) && plainLons then r == Err(OutOfRange) else r == direct
  {
    var direct := LocalYearly(file.data, t.lat, t.lon, file.dataYear, t.variable);
    if direct.Err? && IsValueError(direct.error) && plainLons then Err(OutOfRange) else direct
  }

  /** The (variable, year) blocks in loop order. */
  function Blocks(variables: seq<string>, years: seq<int>): (bs: seq<(string, int)>)
    ensures forall b :: b in bs <==> b.0 in variables && b.1 in years
    decreases |variables|
  {
    if |variables| == 0 then []
    else
      assert forall v :: v in variables <==> v == variables[0] || v in variables[1..] by {
        assert variables == [variables[0]] + variables[1..];
      }
      var row := seq(|years|, j requires 0 <= j < |years| => (variables[0], years[j]));
      assert forall b :: b in row <==> b.0 == variables[0] && b.1 in years by {
        forall b | b in row ensures b.1 in years {
          var j :| 0 <= j < |row| && row[j] == b;
        }
        forall b: (string, int) | b.0 == variables[0] && b.1 in years ensures b in row {
          var j :| 0 <= j < |years| && years[j] == b.1;
          assert row[j] == b;
        }
      }
      row + Blocks(variables[1..], years)
  }

  /** The sweep over files on disk: blocks without a file are skipped, and the first block
      with one is swept and then ends the run with AttributeError. */
  function DiskSweep(input: Input, blocks: seq<(string, int)>, lats: seq<int>, lons: seq<int>, plainLons: bool)
    : (r: Result<State, Fault>)
    requires !input.Bucket?
    ensures r.Ok? <==> forall k :: 0 <= k < |blocks| ==> Opened(input, blocks[k].0, blocks[k].1) == Ok(None)
    ensures r.Ok? ==> r.value == State([], [], [])
    decreases |blocks|
  {
    if |blocks| == 0 then Ok(State([], [], []))
    else
      var b := blocks[0];
      assert forall k :: 1 <= k < |blocks| ==> blocks[1..][k - 1] == blocks[k];
      match Opened(input, b.0, b.1)
      case Err(e) => Err(e)
      case Ok(None) => DiskSweep(input, blocks[1..], lats, lons, plainLons)
      case Ok(Some(file)) =>
        match Run(Cells(b.1, b.0, lats, lons), false, t => true, t => CellRows(file, t, plainLons))
        case Err(e) => Err(e)
        case Ok(_) => Err(MissingAttribute("silo_file"))
  }

  function CloudTasks(variables: seq<string>, years: seq<int>, lats: seq<int>, lons: seq<int>): seq<Task> {
    VariableMajor(variables, years, lats, lons)
  }

  function CloudExtract(objects: string -> NcFile, plainLons: bool): Task -> Result<seq<Row>, Fault> {
    (t: Task) => CellRows(objects(S3Key(t.variable, t.year)), t, plainLons)
  }

  /** The loops of `generate_climate_dataframe` up to the set difference of longitudes. */
  function Extraction(input: Input, variables: seq<string>, years: seq<int>, lats: seq<int>, lons: seq<int>, plainLons: bool)
    : (r: Result<State, Fault>)
    ensures input.Bucket? ==> r == Run(CloudTasks(variables, years, lats, lons), false, t => true, CloudExtract(input.objects, plainLons))
    ensures !input.Bucket? ==> (r.Ok? <==> forall v, y :: v in variables && y in years ==> Opened(input, v, y) == Ok(None))
    ensures !input.Bucket? && r.Ok? ==> r.value == State([], [], [])
  {
    if input.Bucket? then Run(CloudTasks(variables, years, lats, lons), false, t => true, CloudExtract(input.objects, plainLons))
    else
      var bs := Blocks(variables, years);
      var r := DiskSweep(input, bs, lats, lons, plainLons);
      assert (forall k :: 0 <= k < |bs| ==> Opened(input, bs[k].0, bs[k].1) == Ok(None)) <==>
             (forall v, y :: v in variables && y in years ==> Opened(input, v, y) == Ok(None)) by {
        if forall k :: 0 <= k < |bs| ==> Opened(input, bs[k].0, bs[k].1) == Ok(None) {
          forall v, y | v in variables && y in years ensures Opened(input, v, y) == Ok(None) {
            assert (v, y) in bs;
            var k :| 0 <= k < |bs| && bs[k] == (v, y);
          }
        }
        if forall v, y :: v in variables && y in years ==> Opened(input, v, y) == Ok(None) {
          forall k | 0 <= k < |bs| ensures Opened(input, bs[k].0, bs[k].1) == Ok(None) {
            assert bs[k] in bs;
          }
        }
      }
      r
  }

  // ---------------------------------------------------------------------------
  // Output

  /** A file the script writes. */
  datatype File = MetFile(lat: int, lon: int, rows: seq<SliceRow>) | CsvFile(lat: int, lon: int, rows: seq<SliceRow>) | Download(name: string) {
    /** The file's name: `'{lat}-{lon}.met'`, `'{lat}-{lon}.csv'`, or the downloaded file's. */
    function Name(): string {
      match this
      case MetFile(lat, lon, _) => Formats.MetName(lat, lon)
      case CsvFile(lat, lon, _) => CsvName(lat, lon)
      case Download(name) => name
    }
  }

  /** `'{}-{}.csv'.format(lat, lon)`. */
  function CsvName(lat: int, lon: int): string {
    CoordToString(lat) + "-" + CoordToString(lon) + ".csv"
  }

  /** The file for one pair: a MET file for `met`, a CSV file for `csv`, none otherwise. */
  function PairFile(outputType: string, table: seq<DayRow>, p: (int, int)): seq<File> {
    if outputType == "met" then [MetFile(p.0, p.1, Slice(table, p.0, p.1))]
    else if outputType == "csv" then [CsvFile(p.0, p.1, Slice(table, p.0, p.1))]
    else []
  }

  /** The output loops: latitudes, then the remaining longitudes. */
  function PairFiles(outputType: string, table: seq<DayRow>, ps: seq<(int, int)>): (fs: seq<File>)
    ensures outputType == "met" ==> |fs| == |ps| && forall i :: 0 <= i < |ps| ==>
      fs[i] == MetFile(ps[i].0, ps[i].1, Slice(table, ps[i].0, ps[i].1))
    ensures outputType == "csv" ==> |fs| == |ps| && forall i :: 0 <= i < |ps| ==>
      fs[i] == CsvFile(ps[i].0, ps[i].1, Slice(table, ps[i].0, ps[i].1))
    ensures outputType != "met" && outputType != "csv" ==> fs == []
    decreases |ps|
  {
    if |ps| == 0 then []
    else PairFiles(outputType, table, ps[..|ps| - 1]) + PairFile(outputType, table, ps[|ps| - 1])
  }

  /** `generate_climate_dataframe` as the met action calls it. An empty table returns before
      any output; a table without all four value columns raises KeyError out of the group-by. */
  function Generate(input: Input, outputType: string, variables: seq<string>, years: seq<int>, lats: seq<int>, lons: seq<int>, plainLons: bool)
    : (r: Result<seq<File>, Fault>)
    ensures Extraction(input, variables, years, lats, lons, plainLons).Err? ==>
      r == Err(Extraction(input, variables, years, lats, lons, plainLons).error)
    ensures Extraction(input, variables, years, lats, lons, plainLons).Ok? ==>
      var s := Extraction(input, variables, years, lats, lons, plainLons).value;
      if |s.rows| == 0 then r == Ok([])
      else if GroupSum(s.rows).Err? then r == Err(GroupSum(s.rows).error)
      else r == Ok(PairFiles(outputType, GroupSum(s.rows).value, Output.Nest(lats, SetDiff(lons, s.empty), true)))
  {
    var s :- Extraction(input, variables, years, lats, lons, plainLons);
    if |s.rows| == 0 then Ok([])
    else
      var table :- GroupSum(s.rows);
      Ok(PairFiles(outputType, table, Output.Nest(lats, SetDiff(lons, s.empty), true)))
  }

  /** `process_records`. The csv action leaves out the input directory argument, so the call
      itself raises TypeError once its keyword arguments have been read. */
  function ProcessRecords(action: string, s: Settings, input: Input, outputType: string, variables: seq<string>)
    : (r: Result<seq<File>, Fault>)
    ensures action == "download-silo-file" ==>
      r.Ok? && |r.value| == |s.years| * |variables|
      && forall f :: f in r.value <==> exists y, v :: y in s.years && v in variables && f == Download(SourceFile(y, v))
    ensures action == "convert-nc4-to-csv" ==> r.Err?
    ensures action == "generate-met-file" && s.lats.Some? && s.lons.Some? ==>
      r == Generate(input, outputType, variables, s.years, s.lats.value, s.lons.value, s.plainLons)
    ensures (action == "convert-nc4-to-csv" || action == "generate-met-file") && s.lats.None? ==>
      r == Err(MissingAttribute("lat_range"))
    ensures action !in {"download-silo-file", "convert-nc4-to-csv", "generate-met-file"} ==> r == Ok([])
  {
    if action == "download-silo-file" then Ok(Downloads(s.years, variables))
    else if action == "convert-nc4-to-csv" || action == "generate-met-file" then
      if s.lats.None? then Err(MissingAttribute("lat_range"))
      else if s.lons.None? then Err(MissingAttribute("lon_range"))
      else if action == "convert-nc4-to-csv" then Err(MissingArgument("inputdir"))
      else Generate(input, outputType, variables, s.years, s.lats.value, s.lons.value, s.plainLons)
    else Ok([])
  }

  /** One download per year and variable, years outermost. */
  function Downloads(years: seq<int>, variables: seq<string>): (fs: seq<File>)
    ensures |fs| == |years| * |variables|
    ensures forall f :: f in fs <==> exists y, v :: y in years && v in variables && f == Download(SourceFile(y, v))
    decreases |years|
  {
    if |years| == 0 then []
    else
      var row := seq(|variables|, j requires 0 <= j < |variables| => Download(SourceFile(years[0], variables[j])));
      var rest := Downloads(years[1..], variables);
      assert forall y :: y in years <==> y == years[0] || y in years[1..] by {
        assert years == [years[0]] + years[1..];
      }
      assert forall f :: f in row <==> exists v :: v in variables && f == Download(SourceFile(years[0], v)) by {
        forall f | f in row ensures exists v :: v in variables && f == Download(SourceFile(years[0], v)) {
          var j :| 0 <= j < |row| && row[j] == f;
          assert variables[j] in variables;
        }
        forall v | v in variables ensures Download(SourceFile(years[0], v)) in row {
          var j :| 0 <= j < |variables| && variables[j] == v;
          assert row[j] == Download(SourceFile(years[0], v));
        }
      }
      assert |row + rest| == |variables| + (|years| - 1) * |variables| == |years| * |variables|;
      row + rest
  }

  // ---------------------------------------------------------------------------
  // Properties

  /** Reading from disk never writes an output file: either no yearly file exists and the
      table stays empty, or the first one found ends the run with an exception. */
  lemma DiskRunWritesNothing(input: Input, outputType: string, variables: seq<string>, years: seq<int>, lats: seq<int>, lons: seq<int>, plainLons: bool)
    requires !input.Bucket?
    ensures Generate(input, outputType, variables, years, lats, lons, plainLons) == Ok([])
            || Generate(input, outputType, variables, years, lats, lons, plainLons).Err?
  {
  }

  /** A yearly file found on disk always ends the run with an exception. */
  lemma DiskFileEndsRun(input: Input, outputType: string, variables: seq<string>, years: seq<int>, lats: seq<int>, lons: seq<int>, plainLons: bool, v: string, y: int)
    requires !input.Bucket? && v in variables && y in years && Opened(input, v, y) != Ok(None)
    ensures Generate(input, outputType, variables, years, lats, lons, plainLons).Err?
  {
  }

  /** Without pruning every cell of every block is tried, failed longitudes included. */
  lemma EveryCellTried(objects: string -> NcFile, variables: seq<string>, years: seq<int>, lats: seq<int>, lons: seq<int>, plainLons: bool)
    requires Extraction(Bucket(objects), variables, years, lats, lons, plainLons).Ok?
    ensures TasksOf(Extraction(Bucket(objects), variables, years, lats, lons, plainLons).value.probes) == CloudTasks(variables, years, lats, lons)
  {
    var tasks := CloudTasks(variables, years, lats, lons);
    var always := (t: Task) => true;
    PresentAll(tasks, always);
  }

  /** The longitudes that get files are the requested ones at which no cell failed. */
  lemma RemainingLongitudes(objects: string -> NcFile, variables: seq<string>, years: seq<int>, lats: seq<int>, lons: seq<int>, plainLons: bool, x: int)
    requires Extraction(Bucket(objects), variables, years, lats, lons, plainLons).Ok?
    ensures var s := Extraction(Bucket(objects), variables, years, lats, lons, plainLons).value;
      var tasks := CloudTasks(variables, years, lats, lons);
      x in SetDiff(lons, s.empty) <==>
        x in lons && forall k :: 0 <= k < |tasks| && tasks[k].lon == x ==> CloudExtract(objects, plainLons)(tasks[k]).Ok?
  {
    EmptyMeansFailed(CloudTasks(variables, years, lats, lons), false, t => true, CloudExtract(objects, plainLons), x);
  }

  /** With a single longitude, a cell without data is not skipped: IndexError escapes. */
  lemma PlainLongitudeFailureEscapes(objects: string -> NcFile, variables: seq<string>, years: seq<int>, lats: seq<int>, lons: seq<int>, t: Task)
    requires t in CloudTasks(variables, years, lats, lons)
    requires var file := objects(S3Key(t.variable, t.year));
      var direct := LocalYearly(file.data, t.lat, t.lon, file.dataYear, t.variable);
      direct.Err? && IsValueError(direct.error)
    ensures Extraction(Bucket(objects), variables, years, lats, lons, true).Err?
  {
    var tasks := CloudTasks(variables, years, lats, lons);
    var extract := CloudExtract(objects, true);
    var k :| 0 <= k < |tasks| && tasks[k] == t;
    assert extract(t) == Err(OutOfRange);
    UnprunedFatalEscapes(tasks, t => true, extract, k);
  }

  /** The csv action never gets past its own call. */
  lemma CsvActionAlwaysFails(s: Settings, input: Input, outputType: string, variables: seq<string>)
    ensures ProcessRecords("convert-nc4-to-csv", s, input, outputType, variables).Err?
  {
  }
}

=== FILE: series.dfy ===
/** The yearly series both connectors and the older scripts' `get_values_from_array`
    build from a run of daily values.

    The value at position 1 decides presence: a missing value there drops the
    series and raises ValueError. Later missing values are kept. The frame pairs
    the day numbers `numpy.arange(0, N) + 1` (N by the leap rule) with the values,
    and pandas refuses columns of unequal length with a ValueError. Every row
    carries the requested lon, lat and year.
 */
module Series {
  import opened Outcomes
  import opened Text
  import opened Calendar
  import opened Table

  /** A grid cell of a local dataset. */
  datatype Cell = Cell(lat: int, lon: int)

  /** An opened NetCDF dataset: per variable, the daily values of each grid cell. */
  type Dataset = map<string, map<Cell, seq<Option<int>>>>

  /** The name of a yearly file: `str(year) + "." + variable + ".nc"`. */
  function SourceFile(year: int, variable: string): string {
    IntToString(year) + "." + variable + ".nc"
  }

  /** The key of a yearly file in the public SILO bucket. */
  function S3Key(variable: string, year: int): string {
    "silo-open-data/annual/" + variable + "/" + SourceFile(year, variable)
  }

  /** An opened yearly file: the year read from its time axis, and its data. */
  datatype NcFile = NcFile(dataYear: int, data: Dataset)

  /** `value_array[variable].sel(lat=lat, lon=lon).values`: an unknown variable or cell raises KeyError. */
  function LocalValues(data: Dataset, variable: string, lat: int, lon: int): (r: Result<seq<Option<int>>, Fault>)
    ensures r.Ok? <==> variable in data && Cell(lat, lon) in data[variable]
    ensures r.Ok? ==> r.value == data[variable][Cell(lat, lon)]
    ensures variable !in data ==> r == Err(MissingKey(variable))
    ensures r.Err? ==> r.error.MissingKey?
  {
    if variable !in data then Err(MissingKey(variable))
    else if Cell(lat, lon) !in data[variable] then Err(MissingKey("lat"))
    else Ok(data[variable][Cell(lat, lon)])
  }

  /** The absence rule and the frame construction. */
  function YearlyRows(values: seq<Option<int>>, lon: int, lat: int, year: int, variable: string): (r: Result<seq<Row>, Fault>)
    ensures |values| < 2 ==> r == Err(OutOfRange)
    ensures |values| >= 2 && values[1].None? ==> r == Err(NoData)
    ensures r.Ok? <==> |values| == DaysInYear(year) && values[1].Some?
    ensures r.Err? && |values| >= 2 && values[1].Some? ==> r == Err(UnequalColumns)
    ensures r.Ok? ==> |r.value| == |values|
    ensures r.Ok? ==> forall i :: 0 <= i < |values| ==> r.value[i] == Row(lon, lat, year, i + 1, variable, values[i])
  {
    if |values| < 2 then Err(OutOfRange)
    else if values[1].None? then Err(NoData)
    else if |values| != DaysInYear(year) then Err(UnequalColumns)
    else
      var days := DayNumbers(year);
      Ok(seq(|values|, i requires 0 <= i < |values| => Row(lon, lat, year, days[i], variable, values[i])))
  }

  /** `get_yearly_data` on an open local dataset: look the cell up, then build the year's frame. */
  function LocalYearly(data: Dataset, lat: int, lon: int, year: int, variable: string): (r: Result<seq<Row>, Fault>)
    ensures r.Ok? <==> LocalValues(data, variable, lat, lon).Ok? && YearlyRows(LocalValues(data, variable, lat, lon).value, lon, lat, year, variable).Ok?
    ensures r.Ok? ==> r == YearlyRows(data[variable][Cell(lat, lon)], lon, lat, year, variable)
    ensures r.Err? && LocalValues(data, variable, lat, lon).Err? ==> r.error.MissingKey?
  {
    match LocalValues(data, variable, lat, lon)
    case Err(e) => Err(e)
    case Ok(values) => YearlyRows(values, lon, lat, year, variable)
  }

  /** The frame keeps every value, missing ones included, in day order. */
  lemma YearlyRowsKeepValues(values: seq<Option<int>>, lon: int, lat: int, year: int, variable: string)
    requires YearlyRows(values, lon, lat, year, variable).Ok?
    ensures var rows := YearlyRows(values, lon, lat, year, variable).value;
      |rows| == |values| && forall i :: 0 <= i < |rows| ==> rows[i].value == values[i]
  {
  }

  /** The frame's days are exactly the year's day numbers, so every key occurs once. */
  lemma YearlyRowsDays(values: seq<Option<int>>, lon: int, lat: int, year: int, variable: string)
    requires YearlyRows(values, lon, lat, year, variable).Ok?
    ensures var rows := YearlyRows(values, lon, lat, year, variable).value;
      (forall i :: 0 <= i < |rows| ==> rows[i].day == DayNumbers(year)[i])
      && forall i, j :: 0 <= i < j < |rows| ==> KeyOf(rows[i]) != KeyOf(rows[j])
  {
  }

  /** Whether a series is kept depends on the value at position 1 and the length only. */
  lemma PresenceIgnoresOtherDays(a: seq<Option<int>>, b: seq<Option<int>>, lon: int, lat: int, year: int, variable: string)
    requires |a| == |b| >= 2 && (a[1].Some? <==> b[1].Some?)
    ensures YearlyRows(a, lon, lat, year, variable).Ok? <==> YearlyRows(b, lon, lat, year, variable).Ok?
  {
  }
}

=== FILE: silo.dfy ===
/** The SILO connector (bestiapop/connectors/silo_connector.py).

    Construction translates the requested variables into SILO's one-letter codes.
    In cloud mode a single-slot cache holds the last DataDrill response; it is
    reused only when its first record's year and its location match the request.
    Otherwise one request for the whole year replaces it. The server is a
    parameter, and `fetches` counts the requests made.
 */
module Silo {
  import opened Outcomes
  import opened Text
  import opened Table
  import opened Series

  /** The code table of the constructor. */
  const Codes: map<string, char> := map[
    "daily_rain" := 'R', "monthly_rain" := 'R', "max_temp" := 'X', "min_temp" := 'N',
    "vp" := 'V', "vp_deficit" := 'D', "evap_pan" := 'E', "evap_syn" := 'S',
    "evap_comb" := 'C', "radiation" := 'J', "rh_tmax" := 'H', "rh_tmin" := 'G',
    "et_short_crop" := 'F', "et_tall_crop" := 'T', "et_morton_actual" := 'A',
    "et_morton_potential" := 'P', "et_morton_wet" := 'W', "mslp" := 'M']

  /** Daily and monthly rain share `R`, so a code string cannot be translated back. */
  lemma CodesNotInjective()
    ensures "daily_rain" != "monthly_rain" && Codes["daily_rain"] == Codes["monthly_rain"]
  {
  }

  /** `"".join(code[x] for x in variables)`: the first unknown variable raises KeyError. */
  function RequestCodes(variables: seq<string>): (r: Result<string, Fault>)
    ensures r.Ok? <==> forall i :: 0 <= i < |variables| ==> variables[i] in Codes
    ensures r.Ok? ==> |r.value| == |variables| && forall i :: 0 <= i < |variables| ==> r.value[i] == Codes[variables[i]]
    ensures r.Err? ==> exists i :: 0 <= i < |variables| && variables[i] !in Codes && r.error == MissingKey(variables[i])
                                   && forall j :: 0 <= j < i ==> variables[j] in Codes
    decreases |variables|
  {
    if |variables| == 0 then Ok("")
    else if variables[0] !in Codes then Err(MissingKey(variables[0]))
    else
      match RequestCodes(variables[1..])
      case Err(e) =>
        var i :| 0 <= i < |variables[1..]| && variables[1..][i] !in Codes && e == MissingKey(variables[1..][i])
                 && forall j :: 0 <= j < i ==> variables[1..][j] in Codes;
        assert variables[i + 1] !in Codes && forall j :: 0 <= j < i + 1 ==> variables[j] in Codes;
        Err(e)
      case Ok(rest) => Ok([Codes[variables[0]]] + rest)
  }

  // ---------------------------------------------------------------------------
  // Cloud responses

  /** One entry of a record's `variables` list. */
  datatype Measurement = Measurement(code: string, value: Option<int>)

  /** One daily record: its `date` text (absent when the key is missing) and its measurements. */
  datatype Record = Record(date: Option<string>, variables: seq<Measurement>)

  /** A DataDrill response: the location metadata and the daily records. */
  datatype Response = Response(latitude: int, longitude: int, data: seq<Record>)

  /** The query string's parameters. */
  datatype Query = Query(lat: int, lon: int, start: string, finish: string, comment: string)

  /** The connector: its code string, the cached response and the number of requests so far. */
  datatype Connector = Connector(codes: string, cache: Option<Response>, fetches: nat)

  function NewConnector(variables: seq<string>): (r: Result<Connector, Fault>)
    ensures r.Ok? <==> RequestCodes(variables).Ok?
    ensures r.Ok? ==> r.value.cache.None? && r.value.fetches == 0 && r.value.codes == RequestCodes(variables).value
  {
    var codes :- RequestCodes(variables);
    Ok(Connector(codes, None, 0))
  }

  /** A request for the whole of one year. */
  function QueryFor(c: Connector, lat: int, lon: int, year: int): Query {
    Query(lat, lon, IntToString(year) + "0101", IntToString(year) + "1231", c.codes)
  }

  /** The cache test. Any exception inside it (no response yet, no records, a year text
      `int()` cannot read) sends the connector to the server, as does a mismatch. A first
      record without a date skips both comparisons. */
  predicate CacheFits(cache: Option<Response>, lat: int, lon: int, year: int) {
    match cache
    case None => false
    case Some(resp) =>
      if |resp.data| == 0 then false
      else match resp.data[0].date
        case None => true
        case Some(date) =>
          match ParseInt(SplitOn(date, '-')[0])
          case None => false
          case Some(y) => y == year && resp.latitude == lat && resp.longitude == lon
  }

  /** The index of the first measurement carrying the variable, as `[...][0]` finds it. */
  function MeasurementIndex(ms: seq<Measurement>, variable: string): (r: Option<nat>)
    ensures r.Some? ==> r.value < |ms| && ms[r.value].code == variable
                        && forall j :: 0 <= j < r.value ==> ms[j].code != variable
    ensures r.None? ==> forall j :: 0 <= j < |ms| ==> ms[j].code != variable
    decreases |ms|
  {
    if |ms| == 0 then None
    else if ms[0].code == variable then Some(0)
    else match MeasurementIndex(ms[1..], variable)
      case None => None
      case Some(k) => Some(k + 1)
  }

  /** The value at one index of every record, in record order; a short record raises IndexError. */
  function ColumnAt(data: seq<Record>, k: nat): (r: Result<seq<Option<int>>, Fault>)
    ensures r.Ok? <==> forall i :: 0 <= i < |data| ==> k < |data[i].variables|
    ensures r.Ok? ==> |r.value| == |data| && forall i :: 0 <= i < |data| ==> r.value[i] == data[i].variables[k].value
    ensures r.Err? ==> r.error == OutOfRange
    decreases |data|
  {
    if |data| == 0 then Ok([])
    else if k >= |data[0].variables| then Err(OutOfRange)
    else
      match ColumnAt(data[1..], k)
      case Err(e) => Err(e)
      case Ok(rest) => Ok([data[0].variables[k].value] + rest)
  }

  /** The values of one variable from a response, located through its first record. */
  function ResponseValues(resp: Response, variable: string): (r: Result<seq<Option<int>>, Fault>)
    ensures |resp.data| == 0 ==> r == Err(OutOfRange)
    ensures |resp.data| > 0 && MeasurementIndex(resp.data[0].variables, variable).None? ==> r == Err(OutOfRange)
    ensures r.Ok? ==> |resp.data| > 0 && MeasurementIndex(resp.data[0].variables, variable).Some?
                      && r == ColumnAt(resp.data, MeasurementIndex(resp.data[0].variables, variable).value)
  {
    if |resp.data| == 0 then Err(OutOfRange)
    else
      match MeasurementIndex(resp.data[0].variables, variable)
      case None => Err(OutOfRange)
      case Some(k) => ColumnAt(resp.data, k)
  }

  /** A call's result and the connector state it leaves behind. */
  datatype Reply = Reply(connector: Connector, rows: Result<seq<Row>, Fault>)

  /** `get_yearly_data` in cloud mode. A fetched response is kept even when extraction then fails. */
  function CloudYearly(c: Connector, server: Query -> Response, lat: int, lon: int, year: int, variable: string): (r: Reply)
    ensures CacheFits(c.cache, lat, lon, year) ==> r.connector == c
    ensures !CacheFits(c.cache, lat, lon, year) ==>
      r.connector == Connector(c.codes, Some(server(QueryFor(c, lat, lon, year))), c.fetches + 1)
    ensures r.connector.cache.Some?
    ensures r.rows == (match ResponseValues(r.connector.cache.value, variable)
                       case Err(e) => Err(e)
                       case Ok(values) => YearlyRows(values, lon, lat, year, variable))
  {
    var c' := if CacheFits(c.cache, lat, lon, year) then c
              else Connector(c.codes, Some(server(QueryFor(c, lat, lon, year))), c.fetches + 1);
    var rows := match ResponseValues(c'.cache.value, variable)
                case Err(e) => Err(e)
                case Ok(values) => YearlyRows(values, lon, lat, year, variable);
    Reply(c', rows)
  }

  /** `get_yearly_data`: the cloud branch when reading SILO without an input path, the
      local dataset when one is open, and otherwise no values at all (a NameError). */
  function Yearly(c: Connector, source: string, local: Option<Dataset>, server: Query -> Response,
                  lat: int, lon: int, year: int, variable: string): (r: Reply)
    ensures source == "silo" && local.None? ==> r == CloudYearly(c, server, lat, lon, year, variable)
    ensures local.Some? ==> r == Reply(c, LocalYearly(local.value, lat, lon, year, variable))
    ensures source != "silo" && local.None? ==> r == Reply(c, Err(Unbound("data_values")))
  {
    if source == "silo" && local.None? then CloudYearly(c, server, lat, lon, year, variable)
    else if local.Some? then
      Reply(c, LocalYearly(local.value, lat, lon, year, variable))
    else Reply(c, Err(Unbound("data_values")))
  }

  // ---------------------------------------------------------------------------
  // Cache behaviour

  /** A response whose first record is dated in the requested year at the requested location. */
  predicate AnswersFor(resp: Response, lat: int, lon: int, year: nat) {
    |resp.data| > 0 && resp.data[0].date.Some?
    && NatToString(year) + "-" <= resp.data[0].date.value
    && resp.latitude == lat && resp.longitude == lon
  }

  lemma DateYearReadsBack(year: nat, rest: string)
    ensures ParseInt(SplitOn(NatToString(year) + "-" + rest, '-')[0]) == Some(year)
  {
    var s := NatToString(year);
    assert '-' !in s by {
      forall k | 0 <= k < |s| ensures s[k] != '-' { assert IsDigit(s[k]); }
    }
    assert s + "-" + rest == s + ['-'] + rest;
    SplitOnAt(s, '-', rest);
    assert IntToString(year) == s;
    ParseIntOfIntToString(year);
  }

  lemma AnswerFits(resp: Response, lat: int, lon: int, year: nat)
    requires AnswersFor(resp, lat, lon, year)
    ensures CacheFits(Some(resp), lat, lon, year)
  {
    DatePrefix(resp.data[0].date.value, year);
  }

  lemma DatePrefix(date: string, year: nat)
    requires NatToString(year) + "-" <= date
    ensures ParseInt(SplitOn(date, '-')[0]) == Some(year)
  {
    var p := NatToString(year) + "-";
    assert date == p + date[|p|..];
    DateYearReadsBack(year, date[|p|..]);
  }

  /** When the server answers with the requested year and location, asking again for
      another variable of the same cell and year makes no further request, and the
      second call reads the same response. */
  lemma SecondVariableUsesCache(c: Connector, server: Query -> Response, lat: int, lon: int, year: nat, v1: string, v2: string)
    requires !CacheFits(c.cache, lat, lon, year)
    requires AnswersFor(server(QueryFor(c, lat, lon, year)), lat, lon, year)
    ensures var first := CloudYearly(c, server, lat, lon, year, v1);
      var second := CloudYearly(first.connector, server, lat, lon, year, v2);
      first.connector.fetches == c.fetches + 1
      && second.connector == first.connector
  {
    AnswerFits(server(QueryFor(c, lat, lon, year)), lat, lon, year);
  }

  /** A response for another year is never reused. */
  lemma OtherYearRefetches(c: Connector, server: Query -> Response, lat: int, lon: int, year: nat, other: nat, variable: string)
    requires c.cache.Some? && AnswersFor(c.cache.value, lat, lon, other) && other != year
    ensures CloudYearly(c, server, lat, lon, year, variable).connector.fetches == c.fetches + 1
  {
    DatePrefix(c.cache.value.data[0].date.value, other);
  }

  /** A response for another location is never reused. */
  lemma OtherCellRefetches(c: Connector, server: Query -> Response, lat: int, lon: int, lat2: int, lon2: int, year: nat, variable: string)
    requires c.cache.Some? && AnswersFor(c.cache.value, lat2, lon2, year) && (lat2 != lat || lon2 != lon)
    ensures CloudYearly(c, server, lat, lon, year, variable).connector.fetches == c.fetches + 1
  {
    DatePrefix(c.cache.value.data[0].date.value, year);
  }

  /** The values are read at the index the first record gives, from every record in order. */
  lemma CloudValuesAtFixedIndex(c: Connector, server: Query -> Response, lat: int, lon: int, year: int, variable: string)
    requires CloudYearly(c, server, lat, lon, year, variable).rows.Ok?
    ensures var resp := CloudYearly(c, server, lat, lon, year, variable).connector.cache.value;
      var rows := CloudYearly(c, server, lat, lon, year, variable).rows.value;
      |resp.data| > 0 && MeasurementIndex(resp.data[0].variables, variable).Some?
      && |rows| == |resp.data|
      && forall i :: 0 <= i < |rows| ==>
           rows[i].value == resp.data[i].variables[MeasurementIndex(resp.data[0].variables, variable).value].value
           && rows[i].day == i + 1 && rows[i].lat == lat && rows[i].lon == lon && rows[i].year == year
  {
  }
}

=== FILE: sorted_ints.dfy ===
/** `numpy.unique` and `numpy.setdiff1d` on coordinate lists: both return the
    distinct values in ascending order. */
module SortedInts {

  predicate Increasing(xs: seq<int>) {
    forall i, j :: 0 <= i < j < |xs| ==> xs[i] < xs[j]
  }

  function Elems(xs: seq<int>): set<int> {
    set x | x in xs
  }

  lemma ElemsAppend(a: seq<int>, b: seq<int>)
    ensures Elems(a + b) == Elems(a) + Elems(b)
  {
    assert forall x :: x in a + b <==> x in a || x in b;
  }

  /** In an ascending list the head lies below everything after it. */
  lemma HeadBelowTail(xs: seq<int>)
    requires Increasing(xs) && |xs| > 0
    ensures forall y :: y in xs[1..] ==> xs[0] < y
  {
    forall y | y in xs[1..] ensures xs[0] < y {
      var m :| 0 <= m < |xs[1..]| && xs[1..][m] == y;
      assert xs[m + 1] == y;
    }
  }

  /** A value below everything in an ascending list can be put in front of it. */
  lemma IncreasingCons(h: int, t: seq<int>)
    requires Increasing(t) && forall y :: y in t ==> h < y
    ensures Increasing([h] + t)
  {
    var r := [h] + t;
    forall i, j | 0 <= i < j < |r| ensures r[i] < r[j] {
      assert r[j] == t[j - 1] && r[j] in t;
      if i > 0 { assert r[i] == t[i - 1]; }
    }
  }

  lemma IncreasingTail(xs: seq<int>)
    requires Increasing(xs) && |xs| > 0
    ensures Increasing(xs[1..])
  {
    forall i, j | 0 <= i < j < |xs| - 1 ensures xs[1..][i] < xs[1..][j] {
      assert xs[1..][i] == xs[i + 1] && xs[1..][j] == xs[j + 1];
    }
  }

  /** The head put back in front of the tail with `x` inserted. */
  lemma InsertAfterHead(xs: seq<int>, x: int, rest: seq<int>)
    requires Increasing(xs) && |xs| > 0 && xs[0] < x
    requires Increasing(rest) && Elems(rest) == Elems(xs[1..]) + {x}
    ensures Increasing([xs[0]] + rest) && Elems([xs[0]] + rest) == Elems(xs) + {x}
  {
    var tail := xs[1..];
    assert Elems(xs) == {xs[0]} + Elems(tail) by {
      assert xs == [xs[0]] + tail;
      ElemsAppend([xs[0]], tail);
    }
    ElemsAppend([xs[0]], rest);
    HeadBelowTail(xs);
    forall y | y in rest ensures xs[0] < y {
      assert y in Elems(rest);
      if y != x { assert y in Elems(tail); }
    }
    IncreasingCons(xs[0], rest);
  }

  /** A value below the head goes in front. */
  lemma InsertBeforeHead(xs: seq<int>, x: int)
    requires Increasing(xs) && |xs| > 0 && x < xs[0]
    ensures Increasing([x] + xs) && Elems([x] + xs) == Elems(xs) + {x}
  {
    HeadBelowTail(xs);
    forall y | y in xs ensures x < y {
      if y != xs[0] { assert y in xs[1..] by { assert xs == [xs[0]] + xs[1..]; } }
    }
    IncreasingCons(x, xs);
    ElemsAppend([x], xs);
  }

  /** Adds one value to an ascending duplicate-free list. */
  function Insert(xs: seq<int>, x: int): (r: seq<int>)
    requires Increasing(xs)
    ensures Increasing(r)
    ensures Elems(r) == Elems(xs) + {x}
    decreases |xs|
  {
    if |xs| == 0 then [x]
    else if x == xs[0] then xs
    else if x < xs[0] then
      InsertBeforeHead(xs, x);
      [x] + xs
    else
      IncreasingTail(xs);
      var rest := Insert(xs[1..], x);
      InsertAfterHead(xs, x, rest);
      [xs[0]] + rest
  }

  /** `numpy.unique(xs)`: the distinct values, ascending. */
  function Unique(xs: seq<int>): (r: seq<int>)
    ensures Increasing(r)
    ensures Elems(r) == Elems(xs)
    decreases |xs|
  {
    if |xs| == 0 then []
    else
      assert Elems(xs) == {xs[0]} + Elems(xs[1..]) by {
        assert xs == [xs[0]] + xs[1..];
      }
      Insert(Unique(xs[1..]), xs[0])
  }

  /** The values of `xs` that are not in `drop`, in order. */
  function Keep(xs: seq<int>, drop: set<int>): (r: seq<int>)
    ensures Elems(r) == Elems(xs) - drop
    decreases |xs|
  {
    if |xs| == 0 then []
    else
      assert Elems(xs) == {xs[0]} + Elems(xs[1..]) by {
        assert xs == [xs[0]] + xs[1..];
        ElemsAppend([xs[0]], xs[1..]);
      }
      ElemsAppend(if xs[0] in drop then [] else [xs[0]], Keep(xs[1..], drop));
      (if xs[0] in drop then [] else [xs[0]]) + Keep(xs[1..], drop)
  }

  /** `numpy.setdiff1d(xs, drop)`: the distinct values of `xs` not in `drop`, ascending. */
  function SetDiff(xs: seq<int>, drop: seq<int>): (r: seq<int>)
    ensures Increasing(r)
    ensures forall x :: x in r <==> x in xs && x !in drop
  {
    var r := Unique(Keep(xs, Elems(drop)));
    assert forall x :: x in r <==> x in Elems(r);
    r
  }

  /** An ascending list is determined by its values. */
  lemma {:induction false} IncreasingUnique(a: seq<int>, b: seq<int>)
    requires Increasing(a) && Increasing(b) && Elems(a) == Elems(b)
    ensures a == b
    decreases |a|
  {
    if |a| > 0 {
      assert a[0] in Elems(b);
    }
    if |b| > 0 {
      assert b[0] in Elems(a);
    }
    if |a| > 0 {
      var i :| 0 <= i < |b| && b[i] == a[0];
      var j :| 0 <= j < |a| && a[j] == b[0];
      assert a[0] == b[0];
      assert Elems(a[1..]) == Elems(a) - {a[0]} by {
        assert a == [a[0]] + a[1..];
        ElemsAppend([a[0]], a[1..]);
        assert a[0] !in a[1..];
      }
      assert Elems(b[1..]) == Elems(b) - {b[0]} by {
        assert b == [b[0]] + b[1..];
        ElemsAppend([b[0]], b[1..]);
        assert b[0] !in b[1..];
      }
      IncreasingUnique(a[1..], b[1..]);
      assert a == [a[0]] + a[1..] && b == [b[0]] + b[1..];
    }
  }

  /** Folding `numpy.unique(concatenate(acc, xs))` over several lists gives the ascending
      duplicate-free union of all of them, whatever the order the lists arrive in. */
  function UnionAll(lists: seq<seq<int>>): (r: seq<int>)
    ensures Increasing(r)
    ensures forall x :: x in r <==> exists k :: 0 <= k < |lists| && x in lists[k]
    decreases |lists|
  {
    if |lists| == 0 then []
    else
      var acc := UnionAll(lists[..|lists| - 1]);
      var r := Unique(acc + lists[|lists| - 1]);
      assert forall x :: x in r <==> x in Elems(r);
      assert forall x :: x in acc + lists[|lists| - 1] <==> x in acc || x in lists[|lists| - 1];
      assert forall k :: 0 <= k < |lists| - 1 ==> lists[..|lists| - 1][k] == lists[k];
      r
  }
}

=== FILE: sweep.dfy ===
/** The extraction sweep shared by the assemblers: every (year, variable, lat, lon)
    task is tried in loop order, successful frames are appended, and a task whose
    extraction raises ValueError records its longitude as empty. With pruning on,
    a longitude recorded as empty is never tried again. Any other fault escapes
    and ends the sweep. Tasks whose source file is missing are skipped without
    a trace.

    The extractor and the presence test are parameters, so the properties hold
    for every data source.
 */
module Sweep {
  import opened Outcomes
  import opened Table

  datatype Task = Task(year: int, variable: string, lat: int, lon: int)

  /** A task that was tried, and whether its extraction succeeded. */
  datatype Probe = Probe(task: Task, ok: bool)

  /** The accumulated frame, the empty longitudes in order of discovery, and the tries so far. */
  datatype State = State(rows: seq<Row>, empty: seq<int>, probes: seq<Probe>)

  function FailedLons(ps: seq<Probe>): (lons: seq<int>)
    ensures forall x :: x in lons <==> exists i :: 0 <= i < |ps| && !ps[i].ok && ps[i].task.lon == x
    decreases |ps|
  {
    if |ps| == 0 then []
    else
      var init := ps[..|ps| - 1];
      var last := ps[|ps| - 1];
      var rest := FailedLons(init);
      assert forall i :: 0 <= i < |init| ==> init[i] == ps[i];
      if last.ok then rest else rest + [last.task.lon]
  }

  function TasksOf(ps: seq<Probe>): (ts: seq<Task>)
    ensures |ts| == |ps| && forall i :: 0 <= i < |ps| ==> ts[i] == ps[i].task
  {
    seq(|ps|, i requires 0 <= i < |ps| => ps[i].task)
  }

  /** The frames of the successful tries, in order. */
  function OkRows(ps: seq<Probe>, extract: Task -> Result<seq<Row>, Fault>): seq<Row>
    decreases |ps|
  {
    if |ps| == 0 then []
    else
      var last := ps[|ps| - 1];
      OkRows(ps[..|ps| - 1], extract) + (if last.ok && extract(last.task).Ok? then extract(last.task).value else [])
  }

  /** The tasks present in the input, in order. */
  function Present(tasks: seq<Task>, present: Task -> bool): (r: seq<Task>)
    ensures forall t :: t in r <==> t in tasks && present(t)
    decreases |tasks|
  {
    if |tasks| == 0 then []
    else
      var init := tasks[..|tasks| - 1];
      var last := tasks[|tasks| - 1];
      assert tasks == init + [last];
      Present(init, present) + (if present(last) then [last] else [])
  }

  /** The state after trying `t`: its frame appended, and its longitude recorded when it failed. */
  function Tried(s: State, t: Task, ok: bool, rows: seq<Row>): State {
    State(s.rows + rows, if ok then s.empty else s.empty + [t.lon], s.probes + [Probe(t, ok)])
  }

  /** One iteration of the innermost loop body. */
  function Step(s: State, t: Task, prune: bool, present: Task -> bool, extract: Task -> Result<seq<Row>, Fault>)
    : (r: Result<State, Fault>)
    ensures !present(t) || (prune && t.lon in s.empty) ==> r == Ok(s)
    ensures present(t) && !(prune && t.lon in s.empty) ==>
      match extract(t)
      case Ok(rows) => r == Ok(Tried(s, t, true, rows))
      case Err(e) => r == if IsValueError(e) then Ok(Tried(s, t, false, [])) else Err(e)
  {
    if !present(t) then Ok(s)
    else if prune && t.lon in s.empty then Ok(s)
    else
      match extract(t)
      case Ok(rows) => Ok(Tried(s, t, true, rows))
      case Err(e) => if IsValueError(e) then Ok(Tried(s, t, false, [])) else Err(e)
  }

  /** Each try is of a present task of the sweep, and succeeded exactly when its extraction did;
      a failed try failed with ValueError. */
  predicate Sound(s: State, tasks: seq<Task>, present: Task -> bool, extract: Task -> Result<seq<Row>, Fault>) {
    forall i :: 0 <= i < |s.probes| ==>
      s.probes[i].task in tasks && present(s.probes[i].task)
      && (s.probes[i].ok <==> extract(s.probes[i].task).Ok?)
      && (!s.probes[i].ok ==> IsValueError(extract(s.probes[i].task).error))
  }

  /** No longitude is tried after a try of it has failed. */
  predicate NoRetry(ps: seq<Probe>) {
    forall i, j :: 0 <= i < j < |ps| && ps[i].task.lon == ps[j].task.lon ==> ps[i].ok
  }

  /** Every present task was tried, unless pruning had already written its longitude off. */
  predicate Covered(s: State, tasks: seq<Task>, prune: bool, present: Task -> bool) {
    forall k :: 0 <= k < |tasks| && present(tasks[k]) && (!prune || tasks[k].lon !in s.empty) ==>
      tasks[k] in TasksOf(s.probes)
  }

  /** What a sweep over `tasks` leaves behind. */
  predicate Accounts(s: State, tasks: seq<Task>, prune: bool, present: Task -> bool, extract: Task -> Result<seq<Row>, Fault>) {
    Sound(s, tasks, present, extract)
    && s.empty == FailedLons(s.probes)
    && s.rows == OkRows(s.probes, extract)
    && (prune ==> NoRetry(s.probes))
    && Covered(s, tasks, prune, present)
    && (!prune ==> TasksOf(s.probes) == Present(tasks, present))
  }

  /** When every task is present, the present tasks are all of them, in order. */
  lemma {:induction false} PresentAll(tasks: seq<Task>, present: Task -> bool)
    requires forall k :: 0 <= k < |tasks| ==> present(tasks[k])
    ensures Present(tasks, present) == tasks
    decreases |tasks|
  {
    if |tasks| > 0 {
      PresentAll(tasks[..|tasks| - 1], present);
      assert tasks == tasks[..|tasks| - 1] + [tasks[|tasks| - 1]];
    }
  }

  /** The nested loops over a flat task list. */
  function Run(tasks: seq<Task>, prune: bool, present: Task -> bool, extract: Task -> Result<seq<Row>, Fault>)
    : (r: Result<State, Fault>)
    ensures r.Ok? ==> Accounts(r.value, tasks, prune, present, extract)
    ensures r.Err? ==> !IsValueError(r.error)
                       && exists k :: 0 <= k < |tasks| && present(tasks[k]) && extract(tasks[k]) == Err(r.error)
    decreases |tasks|
  {
    if |tasks| == 0 then Ok(State([], [], []))
    else
      var init := tasks[..|tasks| - 1];
      var last := tasks[|tasks| - 1];
      assert tasks == init + [last];
      match Run(init, prune, present, extract)
      case Err(e) =>
        var k :| 0 <= k < |init| && present(init[k]) && extract(init[k]) == Err(e);
        assert tasks[k] == init[k];
        Err(e)
      case Ok(s) =>
        StepAccounts(s, init, last, prune, present, extract);
        Step(s, last, prune, present, extract)
  }

  /** An exception other than ValueError from the first task escapes the whole sweep. */
  lemma {:induction false} FirstTaskFatal(tasks: seq<Task>, prune: bool, present: Task -> bool, extract: Task -> Result<seq<Row>, Fault>, e: Fault)
    requires |tasks| > 0 && present(tasks[0]) && extract(tasks[0]) == Err(e) && !IsValueError(e)
    ensures Run(tasks, prune, present, extract) == Err(e)
    decreases |tasks|
  {
    var init := tasks[..|tasks| - 1];
    if |init| == 0 {
      assert Run(init, prune, present, extract) == Ok(State([], [], []));
      assert tasks[|tasks| - 1] == tasks[0];
    } else {
      assert init[0] == tasks[0];
      FirstTaskFatal(init, prune, present, extract, e);
    }
  }

  /** Without pruning every present task is tried, so any exception other than ValueError escapes. */
  lemma {:induction false} UnprunedFatalEscapes(tasks: seq<Task>, present: Task -> bool, extract: Task -> Result<seq<Row>, Fault>, k: nat)
    requires k < |tasks| && present(tasks[k]) && extract(tasks[k]).Err? && !IsValueError(extract(tasks[k]).error)
    ensures Run(tasks, false, present, extract).Err?
    decreases |tasks|
  {
    var init := tasks[..|tasks| - 1];
    if k < |init| {
      assert init[k] == tasks[k];
      UnprunedFatalEscapes(init, present, extract, k);
    }
  }

  lemma StepAccounts(s: State, init: seq<Task>, t: Task, prune: bool, present: Task -> bool, extract: Task -> Result<seq<Row>, Fault>)
    requires Accounts(s, init, prune, present, extract)
    ensures var r := Step(s, t, prune, present, extract);
      (r.Ok? ==> Accounts(r.value, init + [t], prune, present, extract))
      && (r.Err? ==> !IsValueError(r.error) && present(t) && extract(t) == Err(r.error))
  {
    var r := Step(s, t, prune, present, extract);
    if r.Ok? {
      if !present(t) || (prune && t.lon in s.empty) {
        assert r.value == s;
        KeepAccounts(s, init, t, prune, present, extract);
      } else {
        var ok := extract(t).Ok?;
        var rows := if ok then extract(t).value else [];
        assert r.value == Tried(s, t, ok, rows);
        TriedAccounts(s, init, t, ok, rows, prune, present, extract);
      }
    }
  }

  /** A skipped task keeps the account. */
  lemma KeepAccounts(s: State, init: seq<Task>, t: Task, prune: bool, present: Task -> bool, extract: Task -> Result<seq<Row>, Fault>)
    requires Accounts(s, init, prune, present, extract)
    requires !present(t) || (prune && t.lon in s.empty)
    ensures Accounts(s, init + [t], prune, present, extract)
  {
    var tasks := init + [t];
    assert tasks[..|tasks| - 1] == init;
    assert forall x :: x in init ==> x in tasks;
    assert forall k :: 0 <= k < |init| ==> tasks[k] == init[k];
    if !prune {
      assert Present(tasks, present) == Present(init, present);
    }
  }

  /** A tried task extends the account. */
  lemma TriedAccounts(s: State, init: seq<Task>, t: Task, ok: bool, rows: seq<Row>, prune: bool, present: Task -> bool,
                      extract: Task -> Result<seq<Row>, Fault>)
    requires Accounts(s, init, prune, present, extract)
    requires present(t) && !(prune && t.lon in s.empty)
    requires ok <==> extract(t).Ok?
    requires ok ==> rows == extract(t).value
    requires !ok ==> rows == [] && IsValueError(extract(t).error)
    ensures Accounts(Tried(s, t, ok, rows), init + [t], prune, present, extract)
  {
    var tasks := init + [t];
    var s' := Tried(s, t, ok, rows);
    assert s'.probes[..|s'.probes| - 1] == s.probes;
    TriedSound(s, init, t, ok, rows, present, extract);
    assert s'.rows == OkRows(s'.probes, extract);
    assert s'.empty == FailedLons(s'.probes);
    if prune {
      TriedNoRetry(s, t, ok, rows);
    }
    TriedCovered(s, init, t, ok, rows, prune, present);
    if !prune {
      assert tasks[..|tasks| - 1] == init;
      assert Present(tasks, present) == Present(init, present) + [t];
      TriedTasks(s, t, ok, rows);
    }
  }

  lemma TriedTasks(s: State, t: Task, ok: bool, rows: seq<Row>)
    ensures TasksOf(Tried(s, t, ok, rows).probes) == TasksOf(s.probes) + [t]
  {
  }

  lemma TriedSound(s: State, init: seq<Task>, t: Task, ok: bool, rows: seq<Row>, present: Task -> bool,
                   extract: Task -> Result<seq<Row>, Fault>)
    requires Sound(s, init, present, extract)
    requires present(t) && (ok <==> extract(t).Ok?) && (!ok ==> IsValueError(extract(t).error))
    ensures Sound(Tried(s, t, ok, rows), init + [t], present, extract)
  {
    var ps := Tried(s, t, ok, rows).probes;
    forall i | 0 <= i < |ps| ensures ps[i].task in init + [t] {
      if i < |s.probes| { assert ps[i] == s.probes[i]; }
    }
  }

  lemma TriedNoRetry(s: State, t: Task, ok: bool, rows: seq<Row>)
    requires NoRetry(s.probes) && s.empty == FailedLons(s.probes) && t.lon !in s.empty
    ensures NoRetry(Tried(s, t, ok, rows).probes)
  {
    var ps := Tried(s, t, ok, rows).probes;
    forall i | 0 <= i < |s.probes| && s.probes[i].task.lon == t.lon ensures s.probes[i].ok {
      assert !s.probes[i].ok ==> t.lon in FailedLons(s.probes);
    }
    forall i, j | 0 <= i < j < |ps| && ps[i].task.lon == ps[j].task.lon ensures ps[i].ok {
      assert ps[i] == s.probes[i];
      if j < |s.probes| { assert ps[j] == s.probes[j]; }
    }
  }

  lemma TriedCovered(s: State, init: seq<Task>, t: Task, ok: bool, rows: seq<Row>, prune: bool, present: Task -> bool)
    requires Covered(s, init, prune, present)
    ensures Covered(Tried(s, t, ok, rows), init + [t], prune, present)
  {
    var tasks := init + [t];
    var s' := Tried(s, t, ok, rows);
    TriedTasks(s, t, ok, rows);
    forall k | 0 <= k < |tasks| && present(tasks[k]) && (!prune || tasks[k].lon !in s'.empty)
      ensures tasks[k] in TasksOf(s'.probes)
    {
      if k < |init| {
        assert tasks[k] == init[k];
        assert !prune || init[k].lon !in s.empty;
        assert init[k] in TasksOf(s.probes);
      }
    }
  }

  /** A missing source file leaves the sweep exactly as it was. */
  lemma AbsentTaskChangesNothing(s: State, t: Task, prune: bool, present: Task -> bool, extract: Task -> Result<seq<Row>, Fault>)
    requires !present(t)
    ensures Step(s, t, prune, present, extract) == Ok(s)
  {
  }

  /** With pruning, a longitude is tried at most once after it has failed: never. */
  lemma PrunedNeverRetried(tasks: seq<Task>, present: Task -> bool, extract: Task -> Result<seq<Row>, Fault>, i: nat, j: nat)
    requires Run(tasks, true, present, extract).Ok?
    requires var ps := Run(tasks, true, present, extract).value.probes;
      i < j < |ps| && !ps[i].ok
    ensures Run(tasks, true, present, extract).value.probes[j].task.lon != Run(tasks, true, present, extract).value.probes[i].task.lon
  {
  }

  /** A longitude ends up empty exactly when some present task at it has an extraction that fails,
      with or without pruning. */
  lemma EmptyMeansFailed(tasks: seq<Task>, prune: bool, present: Task -> bool, extract: Task -> Result<seq<Row>, Fault>, x: int)
    requires Run(tasks, prune, present, extract).Ok?
    ensures x in Run(tasks, prune, present, extract).value.empty <==>
      exists k :: 0 <= k < |tasks| && tasks[k].lon == x && present(tasks[k]) && extract(tasks[k]).Err?
  {
    var s := Run(tasks, prune, present, extract).value;
    if x in s.empty {
      var i :| 0 <= i < |s.probes| && !s.probes[i].ok && s.probes[i].task.lon == x;
      var t := s.probes[i].task;
      assert t in tasks;
      var k :| 0 <= k < |tasks| && tasks[k] == t;
    }
    if exists k :: 0 <= k < |tasks| && tasks[k].lon == x && present(tasks[k]) && extract(tasks[k]).Err? {
      var k :| 0 <= k < |tasks| && tasks[k].lon == x && present(tasks[k]) && extract(tasks[k]).Err?;
    }
  }

  /** Every row of the result comes from a successful extraction of a present task. */
  lemma RowsFromPresentTasks(tasks: seq<Task>, prune: bool, present: Task -> bool, extract: Task -> Result<seq<Row>, Fault>, row: Row)
    requires Run(tasks, prune, present, extract).Ok?
    requires row in Run(tasks, prune, present, extract).value.rows
    ensures exists k :: 0 <= k < |tasks| && present(tasks[k]) && extract(tasks[k]).Ok? && row in extract(tasks[k]).value
  {
    var s := Run(tasks, prune, present, extract).value;
    var i := OkRowsSource(s.probes, extract, row);
    var t := s.probes[i].task;
    assert t in tasks;
    var k :| 0 <= k < |tasks| && tasks[k] == t;
  }

  lemma {:induction false} OkRowsSource(ps: seq<Probe>, extract: Task -> Result<seq<Row>, Fault>, row: Row) returns (i: nat)
    requires row in OkRows(ps, extract)
    ensures i < |ps| && ps[i].ok && extract(ps[i].task).Ok? && row in extract(ps[i].task).value
    decreases |ps|
  {
    var init := ps[..|ps| - 1];
    var last := ps[|ps| - 1];
    var tail := if last.ok && extract(last.task).Ok? then extract(last.task).value else [];
    assert OkRows(ps, extract) == OkRows(init, extract) + tail;
    if row in tail {
      i := |ps| - 1;
    } else {
      i := OkRowsSource(init, extract, row);
      assert ps[i] == init[i];
    }
  }

  /** With pruning each empty longitude is recorded once. */
  lemma PrunedEmptyDistinct(tasks: seq<Task>, present: Task -> bool, extract: Task -> Result<seq<Row>, Fault>)
    requires Run(tasks, true, present, extract).Ok?
    ensures NoDuplicates(Run(tasks, true, present, extract).value.empty)
  {
    var s := Run(tasks, true, present, extract).value;
    FailedLonsDistinct(s.probes);
  }

  predicate NoDuplicates(xs: seq<int>) {
    forall a, b :: 0 <= a < b < |xs| ==> xs[a] != xs[b]
  }

  lemma {:induction false} FailedLonsDistinct(ps: seq<Probe>)
    requires NoRetry(ps)
    ensures NoDuplicates(FailedLons(ps))
    decreases |ps|
  {
    if |ps| > 0 {
      var init := ps[..|ps| - 1];
      assert forall i :: 0 <= i < |init| ==> init[i] == ps[i];
      assert NoRetry(init);
      FailedLonsDistinct(init);
      var last := ps[|ps| - 1];
      var rest := FailedLons(init);
      if !last.ok {
        assert last.task.lon !in rest;
        var e := rest + [last.task.lon];
        assert FailedLons(ps) == e;
        forall a, b | 0 <= a < b < |e| ensures e[a] != e[b] {
          assert e[a] == rest[a];
          if b == |e| - 1 {
            assert rest[a] in rest;
          } else {
            assert e[b] == rest[b];
          }
        }
      } else {
        assert FailedLons(ps) == rest;
      }
    }
  }

  // ---------------------------------------------------------------------------
  // Loop orders

  /** One latitude's row of cells. */
  function LonRow(year: int, variable: string, lat: int, lons: seq<int>): (ts: seq<Task>)
    ensures |ts| == |lons|
    ensures forall i :: 0 <= i < |lons| ==> ts[i] == Task(year, variable, lat, lons[i])
    ensures forall t :: t in ts <==> t.year == year && t.variable == variable && t.lat == lat && t.lon in lons
  {
    var ts := seq(|lons|, i requires 0 <= i < |lons| => Task(year, variable, lat, lons[i]));
    assert forall t :: t in ts <==> t.year == year && t.variable == variable && t.lat == lat && t.lon in lons by {
      forall t | t in ts ensures t.lon in lons {
        var i :| 0 <= i < |ts| && ts[i] == t;
      }
      forall t: Task | t.year == year && t.variable == variable && t.lat == lat && t.lon in lons ensures t in ts {
        var i :| 0 <= i < |lons| && lons[i] == t.lon;
        assert ts[i] == t;
      }
    }
    ts
  }

  /** All cells of one (year, variable) block, latitude by latitude. */
  function Cells(year: int, variable: string, lats: seq<int>, lons: seq<int>): (ts: seq<Task>)
    ensures forall t :: t in ts <==> t.year == year && t.variable == variable && t.lat in lats && t.lon in lons
    ensures |ts| == |lats| * |lons|
    decreases |lats|
  {
    if |lats| == 0 then []
    else
      var row := LonRow(year, variable, lats[0], lons);
      var rest := Cells(year, variable, lats[1..], lons);
      assert forall x :: x in lats <==> x == lats[0] || x in lats[1..] by {
        assert lats == [lats[0]] + lats[1..];
      }
      assert |row + rest| == |lons| + (|lats| - 1) * |lons| == |lats| * |lons|;
      row + rest
  }

  /** bestiapop/bestiapop.py: years, then variables, then cells. */
  function YearMajor(years: seq<int>, variables: seq<string>, lats: seq<int>, lons: seq<int>): (ts: seq<Task>)
    ensures forall t :: t in ts <==> t.year in years && t.variable in variables && t.lat in lats && t.lon in lons
    decreases |years|
  {
    if |years| == 0 then []
    else
      assert forall x :: x in years <==> x == years[0] || x in years[1..] by {
        assert years == [years[0]] + years[1..];
      }
      VariableBlocks(years[0], variables, lats, lons) + YearMajor(years[1..], variables, lats, lons)
  }

  function VariableBlocks(year: int, variables: seq<string>, lats: seq<int>, lons: seq<int>): (ts: seq<Task>)
    ensures forall t :: t in ts <==> t.year == year && t.variable in variables && t.lat in lats && t.lon in lons
    ensures forall i :: 0 <= i < |ts| ==> ts[i].year == year
    decreases |variables|
  {
    if |variables| == 0 then []
    else
      assert forall x :: x in variables <==> x == variables[0] || x in variables[1..] by {
        assert variables == [variables[0]] + variables[1..];
      }
      var block := Cells(year, variables[0], lats, lons);
      var rest := VariableBlocks(year, variables[1..], lats, lons);
      assert forall i :: 0 <= i < |block| ==> block[i] in block;
      block + rest
  }

  /** The root bestiapop.py script: variables, then years, then cells. */
  function VariableMajor(variables: seq<string>, years: seq<int>, lats: seq<int>, lons: seq<int>): (ts: seq<Task>)
    ensures forall t :: t in ts <==> t.year in years && t.variable in variables && t.lat in lats && t.lon in lons
    decreases |variables|
  {
    if |variables| == 0 then []
    else
      assert forall x :: x in variables <==> x == variables[0] || x in variables[1..] by {
        assert variables == [variables[0]] + variables[1..];
      }
      YearBlocks(variables[0], years, lats, lons) + VariableMajor(variables[1..], years, lats, lons)
  }

  function YearBlocks(variable: string, years: seq<int>, lats: seq<int>, lons: seq<int>): (ts: seq<Task>)
    ensures forall t :: t in ts <==> t.year in years && t.variable == variable && t.lat in lats && t.lon in lons
    ensures forall i :: 0 <= i < |ts| ==> ts[i].variable == variable
    decreases |years|
  {
    if |years| == 0 then []
    else
      assert forall x :: x in years <==> x == years[0] || x in years[1..] by {
        assert years == [years[0]] + years[1..];
      }
      var block := Cells(years[0], variable, lats, lons);
      var rest := YearBlocks(variable, years[1..], lats, lons);
      assert forall i :: 0 <= i < |block| ==> block[i] in block;
      block + rest
  }

  /** Both loop orders visit the same tasks. */
  lemma LoopOrdersVisitSameTasks(years: seq<int>, variables: seq<string>, lats: seq<int>, lons: seq<int>, t: Task)
    ensures t in YearMajor(years, variables, lats, lons) <==> t in VariableMajor(variables, years, lats, lons)
  {
  }

  /** Year-major order finishes a year before starting the next. */
  lemma {:induction false} YearMajorInYearOrder(years: seq<int>, variables: seq<string>, lats: seq<int>, lons: seq<int>)
    requires forall a, b :: 0 <= a < b < |years| ==> years[a] < years[b]
    ensures var ts := YearMajor(years, variables, lats, lons);
      forall i, j :: 0 <= i < j < |ts| ==> ts[i].year <= ts[j].year
    decreases |years|
  {
    if |years| > 0 {
      var head := VariableBlocks(years[0], variables, lats, lons);
      var rest := YearMajor(years[1..], variables, lats, lons);
      YearMajorInYearOrder(years[1..], variables, lats, lons);
      LaterYears(years, rest, variables, lats, lons);
      var ts := head + rest;
      assert ts == YearMajor(years, variables, lats, lons);
      forall i, j | 0 <= i < j < |ts| ensures ts[i].year <= ts[j].year {
        if j >= |head| {
          assert ts[j] == rest[j - |head|];
          if i >= |head| {
            assert ts[i] == rest[i - |head|];
          }
        }
      }
    }
  }

  /** Every task after the first year's block belongs to a later year. */
  lemma LaterYears(years: seq<int>, rest: seq<Task>, variables: seq<string>, lats: seq<int>, lons: seq<int>)
    requires |years| > 0 && forall a, b :: 0 <= a < b < |years| ==> years[a] < years[b]
    requires rest == YearMajor(years[1..], variables, lats, lons)
    ensures forall i :: 0 <= i < |rest| ==> years[0] < rest[i].year
  {
    forall i | 0 <= i < |rest| ensures years[0] < rest[i].year {
      assert rest[i] in rest;
      var m :| 0 <= m < |years[1..]| && years[1..][m] == rest[i].year;
      assert years[m + 1] == rest[i].year;
    }
  }
}

=== FILE: table.dfy ===
/** The long climate table and its normalisation.

    Every extractor returns rows with constant lon, lat and year columns, a
    1-based day column and one value column named after the climate variable.
    Frames for different variables are concatenated, so in the combined frame
    each row carries exactly one non-missing variable column. `Row` records
    that column's name and value.

    Before output the table is renamed (days to day, daily_rain to rain,
    min_temp to mint, max_temp to maxt, radiation to radn), grouped by
    (lon, lat, year, day) and summed over radn, maxt, mint and rain. pandas
    skips NaN when it sums, so a missing value counts as zero.
 */
module Table {
  import opened Outcomes

  datatype Row = Row(lon: int, lat: int, year: int, day: int, variable: string, value: Option<int>)

  datatype Key = Key(lon: int, lat: int, year: int, day: int)

  /** One row of the normalised table: a key and the four summed value columns. */
  datatype DayRow = DayRow(key: Key, radn: int, maxt: int, mint: int, rain: int)

  function KeyOf(r: Row): Key {
    Key(r.lon, r.lat, r.year, r.day)
  }

  /** The lexicographic order groupby sorts its keys by. */
  predicate KeyLess(a: Key, b: Key) {
    a.lon < b.lon
    || (a.lon == b.lon && a.lat < b.lat)
    || (a.lon == b.lon && a.lat == b.lat && a.year < b.year)
    || (a.lon == b.lon && a.lat == b.lat && a.year == b.year && a.day < b.day)
  }

  predicate KeysSorted(ks: seq<Key>) {
    forall i, j :: 0 <= i < j < |ks| ==> KeyLess(ks[i], ks[j])
  }

  /** The column names after `rename`. */
  function Rename(column: string): string {
    if column == "days" then "day"
    else if column == "daily_rain" then "rain"
    else if column == "min_temp" then "mint"
    else if column == "max_temp" then "maxt"
    else if column == "radiation" then "radn"
    else column
  }

  /** The columns the group-by sums, in output order. */
  const ValueColumns: seq<string> := ["radn", "maxt", "mint", "rain"]

  predicate HasColumn(rows: seq<Row>, column: string) {
    exists i :: 0 <= i < |rows| && Rename(rows[i].variable) == column
  }

  function KeySet(rows: seq<Row>): set<Key>
    decreases |rows|
  {
    if |rows| == 0 then {} else {KeyOf(rows[0])} + KeySet(rows[1..])
  }

  /** What one row adds to a column's sum at a key. */
  function Contribution(r: Row, k: Key, column: string): int {
    if KeyOf(r) == k && Rename(r.variable) == column then r.value.GetOr(0) else 0
  }

  /** The reference sum of a column at one key. */
  function ColumnSum(rows: seq<Row>, k: Key, column: string): int
    decreases |rows|
  {
    if |rows| == 0 then 0 else Contribution(rows[0], k, column) + ColumnSum(rows[1..], k, column)
  }

  /** The total of a column over the whole table, whatever the key. */
  function ColumnTotal(rows: seq<Row>, column: string): int
    decreases |rows|
  {
    if |rows| == 0 then 0
    else (if Rename(rows[0].variable) == column then rows[0].value.GetOr(0) else 0) + ColumnTotal(rows[1..], column)
  }

  // ---------------------------------------------------------------------------
  // Sorted distinct keys

  lemma KeyLessTotal(a: Key, b: Key)
    ensures a == b || KeyLess(a, b) || KeyLess(b, a)
  {
  }

  function KeyElems(ks: seq<Key>): set<Key> {
    set k | k in ks
  }

  function InsertKey(ks: seq<Key>, k: Key): (r: seq<Key>)
    requires KeysSorted(ks)
    ensures KeysSorted(r)
    ensures KeyElems(r) == KeyElems(ks) + {k}
    decreases |ks|
  {
    if |ks| == 0 then [k]
    else if k == ks[0] then ks
    else if KeyLess(k, ks[0]) then
      KeyHeadBelowTail(ks);
      KeysSortedCons(k, ks);
      [k] + ks
    else
      KeyLessTotal(k, ks[0]);
      KeysSortedTail(ks);
      KeyHeadBelowTail(ks);
      var rest := InsertKey(ks[1..], k);
      assert KeyElems(ks) == {ks[0]} + KeyElems(ks[1..]) by {
        assert ks == [ks[0]] + ks[1..];
      }
      assert forall y :: y in rest ==> y in KeyElems(rest);
      assert forall y :: y in KeyElems(ks[1..]) ==> y in ks[1..];
      KeysSortedCons(ks[0], rest);
      [ks[0]] + rest
  }

  lemma KeyHeadBelowTail(ks: seq<Key>)
    requires KeysSorted(ks) && |ks| > 0
    ensures forall y :: y in ks[1..] ==> KeyLess(ks[0], y)
  {
    forall y | y in ks[1..] ensures KeyLess(ks[0], y) {
      var m :| 0 <= m < |ks[1..]| && ks[1..][m] == y;
      assert ks[m + 1] == y;
    }
  }

  lemma KeysSortedTail(ks: seq<Key>)
    requires KeysSorted(ks) && |ks| > 0
    ensures KeysSorted(ks[1..])
  {
    forall i, j | 0 <= i < j < |ks| - 1 ensures KeyLess(ks[1..][i], ks[1..][j]) {
      assert ks[1..][i] == ks[i + 1] && ks[1..][j] == ks[j + 1];
    }
  }

  /** A key below every key of a sorted list can be put in front of it. */
  lemma KeysSortedCons(h: Key, t: seq<Key>)
    requires KeysSorted(t) && forall y :: y in t ==> KeyLess(h, y)
    ensures KeysSorted([h] + t)
  {
    var r := [h] + t;
    forall i, j | 0 <= i < j < |r| ensures KeyLess(r[i], r[j]) {
      assert r[j] == t[j - 1] && r[j] in t;
      if i > 0 { assert r[i] == t[i - 1]; }
    }
  }

  /** The distinct keys of the table, ascending. */
  function SortedKeys(rows: seq<Row>): (ks: seq<Key>)
    ensures KeysSorted(ks)
    ensures KeyElems(ks) == KeySet(rows)
    decreases |rows|
  {
    if |rows| == 0 then [] else InsertKey(SortedKeys(rows[1..]), KeyOf(rows[0]))
  }

  // ---------------------------------------------------------------------------
  // Group-by and sum

  function SummedRow(rows: seq<Row>, k: Key): DayRow {
    DayRow(k, ColumnSum(rows, k, "radn"), ColumnSum(rows, k, "maxt"), ColumnSum(rows, k, "mint"), ColumnSum(rows, k, "rain"))
  }

  /** `rename(...)` then `groupby(['lon', 'lat', 'year', 'day'])[['radn', 'maxt', 'mint', 'rain']].sum()`.
      An empty table has no key columns, and a table without one of the four value
      columns cannot select it; both raise KeyError. */
  function GroupSum(rows: seq<Row>): (r: Result<seq<DayRow>, Fault>)
    ensures r.Ok? <==> |rows| > 0 && forall c :: c in ValueColumns ==> HasColumn(rows, c)
    ensures r.Err? ==> r.error.MissingKey?
    ensures r.Ok? ==> TableSorted(r.value)
    ensures r.Ok? ==> forall k :: k in KeySet(rows) <==> exists i :: 0 <= i < |r.value| && r.value[i].key == k
    ensures r.Ok? ==> forall i :: 0 <= i < |r.value| ==>
      var d := r.value[i];
      d.radn == ColumnSum(rows, d.key, "radn") && d.maxt == ColumnSum(rows, d.key, "maxt")
      && d.mint == ColumnSum(rows, d.key, "mint") && d.rain == ColumnSum(rows, d.key, "rain")
  {
    if |rows| == 0 then Err(MissingKey("lon"))
    else if !HasColumn(rows, "radn") then Err(MissingKey("radn"))
    else if !HasColumn(rows, "maxt") then Err(MissingKey("maxt"))
    else if !HasColumn(rows, "mint") then Err(MissingKey("mint"))
    else if !HasColumn(rows, "rain") then Err(MissingKey("rain"))
    else
      var ks := SortedKeys(rows);
      var out := seq(|ks|, i requires 0 <= i < |ks| => SummedRow(rows, ks[i]));
      assert forall k :: k in KeySet(rows) <==> k in ks;
      assert forall i :: 0 <= i < |ks| ==> out[i].key == ks[i];
      Ok(out)
  }

  /** The value of one of the summed columns. */
  function Field(d: DayRow, column: string): int {
    if column == "radn" then d.radn
    else if column == "maxt" then d.maxt
    else if column == "mint" then d.mint
    else if column == "rain" then d.rain
    else 0
  }

  function FieldTotal(table: seq<DayRow>, column: string): int
    decreases |table|
  {
    if |table| == 0 then 0 else Field(table[0], column) + FieldTotal(table[1..], column)
  }

  function SumOver(ks: seq<Key>, rows: seq<Row>, column: string): int
    decreases |ks|
  {
    if |ks| == 0 then 0 else ColumnSum(rows, ks[0], column) + SumOver(ks[1..], rows, column)
  }

  function HitsOver(ks: seq<Key>, r: Row, column: string): int
    decreases |ks|
  {
    if |ks| == 0 then 0 else Contribution(r, ks[0], column) + HitsOver(ks[1..], r, column)
  }

  lemma {:induction false} SumOverCons(ks: seq<Key>, r: Row, rest: seq<Row>, column: string)
    ensures SumOver(ks, [r] + rest, column) == HitsOver(ks, r, column) + SumOver(ks, rest, column)
    decreases |ks|
  {
    assert ([r] + rest)[1..] == rest;
    if |ks| > 0 {
      SumOverCons(ks[1..], r, rest, column);
    }
  }

  lemma {:induction false} SumOverEmpty(ks: seq<Key>, column: string)
    ensures SumOver(ks, [], column) == 0
    decreases |ks|
  {
    if |ks| > 0 {
      SumOverEmpty(ks[1..], column);
    }
  }

  /** A row counts once among distinct keys that include its own key. */
  lemma {:induction false} HitsOverOnce(ks: seq<Key>, r: Row, column: string)
    requires KeysSorted(ks) && KeyOf(r) in ks
    ensures HitsOver(ks, r, column) == (if Rename(r.variable) == column then r.value.GetOr(0) else 0)
    decreases |ks|
  {
    if ks[0] == KeyOf(r) {
      HitsOverMiss(ks[1..], r, column);
    } else {
      HitsOverOnce(ks[1..], r, column);
    }
  }

  lemma {:induction false} HitsOverMiss(ks: seq<Key>, r: Row, column: string)
    requires KeysSorted(ks) && (|ks| > 0 ==> KeyLess(KeyOf(r), ks[0]))
    ensures HitsOver(ks, r, column) == 0
    decreases |ks|
  {
    if |ks| > 0 {
      if |ks| > 1 {
        assert KeyLess(ks[0], ks[1]);
      }
      HitsOverMiss(ks[1..], r, column);
    }
  }

  lemma {:induction false} SumOverAllKeys(ks: seq<Key>, rows: seq<Row>, column: string)
    requires KeysSorted(ks) && KeySet(rows) <= KeyElems(ks)
    ensures SumOver(ks, rows, column) == ColumnTotal(rows, column)
    decreases |rows|
  {
    if |rows| == 0 {
      SumOverEmpty(ks, column);
    } else {
      assert rows == [rows[0]] + rows[1..];
      SumOverCons(ks, rows[0], rows[1..], column);
      HitsOverOnce(ks, rows[0], column);
      SumOverAllKeys(ks, rows[1..], column);
    }
  }

  lemma {:induction false} FieldTotalIsSumOver(out: seq<DayRow>, ks: seq<Key>, rows: seq<Row>, column: string)
    requires |out| == |ks|
    requires forall i :: 0 <= i < |ks| ==> out[i] == SummedRow(rows, ks[i])
    requires column in ValueColumns
    ensures FieldTotal(out, column) == SumOver(ks, rows, column)
    decreases |ks|
  {
    if |ks| > 0 {
      FieldTotalIsSumOver(out[1..], ks[1..], rows, column);
    }
  }

  /** Grouping neither loses nor double-counts a measurement: each summed column's
      total over the grouped table equals its total over the input rows. */
  lemma GroupSumConserves(rows: seq<Row>, column: string)
    requires GroupSum(rows).Ok? && column in ValueColumns
    ensures FieldTotal(GroupSum(rows).value, column) == ColumnTotal(rows, column)
  {
    var ks := SortedKeys(rows);
    var out := GroupSum(rows).value;
    assert |out| == |ks| && forall i :: 0 <= i < |ks| ==> out[i] == SummedRow(rows, ks[i]);
    FieldTotalIsSumOver(out, ks, rows, column);
    SumOverAllKeys(ks, rows, column);
  }

  // ---------------------------------------------------------------------------
  // Per-coordinate slices

  /** A normalised row without its lat and lon columns. */
  datatype SliceRow = SliceRow(year: int, day: int, radn: int, maxt: int, mint: int, rain: int)

  predicate At(d: DayRow, lat: int, lon: int) {
    d.key.lon == lon && d.key.lat == lat
  }

  /** `df[(df.lon == lon) & (df.lat == lat)]`. */
  function Select(table: seq<DayRow>, lat: int, lon: int): (r: seq<DayRow>)
    ensures forall d :: d in r <==> d in table && At(d, lat, lon)
    decreases |table|
  {
    if |table| == 0 then []
    else
      var rest := Select(table[1..], lat, lon);
      assert forall d :: d in table <==> d == table[0] || d in table[1..] by {
        assert table == [table[0]] + table[1..];
      }
      (if At(table[0], lat, lon) then [table[0]] else []) + rest
  }

  /** Selecting from two tables one after the other selects from their concatenation. */
  lemma {:induction false} SelectAppend(a: seq<DayRow>, b: seq<DayRow>, lat: int, lon: int)
    ensures Select(a + b, lat, lon) == Select(a, lat, lon) + Select(b, lat, lon)
    decreases |a|
  {
    if |a| == 0 {
      assert a + b == b;
    } else {
      assert (a + b)[1..] == a[1..] + b;
      SelectAppend(a[1..], b, lat, lon);
    }
  }

  /** A table whose keys strictly ascend, as groupby leaves it. */
  predicate TableSorted(table: seq<DayRow>) {
    forall i, j :: 0 <= i < j < |table| ==> KeyLess(table[i].key, table[j].key)
  }

  /** Selection keeps the table's order. */
  lemma {:induction false} SelectSorted(table: seq<DayRow>, lat: int, lon: int)
    requires TableSorted(table)
    ensures TableSorted(Select(table, lat, lon))
    decreases |table|
  {
    if |table| > 0 {
      SelectSorted(table[1..], lat, lon);
      var rest := Select(table[1..], lat, lon);
      forall m | 0 <= m < |rest| ensures KeyLess(table[0].key, rest[m].key) {
        assert rest[m] in rest;
        assert rest[m] in table[1..];
        var j :| 0 <= j < |table[1..]| && table[1..][j] == rest[m];
        assert table[j + 1] == rest[m];
      }
      var s := Select(table, lat, lon);
      if At(table[0], lat, lon) {
        assert s == [table[0]] + rest;
        forall i, j | 0 <= i < j < |s| ensures KeyLess(s[i].key, s[j].key) {
          if i == 0 {
            assert s[j] == rest[j - 1];
          } else {
            assert s[i] == rest[i - 1] && s[j] == rest[j - 1];
            assert KeyLess(rest[i - 1].key, rest[j - 1].key);
          }
        }
      } else {
        assert s == rest;
      }
    }
  }

  function DropCoordinates(d: DayRow): SliceRow {
    SliceRow(d.key.year, d.key.day, d.radn, d.maxt, d.mint, d.rain)
  }

  /** The rows of one coordinate with the lat and lon columns deleted. */
  function Slice(table: seq<DayRow>, lat: int, lon: int): (r: seq<SliceRow>)
    ensures |r| == |Select(table, lat, lon)|
    ensures forall i :: 0 <= i < |r| ==> r[i] == DropCoordinates(Select(table, lat, lon)[i])
  {
    var s := Select(table, lat, lon);
    seq(|s|, i requires 0 <= i < |s| => DropCoordinates(s[i]))
  }

  predicate DateLess(a: SliceRow, b: SliceRow) {
    a.year < b.year || (a.year == b.year && a.day < b.day)
  }

  /** A slice of a grouped table runs strictly forward in time. */
  lemma SliceChronological(table: seq<DayRow>, lat: int, lon: int)
    requires TableSorted(table)
    ensures var s := Slice(table, lat, lon);
      forall i, j :: 0 <= i < j < |s| ==> DateLess(s[i], s[j])
  {
    SelectSorted(table, lat, lon);
    var sel := Select(table, lat, lon);
    forall i, j | 0 <= i < j < |sel| ensures DateLess(DropCoordinates(sel[i]), DropCoordinates(sel[j])) {
      assert sel[i] in sel && sel[j] in sel;
      assert At(sel[i], lat, lon) && At(sel[j], lat, lon);
      assert KeyLess(sel[i].key, sel[j].key);
    }
  }
}

=== FILE: text.dfy ===
/** The text conversions the pipeline relies on.

    This module covers Python's `str.split()` and `str.split(sep)`, `int()` and
    `float()` on decimal text, `str()` of integers and of coordinates,
    `str.zfill` and `str.replace(".", "")`. Coordinates are integers in
    hundredths of a degree, so `str()` of a coordinate is the shortest decimal
    that Python prints for the matching float.
 */
module Text {
  import opened Outcomes

  /** The ASCII characters Python's `str.split()` and `str.strip()` treat as whitespace. */
  predicate IsSpace(c: char) {
    c == ' ' || ('\t' <= c <= '\r') || ('\U{1C}' <= c <= '\U{1F}')
  }

  predicate IsDigit(c: char) { '0' <= c <= '9' }

  predicate AllDigits(s: string) {
    forall i :: 0 <= i < |s| ==> IsDigit(s[i])
  }

  function DigitValue(c: char): nat
    requires IsDigit(c)
  {
    (c as int) - ('0' as int)
  }

  function DigitChar(d: nat): (c: char)
    requires d < 10
    ensures IsDigit(c) && DigitValue(c) == d
  {
    (('0' as int) + d) as char
  }

  // ---------------------------------------------------------------------------
  // Integers as text

  /** Decimal digits of `n`, most significant first, without leading zeros. */
  function NatToString(n: nat): (s: string)
    ensures |s| >= 1 && AllDigits(s)
    decreases n
  {
    if n < 10 then [DigitChar(n)] else NatToString(n / 10) + [DigitChar(n % 10)]
  }

  /** Python's `str()` of an integer. */
  function IntToString(i: int): string {
    if i < 0 then "-" + NatToString(-i) else NatToString(i)
  }

  /** The value of a run of decimal digits (the empty run is 0). */
  function DigitsValue(s: string): nat
    requires AllDigits(s)
    decreases |s|
  {
    if |s| == 0 then 0 else 10 * DigitsValue(s[..|s| - 1]) + DigitValue(s[|s| - 1])
  }

  lemma {:induction false} DigitsValueOfNatToString(n: nat)
    ensures DigitsValue(NatToString(n)) == n
    decreases n
  {
    if n >= 10 {
      var s := NatToString(n / 10);
      DigitsValueOfNatToString(n / 10);
      assert (s + [DigitChar(n % 10)])[..|s|] == s;
    }
  }

  // ---------------------------------------------------------------------------
  // Stripping whitespace

  function TrimStart(s: string): (t: string)
    ensures |t| <= |s| && t == s[|s| - |t|..]
    ensures |t| > 0 ==> !IsSpace(t[0])
    decreases |s|
  {
    if |s| > 0 && IsSpace(s[0]) then TrimStart(s[1..]) else s
  }

  function TrimEnd(s: string): (t: string)
    ensures |t| <= |s| && t == s[..|t|]
    ensures |t| > 0 ==> !IsSpace(t[|t| - 1])
    decreases |s|
  {
    if |s| > 0 && IsSpace(s[|s| - 1]) then TrimEnd(s[..|s| - 1]) else s
  }

  /** Python's `str.strip()` with no argument. */
  function Strip(s: string): string {
    TrimEnd(TrimStart(s))
  }

  lemma StripKeepsTrimmed(s: string)
    requires |s| > 0 && !IsSpace(s[0]) && !IsSpace(s[|s| - 1])
    ensures Strip(s) == s
  {
  }

  // ---------------------------------------------------------------------------
  // Parsing numbers

  function ParseNat(s: string): (r: Option<nat>)
    ensures r.Some? <==> |s| > 0 && AllDigits(s)
  {
    if |s| > 0 && AllDigits(s) then Some(DigitsValue(s)) else None
  }

  /** Python's `int()` of ASCII text: surrounding whitespace, an optional sign, then
      decimal digits (no underscores, no non-ASCII digits). */
  function ParseInt(s: string): Option<int> {
    var t := Strip(s);
    if |t| > 0 && (t[0] == '+' || t[0] == '-') then
      match ParseNat(t[1..])
      case None => None
      case Some(n) => Some(if t[0] == '-' then -(n as int) else n)
    else
      match ParseNat(t)
      case None => None
      case Some(n) => Some(n)
  }

  lemma ParseIntOfDigits(d: string)
    requires |d| > 0 && AllDigits(d)
    ensures ParseInt(d) == Some(DigitsValue(d))
  {
    assert IsDigit(d[0]);
    StripKeepsTrimmed(d);
  }

  lemma ParseIntOfNegatedDigits(s: string)
    requires |s| > 1 && s[0] == '-' && AllDigits(s[1..])
    ensures ParseInt(s) == Some(-(DigitsValue(s[1..]) as int))
  {
    assert IsDigit(s[1..][|s| - 2]);
    StripKeepsTrimmed(s);
    assert ParseNat(s[1..]) == Some(DigitsValue(s[1..]));
  }

  /** `int()` reads back what `str()` prints. */
  lemma ParseIntOfIntToString(i: int)
    ensures ParseInt(IntToString(i)) == Some(i)
  {
    var n: nat := if i < 0 then -i else i;
    DigitsValueOfNatToString(n);
    if i < 0 {
      var s := IntToString(i);
      assert s[1..] == NatToString(n);
      ParseIntOfNegatedDigits(s);
    } else {
      ParseIntOfDigits(NatToString(n));
    }
  }

  // ---------------------------------------------------------------------------
  // Splitting on one separator

  function IndexOf(s: string, c: char): (i: nat)
    requires c in s
    ensures i < |s| && s[i] == c && c !in s[..i]
  {
    if s[0] == c then 0 else 1 + IndexOf(s[1..], c)
  }

  lemma {:induction false} IndexOfAfterPrefix(a: string, c: char, b: string)
    requires c !in a
    ensures c in a + [c] + b && IndexOf(a + [c] + b, c) == |a|
    decreases |a|
  {
    var s := a + [c] + b;
    assert s[|a|] == c;
    if |a| > 0 {
      assert s[1..] == a[1..] + [c] + b;
      IndexOfAfterPrefix(a[1..], c, b);
    }
  }

  /** Python's `str.split(sep)` for a one-character separator: empty pieces are kept. */
  function SplitOn(s: string, sep: char): (parts: seq<string>)
    ensures |parts| >= 1
    ensures forall k :: 0 <= k < |parts| ==> sep !in parts[k]
    ensures |parts| == 1 <==> sep !in s
    decreases |s|
  {
    if sep !in s then [s]
    else
      var i := IndexOf(s, sep);
      [s[..i]] + SplitOn(s[i + 1..], sep)
  }

  /** Python's `sep.join(parts)`. */
  function JoinWith(parts: seq<string>, sep: char): string
    decreases |parts|
  {
    if |parts| == 0 then ""
    else if |parts| == 1 then parts[0]
    else parts[0] + [sep] + JoinWith(parts[1..], sep)
  }

  /** Joining the pieces with the separator gives back the text. */
  lemma {:induction false} JoinWithSplitOn(s: string, sep: char)
    ensures JoinWith(SplitOn(s, sep), sep) == s
    decreases |s|
  {
    if sep in s {
      var i := IndexOf(s, sep);
      var a, b := s[..i], s[i + 1..];
      assert s == a + [sep] + b;
      SplitOnAt(a, sep, b);
      JoinWithSplitOn(b, sep);
      JoinWithCons(a, SplitOn(b, sep), sep);
    }
  }

  lemma JoinWithCons(a: string, rest: seq<string>, sep: char)
    requires |rest| >= 1
    ensures JoinWith([a] + rest, sep) == a + [sep] + JoinWith(rest, sep)
  {
    assert ([a] + rest)[1..] == rest;
  }

  lemma SplitOnAt(a: string, sep: char, b: string)
    requires sep !in a
    ensures SplitOn(a + [sep] + b, sep) == [a] + SplitOn(b, sep)
  {
    var s := a + [sep] + b;
    IndexOfAfterPrefix(a, sep, b);
    assert s[..|a|] == a;
    assert s[|a| + 1..] == b;
  }

  /** Splitting pieces that do not contain the separator gives back the pieces. */
  lemma {:induction false} SplitOnJoinWith(parts: seq<string>, sep: char)
    requires |parts| >= 1
    requires forall k :: 0 <= k < |parts| ==> sep !in parts[k]
    ensures SplitOn(JoinWith(parts, sep), sep) == parts
    decreases |parts|
  {
    if |parts| > 1 {
      var rest := JoinWith(parts[1..], sep);
      assert JoinWith(parts, sep) == parts[0] + [sep] + rest;
      SplitOnAt(parts[0], sep, rest);
      SplitOnJoinWith(parts[1..], sep);
      assert parts == [parts[0]] + parts[1..];
    }
  }

  // ---------------------------------------------------------------------------
  // Splitting on whitespace

  /** A piece of `str.split()` output: non-empty and free of whitespace. */
  predicate IsWord(w: string) {
    |w| > 0 && forall i :: 0 <= i < |w| ==> !IsSpace(w[i])
  }

  function LeadingWordLength(s: string): (n: nat)
    ensures n <= |s|
    ensures forall i :: 0 <= i < n ==> !IsSpace(s[i])
    ensures n < |s| ==> IsSpace(s[n])
    decreases |s|
  {
    if |s| == 0 || IsSpace(s[0]) then 0 else 1 + LeadingWordLength(s[1..])
  }

  /** Python's `str.split()` with no argument: runs of whitespace separate the words. */
  function Words(s: string): (ws: seq<string>)
    ensures forall k :: 0 <= k < |ws| ==> IsWord(ws[k])
    decreases |s|
  {
    if |s| == 0 then []
    else if IsSpace(s[0]) then Words(s[1..])
    else
      var n := LeadingWordLength(s);
      [s[..n]] + Words(s[n..])
  }

  /** The text with every whitespace character removed. */
  function WithoutSpaces(s: string): string
    decreases |s|
  {
    if |s| == 0 then ""
    else (if IsSpace(s[0]) then "" else [s[0]]) + WithoutSpaces(s[1..])
  }

  function Concat(ws: seq<string>): string
    decreases |ws|
  {
    if |ws| == 0 then "" else ws[0] + Concat(ws[1..])
  }

  lemma {:induction false} WithoutSpacesAppend(a: string, b: string)
    ensures WithoutSpaces(a + b) == WithoutSpaces(a) + WithoutSpaces(b)
    decreases |a|
  {
    if |a| > 0 {
      assert (a + b)[1..] == a[1..] + b;
      WithoutSpacesAppend(a[1..], b);
    } else {
      assert a + b == b;
    }
  }

  lemma {:induction false} WithoutSpacesOfWord(w: string)
    requires forall i :: 0 <= i < |w| ==> !IsSpace(w[i])
    ensures WithoutSpaces(w) == w
    decreases |w|
  {
    if |w| > 0 {
      WithoutSpacesOfWord(w[1..]);
      assert w == [w[0]] + w[1..];
    }
  }

  /** Splitting on whitespace loses only the whitespace: the words, concatenated, are the text without it. */
  lemma {:induction false} WordsKeepText(s: string)
    ensures Concat(Words(s)) == WithoutSpaces(s)
    decreases |s|
  {
    if |s| > 0 {
      if IsSpace(s[0]) {
        WordsKeepText(s[1..]);
      } else {
        var n := LeadingWordLength(s);
        WordsKeepText(s[n..]);
        assert s == s[..n] + s[n..];
        WithoutSpacesAppend(s[..n], s[n..]);
        WithoutSpacesOfWord(s[..n]);
        assert Words(s)[1..] == Words(s[n..]);
      }
    }
  }

  lemma {:induction false} LeadingWordLengthOfWord(w: string, t: string)
    requires forall i :: 0 <= i < |w| ==> !IsSpace(w[i])
    requires |t| == 0 || IsSpace(t[0])
    ensures LeadingWordLength(w + t) == |w|
    decreases |w|
  {
    if |w| > 0 {
      assert (w + t)[1..] == w[1..] + t;
      LeadingWordLengthOfWord(w[1..], t);
    } else {
      assert w + t == t;
    }
  }

  /** Words joined by single spaces split back into the same words. */
  lemma {:induction false} WordsOfJoin(ws: seq<string>)
    requires forall k :: 0 <= k < |ws| ==> IsWord(ws[k])
    ensures Words(JoinWith(ws, ' ')) == ws
    decreases |ws|
  {
    if |ws| == 1 {
      var w := ws[0];
      LeadingWordLengthOfWord(w, "");
      assert w + "" == w;
      assert w[|w|..] == "";
    } else if |ws| > 1 {
      var w := ws[0];
      var rest := JoinWith(ws[1..], ' ');
      var s := w + [' '] + rest;
      assert s == w + ([' '] + rest);
      LeadingWordLengthOfWord(w, [' '] + rest);
      assert s[..|w|] == w;
      assert s[|w|..] == [' '] + rest;
      assert ([' '] + rest)[1..] == rest;
      WordsOfJoin(ws[1..]);
      assert ws == [w] + ws[1..];
    }
  }

  // ---------------------------------------------------------------------------
  // Decimal digits

  function Pow10(k: nat): (p: nat)
    ensures p >= 1
  {
    if k == 0 then 1 else 10 * Pow10(k - 1)
  }

  /** A run of k digits is worth less than 10^k. */
  lemma {:induction false} DigitsValueBound(s: string)
    requires AllDigits(s)
    ensures DigitsValue(s) < Pow10(|s|)
    decreases |s|
  {
    if |s| > 0 {
      DigitsValueBound(s[..|s| - 1]);
    }
  }

  lemma AllDigitsAppend(a: string, b: string)
    requires AllDigits(a) && AllDigits(b)
    ensures AllDigits(a + b)
  {
    var ab := a + b;
    forall i | 0 <= i < |ab| ensures IsDigit(ab[i]) {
      if i < |a| { assert ab[i] == a[i]; } else { assert ab[i] == b[i - |a|]; }
    }
  }

  /** The value of two runs of digits written one after the other. */
  lemma {:induction false} DigitsValueAppend(a: string, b: string)
    requires AllDigits(a) && AllDigits(b)
    ensures AllDigits(a + b)
    ensures DigitsValue(a + b) == DigitsValue(a) * Pow10(|b|) + DigitsValue(b)
    decreases |b|
  {
    AllDigitsAppend(a, b);
    var ab := a + b;
    if |b| > 0 {
      var b' := b[..|b| - 1];
      var last := DigitValue(b[|b| - 1]);
      assert ab[..|ab| - 1] == a + b';
      assert ab[|ab| - 1] == b[|b| - 1];
      DigitsValueAppend(a, b');
      var va, vb', p := DigitsValue(a), DigitsValue(b'), Pow10(|b'|);
      assert DigitsValue(ab) == 10 * (va * p + vb') + last;
      assert DigitsValue(b) == 10 * vb' + last;
      assert Pow10(|b|) == 10 * p;
      Distribute(va, p, vb', last);
    } else {
      assert ab == a;
    }
  }

  lemma Distribute(va: int, p: int, vb: int, last: int)
    ensures 10 * (va * p + vb) + last == va * (10 * p) + (10 * vb + last)
  {
  }

  lemma {:induction false} DigitsValueOfZeros(n: nat)
    ensures AllDigits(Zeros(n)) && DigitsValue(Zeros(n)) == 0
    decreases n
  {
    if n > 0 {
      DigitsValueOfZeros(n - 1);
      DigitsValueAppend("0", Zeros(n - 1));
      assert Zeros(n) == "0" + Zeros(n - 1);
    }
  }

  lemma Pow10Values()
    ensures Pow10(1) == 10 && Pow10(2) == 100 && Pow10(3) == 1000 && Pow10(4) == 10000
  {
  }

  /** A number with k decimal digits prints as k characters. */
  lemma {:induction false} NatToStringLength(n: nat, k: nat)
    requires k >= 1 && Pow10(k - 1) <= n < Pow10(k)
    ensures |NatToString(n)| == k
    decreases k
  {
    if k > 1 {
      NatToStringLength(n / 10, k - 1);
    }
  }

  // ---------------------------------------------------------------------------
  // Coordinates as text

  function FractionText(f: nat): string
    requires f < 100
  {
    if f % 10 == 0 then [DigitChar(f / 10)] else [DigitChar(f / 10), DigitChar(f % 10)]
  }

  /** The unsigned part `str()` prints for `a` hundredths. */
  function CoordBody(a: nat): string {
    NatToString(a / 100) + "." + FractionText(a % 100)
  }

  /** Python's `str()` of the float holding `c` hundredths of a degree: "145.0", "-41.15", "-0.05". */
  function CoordToString(c: int): string {
    var a: nat := if c < 0 then -c else c;
    (if c < 0 then "-" else "") + CoordBody(a)
  }

  /** Decimal text with at most two fractional digits, read as hundredths. */
  function ParseUnsignedHundredths(b: string): Option<nat> {
    if '.' in b then
      var i := IndexOf(b, '.');
      var whole := b[..i];
      var frac := b[i + 1..];
      if AllDigits(whole) && AllDigits(frac) && |frac| <= 2 && |whole| + |frac| > 0 then
        Some(DigitsValue(whole) * 100 + (if |frac| == 1 then DigitValue(frac[0]) * 10 else DigitsValue(frac)))
      else None
    else if |b| > 0 && AllDigits(b) then Some(DigitsValue(b) * 100)
    else None
  }

  /** Python's `float()` of decimal text, for values with at most two decimals. */
  function ParseCoord(s: string): Option<int> {
    var t := Strip(s);
    var signed := |t| > 0 && (t[0] == '-' || t[0] == '+');
    var body := if signed then t[1..] else t;
    match ParseUnsignedHundredths(body)
    case None => None
    case Some(v) => Some(if signed && t[0] == '-' then -(v as int) else v)
  }

  lemma ParseFraction(f: nat)
    requires f < 100
    ensures AllDigits(FractionText(f)) && 1 <= |FractionText(f)| <= 2
    ensures (if |FractionText(f)| == 1 then DigitValue(FractionText(f)[0]) * 10 else DigitsValue(FractionText(f))) == f
  {
    var t := FractionText(f);
    if f % 10 != 0 {
      assert t[..1] == [DigitChar(f / 10)];
      assert DigitsValue(t[..1]) == 10 * DigitsValue([]) + DigitValue(t[0]);
      assert DigitsValue(t) == 10 * (f / 10) + f % 10;
    }
  }

  lemma ParseUnsignedOfParts(n: nat, f: nat)
    requires f < 100
    ensures ParseUnsignedHundredths(NatToString(n) + "." + FractionText(f)) == Some(n * 100 + f)
  {
    var whole := NatToString(n);
    var frac := FractionText(f);
    var body := whole + "." + frac;
    ParseFraction(f);
    DigitsValueOfNatToString(n);
    assert '.' !in whole by {
      forall k | 0 <= k < |whole| ensures whole[k] != '.' {
        assert IsDigit(whole[k]);
      }
    }
    IndexOfAfterPrefix(whole, '.', frac);
    assert body == whole + ['.'] + frac;
    assert body[..|whole|] == whole;
    assert body[|whole| + 1..] == frac;
  }

  /** Unsigned text that starts and ends with a digit is read without stripping. */
  lemma ParseCoordOfUnsigned(body: string)
    requires |body| > 0 && IsDigit(body[0]) && IsDigit(body[|body| - 1])
    ensures ParseCoord(body) == match ParseUnsignedHundredths(body) case None => None case Some(v) => Some(v as int)
  {
    StripKeepsTrimmed(body);
  }

  /** A leading minus sign negates the value of the text after it. */
  lemma ParseCoordOfNegative(body: string)
    requires |body| > 0 && IsDigit(body[|body| - 1])
    ensures ParseCoord("-" + body) == match ParseUnsignedHundredths(body) case None => None case Some(v) => Some(-(v as int))
  {
    var s := "-" + body;
    assert s[0] == '-' && s[|s| - 1] == body[|body| - 1] && s[1..] == body;
    StripKeepsTrimmed(s);
  }

  /** The unsigned part starts and ends with a digit and reads back as `a`. */
  lemma CoordBodyReadsBack(a: nat)
    ensures var body := CoordBody(a);
      |body| > 0 && IsDigit(body[0]) && IsDigit(body[|body| - 1])
      && ParseUnsignedHundredths(body) == Some(a)
  {
    var whole, frac := NatToString(a / 100), FractionText(a % 100);
    var body := whole + "." + frac;
    ParseUnsignedOfParts(a / 100, a % 100);
    assert (a / 100) * 100 + a % 100 == a;
    ParseFraction(a % 100);
    assert body[0] == whole[0] && IsDigit(whole[0]);
    assert body[|body| - 1] == frac[|frac| - 1] && IsDigit(frac[|frac| - 1]);
  }

  /** `float()` reads back the coordinate that `str()` prints. */
  lemma ParseCoordOfCoordToString(c: int)
    ensures ParseCoord(CoordToString(c)) == Some(c)
  {
    var a: nat := if c < 0 then -c else c;
    CoordBodyReadsBack(a);
    if c < 0 {
      assert CoordToString(c) == "-" + CoordBody(a);
      ParseCoordOfNegative(CoordBody(a));
    } else {
      assert CoordToString(c) == [] + CoordBody(a) == CoordBody(a);
      ParseCoordOfUnsigned(CoordBody(a));
    }
  }

  // ---------------------------------------------------------------------------
  // Small string edits

  /** `s[count:]` in Python: empty when the text is shorter. */
  function DropPrefix(s: string, count: nat): (r: string)
    ensures |r| == if |s| <= count then 0 else |s| - count
  {
    if |s| <= count then "" else s[count..]
  }

  /** `s[:count]` in Python: the whole text when it is shorter. */
  function TakePrefix(s: string, count: nat): (r: string)
    ensures |r| == if |s| <= count then |s| else count
  {
    if |s| <= count then s else s[..count]
  }

  /** Python's `s.replace(str(c), "")`. */
  function Without(s: string, c: char): (r: string)
    ensures |r| <= |s|
    decreases |s|
  {
    if |s| == 0 then "" else (if s[0] == c then "" else [s[0]]) + Without(s[1..], c)
  }

  lemma {:induction false} WithoutAppend(a: string, b: string, c: char)
    ensures Without(a + b, c) == Without(a, c) + Without(b, c)
    decreases |a|
  {
    if |a| == 0 {
      assert a + b == b;
    } else {
      assert (a + b)[1..] == a[1..] + b;
      WithoutAppend(a[1..], b, c);
    }
  }

  /** After removal the character no longer occurs. */
  lemma {:induction false} WithoutRemoves(s: string, c: char)
    ensures c !in Without(s, c)
    decreases |s|
  {
    if |s| > 0 {
      WithoutRemoves(s[1..], c);
    }
  }

  /** Removing a character the text does not hold leaves it unchanged. */
  lemma {:induction false} WithoutAbsent(s: string, c: char)
    requires c !in s
    ensures Without(s, c) == s
    decreases |s|
  {
    if |s| > 0 {
      WithoutAbsent(s[1..], c);
      assert s == [s[0]] + s[1..];
    }
  }

  /** Removing the decimal point of "whole.frac". */
  lemma DropDot(whole: string, frac: string)
    requires '.' !in whole && '.' !in frac
    ensures Without(whole + ['.'] + frac, '.') == whole + frac
  {
    var w := whole + ['.'];
    WithoutAppend(w, frac, '.');
    WithoutAppend(whole, ['.'], '.');
    WithoutAbsent(whole, '.');
    WithoutAbsent(frac, '.');
    WithoutDot();
    assert Without(w, '.') == whole;
    assert whole + ['.'] + frac == w + frac;
  }

  lemma WithoutDot()
    ensures Without(['.'], '.') == []
  {
  }

  function Zeros(n: nat): (z: string)
    ensures |z| == n && forall i :: 0 <= i < n ==> z[i] == '0'
  {
    if n == 0 then "" else "0" + Zeros(n - 1)
  }

  /** Python's `str.zfill(width)`: zeros are inserted after a leading sign until the text is `width` long. */
  function ZFill(s: string, width: nat): (r: string)
    ensures |r| == if |s| < width then width else |s|
    ensures |s| > 0 && s[0] != '+' && s[0] != '-' ==> r == Zeros(|r| - |s|) + s
  {
    var pad: nat := if |s| < width then width - |s| else 0;
    if |s| > 0 && (s[0] == '+' || s[0] == '-') then [s[0]] + Zeros(pad) + s[1..]
    else Zeros(pad) + s
  }
}
